=== FILE: README.md ===
# modeling — a Dafny model of the renderer's CPU-side core

This project models the GPU-free logic of a small wgpu model viewer written in
Rust, and proves properties of it. The viewer loads OBJ models, builds their
vertex arrays and tangent frames, caches shaders and materials by key, and
orbits a camera with keyboard and mouse. It also paces redraws to sixty frames
a second. The parts modelled are:

- **Camera** (`src/camera.rs`). Covers the projection record, the camera
  controller's event handling and its update step, and the hand-written
  quaternion helpers.
- **Shader discovery** (`build.rs`). `ShaderData::load` classifies a shader by
  its extension and derives the `.spv` output path; `main` collects the loads.
- **URL query lookup** (`src/main.rs`, `parse_url_query_string`).
- **Texture descriptors** (`src/texture.rs`). Covers format choice, extent and
  row pitch, depth-texture sizing, the embedded house images, and glTF MIME
  types and sampler filters.
- **OBJ loading** (`src/model.rs`, `src/collection.rs`). Covers fallback
  colours, material keys, the shader and material caches, vertex assembly, the
  tangent pass, and mesh/material lookup. It also covers the model collection
  and the embedded Rungholt house.
- **Event dispatch and frame pacing** (`src/state.rs`, `handle_event` and
  `resize`).

## How the model is built

- f32 and f64 values are Dafny `real`s. `sqrt`, `sin` and `cos` come from an
  oracle record, `Vectors.Maths`, constrained by `Vectors.ValidMaths`.
  Normalising the zero vector gives NaN in f32; the model returns `None` there.
- `u32` values are `nat`s below `2^32`. A truncating `as u32` is written as
  `% U32_LIMIT`. A float-to-`u8` cast saturates, as Rust's `as` does.
- Failures are `Failures.Failure`:
  - `Error(message)` is an `anyhow` error returned with `?`.
  - `Panic(reason)` is an `unwrap`, an index out of range, `unreachable!` or
    `panic!`.
- The file system, decoded images and tobj's parse result are inputs:
  - A file system is a map from path to contents.
  - The images that open are a map from path to image.
  - A parsed OBJ file is an `ObjFile` value.
- Paths are sequences of components (`Paths`). File names are OS strings, so
  non-UTF-8 names can be represented.
- The scene's shader and material caches are `map<string, _>` values. They are
  threaded through the loader, which returns the updated caches.
- Time is an integer count of nanoseconds. The GPU work an event triggers is
  returned as a list of effects.

## Model

| member | source | states |
|---|---|---|
| `CameraControl.ProjectionNew` | src/camera.rs:21-34 | the aspect ratio times the height is the width; fovy, znear and zfar are kept |
| `CameraControl.ResizeProjection` | src/camera.rs:36-38 | only the aspect ratio changes, to width over height |
| `CameraControl.SetFlag` | src/camera.rs:117-158 | setting one key flag makes it read back as set |
| `CameraControl.SetFlagKeepsTheRest` | src/camera.rs:117-158 | setting one flag leaves every other flag and every non-flag field unchanged |
| `CameraControl.NewController` | src/camera.rs:85-104 | a new controller has no flag set, no wheel scroll, zero scroll, both cursor positions at the origin (0, 0) and the given speed |
| `CameraControl.ProcessEvents` | src/camera.rs:106-186 | an event is consumed exactly when it is a table key, a line scroll or the middle button; the middle button sets the drag flag to "pressed?"; an unconsumed event other than a cursor move changes nothing; a cursor move records only the current position |
| `CameraControl.KeyEventSetsItsFlag` | src/camera.rs:108-161 | a table key sets exactly its flag to "pressed?" and is consumed; any other key, or a missing key code, is ignored |
| `CameraControl.MiddleButtonSetsDrag` | src/camera.rs:174-183 | the middle button sets exactly the drag flag to "pressed?" and is consumed; any other button is ignored |
| `CameraControl.LineScrollArmsDolly` | src/camera.rs:162-167 | a line scroll stores the vertical amount, raises the wheel flag and is consumed |
| `CameraControl.Rotation` | src/camera.rs:332-336 | the quaternion's squared norm is `1 + sin²(t/2)(|n|²-1)`, so it is a unit quaternion when the axis is a unit vector |
| `CameraControl.Orbit` | src/camera.rs:207-214 | the step fails exactly when the rotated up vector is zero; otherwise the target is kept and the new up vector is a unit vector |
| `CameraControl.OrbitScalesRadius` | src/camera.rs:207-245 | an orbit step multiplies the squared orbit radius by `|q|⁴` |
| `CameraControl.YawKeepsRadius` | src/camera.rs:207-223 | a yaw step keeps the orbit radius and the target |
| `CameraControl.RightAxis` | src/camera.rs:228 | the right axis exists exactly when the viewing direction is non-zero |
| `CameraControl.PitchScalesRadius` | src/camera.rs:225-245 | a pitch step scales the squared radius by `|q|⁴`, and keeps it when the right axis is a unit vector |
| `CameraControl.SnapFront` | src/camera.rs:247-253 | the front snap puts the target at the origin and the eye on the negative z axis, with up = +y and the same orbit radius |
| `CameraControl.SnapRight` | src/camera.rs:255-261 | the right snap puts the eye on the negative x axis with up = (0, 2, 0), keeping the radius |
| `CameraControl.SnapTop` | src/camera.rs:263-269 | the top snap puts the eye on the positive y axis with up = +z, keeping the radius |
| `CameraControl.Pan` | src/camera.rs:277-282 | a shift-drag keeps the viewing direction and the up vector; it fails exactly when the start direction is zero |
| `CameraControl.DragRotationNorm` | src/camera.rs:284-295 | the drag quaternion's squared norm is the product of its pitch and yaw parts, so it is a unit quaternion when the right axis is a unit vector |
| `CameraControl.Dolly` | src/camera.rs:194-205 | a wheel scroll moves the eye by a tenth of the starting view direction times the scroll and clears the wheel state; with no scroll, nothing changes |
| `CameraControl.RotateByKeys` | src/camera.rs:207-245 | with no rotation key held the camera is unchanged |
| `CameraControl.SnapByKeys` | src/camera.rs:247-269 | the last snap key held decides the up vector; any snap puts the target at the origin and keeps the radius; no snap key means no change |
| `CameraControl.UpdateCamera` | src/camera.rs:188-300 | after an update the previous cursor position is the current one; an update without rotation keys or middle button cannot fail |
| `CameraControl.IdleUpdateKeepsCamera` | src/camera.rs:188-300 | with nothing held and no scroll, only the cursor bookkeeping changes |
| `CameraControl.NewControllerKeepsCamera` | src/camera.rs:85-104 | a new controller's first update leaves the camera and the controller as they were |
| `CameraControl.DollyHappensOnce` | src/camera.rs:194-205 | a scroll dollies once and disarms, so a second update does not move the eye again |
| `CameraControl.PanKeepsForward` | src/camera.rs:271-282 | a shift-drag with nothing else held keeps `target - eye` and up |
| `CameraControl.RightSnapSkewsNextPitch` | src/camera.rs:255-261 | after the right snap, the next pitch quaternion has squared norm `1 + 3 sin²(t/2)`, not 1 |
| `CameraControl.DoubledAxisRotation` | src/camera.rs:332-336 | rotating about the doubled axis (0, 0, 2) gives squared norm `1 + 3 sin²(t/2)` |
| `CameraControl.RightSnapAxis` | src/camera.rs:255-261 | after the right snap the camera's right axis is (0, 0, 2), twice the unit z axis |
| `CameraControl.RightAxisOnX` | src/camera.rs:228 | looking along +x with up (0, 2, 0), the right axis is (0, 0, 2) |
| `Quaternions.RotateQuaternion` | src/camera.rs:332-336 | for `s² + c² = 1` the squared norm is `1 + s²(|n|²-1)`, so a unit axis gives a unit quaternion |
| `Quaternions.QuatMatrixOfIdentity` | src/camera.rs:303-330 | the identity quaternion gives the identity matrix |
| `Quaternions.MultIdentityLeft` | src/camera.rs:338-342 | the identity quaternion on the left changes nothing |
| `Quaternions.MultIdentityRightConjugates` | src/camera.rs:338-342 | the identity quaternion on the right conjugates, because the column-major matrix computes `conj(a) * b` |
| `Quaternions.QuatMatrixScalesLength` | src/camera.rs:303-330 | the matrix scales squared lengths by `|q|⁴` |
| `Quaternions.ColumnLengths` | src/camera.rs:319-329 | each column has squared length `|q|⁴` |
| `Quaternions.ColumnsOrthogonal` | src/camera.rs:319-329 | the columns are pairwise orthogonal |
| `Quaternions.UnitQuatPreservesLength` | src/camera.rs:303-330 | a unit quaternion's matrix preserves length |
| `Quaternions.MultNormMultiplicative` | src/camera.rs:338-342 | the product's squared norm is the product of the squared norms |
| `Quaternions.QuatMatrixEntries` | src/camera.rs:319-329 | the nine entries are stored column by column (cgmath's layout) |
| `Quaternions.MultQuaternionEntries` | src/camera.rs:339-341 | the four components of the product, with the sixteen entries read as columns |
| `Vectors.Magnitude` | src/camera.rs:191 | the magnitude is the non-negative root of the squared length |
| `Vectors.Normalize` | src/camera.rs:190 | normalising fails exactly on the zero vector |
| `Vectors.NormalizeIsUnit` | src/camera.rs:190 | a normalised non-zero vector has unit length and is a positive multiple of the input |
| `ShaderBuild.KindOf` | build.rs:25-30 | only `vert`, `frag` and `comp` name a shader kind |
| `ShaderBuild.KindOfInvertsExtensionFor` | build.rs:25-30 | an extension names a kind exactly when it is that kind's extension |
| `ShaderBuild.ReadToString` | build.rs:32 | reading succeeds exactly for an existing UTF-8 file and returns its text; a missing file is NotFound |
| `ShaderBuild.LoadShader` | build.rs:19-41 | a load succeeds exactly when the extension is text naming a kind and the file reads; it fails with a read error exactly when the extension is good and the read fails, and that error is the read's own, bare |
| `ShaderBuild.ExtensionCheckedBeforeRead` | build.rs:20-30 | a bad extension fails the same way whatever the file system holds, and never with a read error |
| `ShaderBuild.SpvPathAppendsSuffix` | build.rs:33 | the output path is the source path with `.spv` appended to the file name's extension, so it differs from the source |
| `ShaderBuild.LoadEntry` | build.rs:54 | a glob error is reported before any load; a found path succeeds exactly when its shader loads, with that shader, and otherwise fails with the load's error |
| `ShaderBuild.LoadAll` | build.rs:52-55 | one load result per entry, in order |
| `ShaderBuild.CollectResults` | build.rs:56-57 | all values in order when every result is Ok; otherwise the first error |
| `ShaderBuild.CollectShaders` | build.rs:46-57 | the shader list is complete and ordered, or it is the first entry's error |
| `Paths.ToStr` | build.rs:23-24 | conversion succeeds exactly when every unit is text, and the result converts back |
| `Paths.FileName` | build.rs:97 | a file name exists exactly when the last component is a normal name |
| `Paths.SplitAtDot` | build.rs:20-22 | stem, dot and extension rebuild the name; the extension contains no dot |
| `Paths.WithExtension` | build.rs:33 | only the last component changes, and a path without a file name is unchanged |
| `Paths.AppendToExtension` | build.rs:33 | replacing an extension by itself plus a suffix appends the suffix to the file name |
| `Paths.Parent` | src/model.rs:106 | a parent exists exactly for a non-empty path not ending at the root, and adding back the last component restores the path |
| `Paths.JoinName` | src/model.rs:114 | joining appends exactly one component after the directory |
| `Paths.JoinNameSplits` | src/model.rs:114 | the parent of a joined path is the directory and its file name is the joined name |
| `Strings.Decimal` | src/model.rs:189 | a non-empty string of digits |
| `Strings.DecimalRoundTrip` | src/model.rs:189 | reading the decimal text back gives the number |
| `Strings.DecimalInjective` | src/model.rs:189 | different indices format differently |
| `Strings.Split` | src/main.rs:94-95 | at least one piece, no piece contains the separator, and joining the pieces gives the input back |
| `Strings.SplitJoin` | src/main.rs:94-95 | splitting a join of separator-free pieces gives the pieces back |
| `UrlQuery.StripPrefix` | src/main.rs:92 | the prefix is removed exactly when the string starts with it, and putting it back gives the string |
| `UrlQuery.ParseUrlQueryString` | src/main.rs:91-105 | a query that does not start with `?` gives no value |
| `UrlQuery.ExaminePairReads` | src/main.rs:95-101 | a pair without `=` stops the search; otherwise the key is the text before the first `=`, and the value runs to the next `=` |
| `UrlQuery.ScanStopsAtFirstMatch` | src/main.rs:94-102 | if pair n is the first match and every earlier pair is well formed with a different key, the search returns pair n's value |
| `UrlQuery.ScanStopsOnlyAtFirstMatch` | src/main.rs:94-102 | wherever the search stops with a value is such a first match |
| `UrlQuery.ScanPairsFindsFirst` | src/main.rs:94-104 | the search finds a value exactly when a first match exists, and the value is that pair's |
| `UrlQuery.ParseFindsFirst` | src/main.rs:91-105 | a value is returned exactly when the query starts with `?` and the rest has a first match; the value is that pair's |
| `UrlQuery.ValueIsSliceOfQuery` | src/main.rs:91-105 | the value is a substring of the query with neither `&` nor `=` in it |
| `UrlQuery.ScanIndex` | src/main.rs:94-102 | the index where the search stops names a matching pair |
| `UrlQuery.MalformedPairStopsSearch` | src/main.rs:96-97 | a first pair without `=` ends the search with nothing, even if a later pair has the key |
| `UrlQuery.FirstPairFound` | src/main.rs:99-101 | a first pair `key=value` gives `value` for `key` |
| `Textures.ColorFormat` | src/texture.rs:38-42 | normal maps are linear RGBA, other colour textures sRGB; never the depth format |
| `Textures.OnePixel` | src/texture.rs:17-81 | a 1×1×1 texture of the given format, uploaded with row pitch 4 and one row, id 0 and texture coordinate 0 |
| `Textures.RowPitch` | src/texture.rs:135 | the pitch is `4 * width` when that fits in u32; otherwise the multiplication panics |
| `Textures.FromImage` | src/texture.rs:94-158 | succeeds exactly for a non-empty image whose pitch fits; every failure is a panic; the texture has the image's extent and format |
| `Textures.OnePixelIsSmallestImage` | src/texture.rs:94-158 | building from a 1×1 image gives the same texture as `one_pixel` |
| `Textures.ColorTexturesAreNotDepth` | src/texture.rs:115-119 | an image texture never has the depth format |
| `Textures.CreateDepthTexture` | src/texture.rs:161-206 | the depth texture has the surface's extent, the depth format, render-attachment and binding usage, a LessEqual compare sampler and id 1000000 |
| `Textures.DepthTextureTracksSurface` | src/texture.rs:166-171 | two configurations give equal depth extents exactly when they are equal |
| `Textures.Load` | src/texture.rs:207-218 | a path that does not open is an error; otherwise the result is `from_image` of the opened image |
| `Textures.LoadHouse` | src/texture.rs:220-247 | only the three embedded names load; any other name panics; an error means the embedded bytes did not decode |
| `Textures.JpegMimePanicsAsWritten` | src/texture.rs:265-269 | as written, `image/jpeg` finds no format and `image/jpeq` selects JPEG |
| `Textures.MimeFormat` | src/texture.rs:265-269 | a MIME type selects only the format it is registered for |
| `Textures.MimeFormatRoundTrip` | src/texture.rs:265-269 | each format's registered MIME type selects that format |
| `Textures.MimeFormatFixesOnlyJpeg` | src/texture.rs:265-269 | the corrected and as-written dispatches differ exactly on the two JPEG spellings |
| `Textures.MinFilter` | src/texture.rs:327-331 | only the plain linear minification filter maps to Linear |
| `Textures.MagFilterInjective` | src/texture.rs:322-325 | the magnification mapping is one to one |
| `Textures.SourceImage` | src/texture.rs:259-283 | every failure is a panic; a `res` file opens exactly when it exists; a buffer view gives an image exactly when it is in range, the table knows its MIME type and the bytes decode in that format; an in-range view of an unknown type panics with "mimetype" |
| `Textures.NonZero` | src/texture.rs:315-316 | absent exactly for zero, otherwise the number itself |
| `Textures.LoadGltf` | src/texture.rs:249-349 | only panics; a texture is built exactly when the image is obtained with the as-written MIME table, its pitch fits and both filters are present; it then has the image's extent and pixels, the non-zero pitch and row count, sRGB format, the glTF index as id, the info's texture coordinate and the mapped filters |
| `Textures.LoadGltfIntended` | src/texture.rs:249-349 | the same loader and contract with the intended MIME table |
| `Textures.GltfJpegViewPanics` | src/texture.rs:265-269 | as written, an in-range buffer view of type `image/jpeg` panics with "mimetype", whatever its bytes |
| `Textures.IntendedGltfDecodesRegisteredTypes` | src/texture.rs:265-269 | with the intended table, a view of a format's registered type that decodes is built into a texture from exactly that image |
| `Textures.GltfLoadersAgreeOffJpeg` | src/texture.rs:265-269 | the two loaders agree on every source except a view spelled with one of the two JPEG types |
| `Textures.GltfAcceptsWhatFromImageRejects` | src/texture.rs:315-316 | an empty glTF image still loads, with the row pitch left unset, where `from_image` panics |
| `MeshAssembly.VerticesUpTo` | src/model.rs:215-231 | the first n vertices, each built from its position, texture coordinate (v flipped) and normal |
| `MeshAssembly.BuildVertices` | src/model.rs:214-231 | the vertex loop succeeds exactly when the attribute arrays cover every vertex, and it panics otherwise |
| `MeshAssembly.LastTouch` | src/model.rs:235-265 | the last of the first n triangles that references a vertex, and no later one does |
| `MeshAssembly.FrameSolvesEdges` | src/model.rs:248-256 | the tangent and bitangent solve the texture-space edge equations; the frame is non-finite exactly when the UV determinant is zero |
| `MeshAssembly.SetFrame` | src/model.rs:258-264 | the three corners get the frame and every other vertex is unchanged |
| `MeshAssembly.SameFrame` | src/model.rs:240-256 | a triangle's frame depends only on positions and texture coordinates, so frames written earlier do not change it |
| `MeshAssembly.Rebuild` | src/model.rs:235-265 | once every triangle is applied, each vertex is its original self with only the frame replaced, by the frame its last referencing triangle gives |
| `MeshAssembly.PassTriangle` | src/model.rs:235-265 | one triangle moves the pass state from t triangles to t+1 |
| `MeshAssembly.PassWholeTriangles` | src/model.rs:235-265 | every whole triangle is applied in order, or the first that names a missing vertex panics |
| `MeshAssembly.TangentPass` | src/model.rs:235-265 | succeeds exactly for whole in-range triangles; each vertex ends with the frame of the last triangle that references it, and its geometry is untouched |
| `MeshAssembly.AssembleVertices` | src/model.rs:212-265 | succeeds exactly for an assemblable mesh and yields each assembled vertex |
| `ModelLoad.Meshes` | src/model.rs:68-75 | the mesh list of whichever model variant is held |
| `ModelLoad.ChannelByte` | src/model.rs:121 | the saturating cast: 0 at or below 0, 255 at or above 255, otherwise the floor |
| `ModelLoad.FallbackBytes` | src/model.rs:118-123 | four bytes: the three cast channels, then an opaque alpha |
| `ModelLoad.FallbackQuantises` | src/model.rs:118-123 | each channel in [0, 1] maps to the floor of 255 times it; white and black map to 255 and 0 |
| `ModelLoad.MapTexture` | src/model.rs:112-131 | an empty file name gives the fallback; otherwise the texture under the containing folder, and a missing one is a "not found" error |
| `ModelLoad.MaterialTextures` | src/model.rs:112-165 | all three maps load, or the first failure in diffuse, normal, specular order is returned unchanged; each empty name gives its fallback |
| `ModelLoad.MaterialKeyInjective` | src/model.rs:189 | two materials share a key only if they have the same name and index |
| `ModelLoad.CacheMaterial` | src/model.rs:167-207 | the key is `name-index`; the shader and material are get-or-insert; a hit leaves the material cache unchanged, and a miss adds exactly the new material, with index `i as u32` and the cached shader |
| `ModelLoad.LoadMaterial` | src/model.rs:111-209 | one iteration: texture failures propagate before any cache is touched, and otherwise the caches are updated as above |
| `ModelLoad.MissingTextureFailsOnCacheHit` | src/model.rs:113-115 | a missing diffuse texture fails the load even when the material is already cached |
| `ModelLoad.SameNameAndIndexShareEntry` | src/model.rs:189-207 | loading a material whose key is cached returns the cached entry and leaves the material cache unchanged |
| `ModelLoad.KeyDash` | src/model.rs:189 | the character after the name is a dash and no later character is one, so the index part can be read back |
| `ModelLoad.TurnKeepsState` | src/model.rs:190-207 | one turn of the material loop keeps the loop state: old entries kept and every key so far cached |
| `ModelLoad.CreatedStep` | src/model.rs:190-207 | one turn keeps every entry the loop created built from its own material's textures |
| `ModelLoad.MaterialKeys` | src/model.rs:189 | one key per material, in order |
| `ModelLoad.LoadMaterials` | src/model.rs:111-210 | the material loop keeps old cache entries; it returns the first failure or the keys in order, every key cached, and each new entry built from its own textures |
| `ModelLoad.LoadMeshes` | src/model.rs:212-291 | every model becomes a mesh with its vertices, indices, `len as u32` element count and the material its id names, or the loop panics |
| `ModelLoad.LoadFile` | src/model.rs:108-293 | once tobj has returned, the load succeeds exactly when every texture loads and every mesh assembles with an existing material |
| `ModelLoad.LoadObjModel` | src/model.rs:88-294 | a parse error and a missing parent are errors that leave the caches alone; a failed material library panics; once those pass, it succeeds exactly when every material's maps build and every model assembles with an existing material, and then each mesh is `MeshOf` its model |
| `ResourceCache.GetOrInsert` | src/model.rs:171-187 | a hit returns the cached value and the same map; a miss inserts the made value; other entries are kept |
| `ResourceCache.GetOrInsertIdempotent` | src/model.rs:171-187 | asking again for the same key returns the same value and map, whatever would be made |
| `ResourceCache.GetOrInsertCommutes` | src/model.rs:190-207 | inserting under two different keys gives the same cache in either order |
| `Collections.Meshes` | src/collection.rs:42-49 | the mesh list of whichever of the three model variants is held |
| `Collections.New` | src/collection.rs:20-24 | a new collection holds no models |
| `Collections.AddModel` | src/collection.rs:25-27 | the key now names the model; other keys keep theirs |
| `Collections.AddModelOverwrites` | src/collection.rs:25-27 | adding twice under one key keeps only the second model |
| `Collections.AddModelCommutes` | src/collection.rs:25-27 | adds under different keys commute |
| `Collections.LoadMeshes` | src/collection.rs:97-158 | every model becomes a mesh in order, or the first model that cannot be assembled panics |
| `Collections.MeshOfUnique` | src/collection.rs:97-158 | a model determines its mesh |
| `Collections.AgreesWithModelLoad` | src/collection.rs:97-158 | both loaders build the same name, vertices, indices and element count from the same model |
| `Collections.LoadParsed` | src/collection.rs:86-160 | a missing parent is an error; a failed material library panics; otherwise meshes for every assemblable model |
| `Collections.LoadObj` | src/collection.rs:73-161 | a parse failure is an error; success means every mesh is built from its model and the result is dirty |
| `Collections.ResolveMtl` | src/collection.rs:202-208 | only a library whose file name is `house.mtl` resolves; anything else panics |
| `Collections.ResolveAll` | src/collection.rs:195-209 | every referenced library resolves, or the load panics |
| `Collections.LoadRungholt` | src/collection.rs:189-287 | a rejected library panics; success requires resolution, a parse, a parent, the materials and every model assemblable, and the result is dirty |
| `Collections.ResolveAllStopsAtFirstRejected` | src/collection.rs:195-209 | the first library the resolver rejects, after libraries that all resolve, decides the panic; later libraries are never looked at |
| `FrameDriver.Resize` | src/state.rs:184-191 | the size, the surface configuration and the controller all take the new size, then the swap chain and scene are rebuilt |
| `FrameDriver.ResizeForgetsOldSize` | src/state.rs:184-191 | resizing is idempotent and does not depend on the previous size |
| `FrameDriver.ResizeSizesDepthTexture` | src/state.rs:186-189 | after a resize the depth texture has exactly the new size |
| `FrameDriver.Elapsed` | src/state.rs:52 | the elapsed time since the last redraw, zero if the clock is behind |
| `FrameDriver.ResizeRequest` | src/state.rs:84-91 | only Resized and ScaleFactorChanged carry a new size |
| `FrameDriver.Dispatch` | src/state.rs:71-94 | close and escape-press exit; a resize or scale change resizes; anything else changes nothing |
| `FrameDriver.HandleEvent` | src/state.rs:37-98 | a redraw request renders; the main-events-cleared event updates the camera, then the scene; an event for another window, or one the controller consumed, does nothing |
| `FrameDriver.FramePacing` | src/state.rs:50-61 | a redraw is requested exactly when a frame time has passed, and then the last-redraw instant moves to the clock; otherwise the loop waits until a deadline after the clock and within one frame |
| `FrameDriver.ExitOnlyOnRequest` | src/state.rs:67-83 | the loop exits exactly on an unconsumed close or escape-press on its own window |
| `FrameDriver.IgnoredWindowEvents` | src/state.rs:67-71 | a consumed event, or one for another window, changes nothing |
| `FrameDriver.EscapeReleaseIgnored` | src/state.rs:76-83 | releasing escape does nothing, and pressing it exits |
| `FrameDriver.HandleEventKeepsConsistent` | src/state.rs:84-91 | every event keeps the three copies of the size in agreement; only a resize on the program's own window changes the size |

## Left out

- The GPU itself is not modelled. That covers devices, queues, buffers, bind
  groups, pipelines, the swap chain, `State::render`, `src/renderer.rs`,
  `src/shader.rs`, `src/light.rs`, `src/scene.rs`, `src/gui.rs`, and the
  `DrawModel` and `DrawLight` implementations. A texture is its descriptor,
  upload layout, sampler, id and texture coordinate.
- Labels and log text are left out. Error and panic messages that a
  contract states are kept verbatim:
  - "Directory has no parent";
  - the "<what> texture: <file> not found" context, including the specular
    map's "Diffuse texture" wording;
  - "mimetype".
  Other messages are kept only as text nothing relies on. What matters there
  is the kind of failure: an error or a panic.
- Float arithmetic is exact real arithmetic. Rounding is not modelled.
  Infinities and NaN are modelled in two places only. Normalising a zero
  vector is a failure. A triangle whose UV determinant is zero gets a
  non-finite tangent frame (`MeshAssembly.Basis.NonFinite`), standing for
  what `1.0 / 0.0` produces.
- `sqrt`, `sin` and `cos` are oracles. Only the identities the proofs need are
  assumed of them.
- The tobj parser, MTL parsing and image decoding are inputs, not code. The
  parse result and the decoded images are given as values.
- The glob walk, the shaderc compiler, the writes of the `.spv` files and
  copying `res/` are not modelled.
- The rayon parallel map is modelled as a sequential map. Its result order
  is the same.
- The `RwLock` and `Arc` sharing of the caches and the collection are not
  modelled. The caches are threaded through as values, because the loader
  runs alone.
- The swap-chain rebuild, the scene resize and the GPU camera update are
  effects in a list. They are not computations.
- `Collection::update_buffers` and the dirty-flag handlers are not modelled,
  because their bodies are empty. The `is_dirty` flag itself is modelled.
- The glTF loader in model.rs is not modelled; only `ObjModel::load` is.
- Projection and view matrices (`calc_matrix`, `OPENGL_TO_WGPU_MATRIX`,
  `look_at_rh`) are not modelled.
- Textures.RowPitch: follows debug-build arithmetic, where `4 * width`
  overflowing `u32` panics (src/texture.rs:135, 315). A release build wraps
  instead. Width 2^30 would then give pitch 0, and `from_image` panics on
  it. Width 2^30 + 1 would give pitch 4 and load.
- CameraControl.ProjectionNew: requires a non-zero height. f32 division by a
  zero height gives infinity or NaN, which exact reals cannot represent.
- CameraControl.ResizeProjection: requires a non-zero height, for the same
  reason.
- CameraControl.UpdateCamera: states the cursor bookkeeping and when the update
  cannot fail. What each stage does is stated by the stage functions and
  lemmas, not repeated here.
- CameraControl.RotateByKeys: states only the no-key case. Each step is stated
  by `Orbit`, `YawKeepsRadius` and `PitchScalesRadius`.
- The speed field is stored but never read by `update_camera`, so the model
  gives it no behaviour.
- The camera controller's consumed flag in `handle_event` is a parameter.
  `State::input` calls `process_events(event, self.size)`, which does not
  match the `CameraController` in camera.rs.
- In `handle_event`, the clock is read twice: once for the elapsed time and
  once for the new instant. Both readings are parameters.
- `Duration::from_secs_f64(1.0 / 60.0)` is taken to be 16 666 667 ns, the
  value on Rust toolchains that round to the nearest nanosecond. Older
  toolchains truncate it to 16 666 666 ns.
- UrlQuery.ParseUrlQueryString: its own contract covers only the missing `?`.
  The full meaning is stated by `ParseFindsFirst`.
- Paths.JoinName: joins only plain names, with no separator inside them.
  Absolute or multi-component texture paths in MTL files are not modelled.
- ModelLoad.LoadMaterials: builds every material's textures before the
  cache loop rather than inside it. Building a texture is pure here, so the
  first failure and the cache contents are the same.
- Collections.LoadRungholt: the material-library resolver is taken to run
  before any parse error is reported, because tobj calls it while parsing.
- In model.rs, the specular texture's "not found" message says "Diffuse
  texture". It is modelled as written.
- The diffuse and specular fallback pixels are uploaded as linear RGBA
  (`is_normal_map = true`). This is modelled as written.
- The right snap's up vector (0, 2, 0) is not unit length, which makes the
  next pitch step scale the orbit radius (`RightSnapSkewsNextPitch`). This is
  modelled as written: no fix is evident, since the up vector may be
  deliberate.

## Findings

| source | as written | input that shows it | evidently intended | confidence | as-written member | corrected member |
|---|---|---|---|---|---|---|
| src/texture.rs:266 | the JPEG arm of the MIME dispatch matches `"image/jpeq"` | a glTF image view with MIME type `image/jpeg` reaches `panic!("mimetype")` | `"image/jpeg"` selects JPEG decoding | high; not executed | `Textures.GltfJpegViewPanics` | `Textures.LoadGltfIntended` |

=== FILE: camera.dfy ===
/** The camera of src/camera.rs: the perspective projection record, the
    eye/target/up camera, and the controller that turns window events into
    flags (`process_events`) and flags into camera moves (`update_camera`).

    Floating point is modelled by reals. `sqrt`, `sin` and `cos` come from a
    `Maths` oracle. Where the f32 program would silently produce NaN (a zero
    vector normalised), the model returns `None`. */
module CameraControl {
  import opened Wrappers
  import opened Ints
  import opened Vectors
  import opened Quaternions
  import opened Events

  // ---------------------------------------------------------------- Projection

  datatype Projection = Projection(aspect: real, fovy: real, znear: real, zfar: real)

  /** `Projection::new`: the aspect ratio is width over height. */
  function ProjectionNew(width: U32, height: U32, fovy: real, znear: real, zfar: real): (p: Projection)
    requires height > 0
    ensures p.aspect * (height as real) == width as real
    ensures p.fovy == fovy && p.znear == znear && p.zfar == zfar
  {
    Projection(width as real / height as real, fovy, znear, zfar)
  }

  /** `Projection::resize`: only the aspect ratio changes. */
  function ResizeProjection(p: Projection, width: U32, height: U32): (r: Projection)
    requires height > 0
    ensures r.aspect * (height as real) == width as real
    ensures r.fovy == p.fovy && r.znear == p.znear && r.zfar == p.zfar
  {
    p.(aspect := width as real / height as real)
  }

  // -------------------------------------------------------------------- Camera

  datatype Camera = Camera(eye: Vec3, target: Vec3, up: Vec3)

  /** `Camera::default`. */
  const DefaultCamera := Camera(Vec3(3.0, 4.0, -6.0), Zero, UnitY)

  /** The viewing direction `target - eye`, whose length is the orbit radius. */
  function Forward(cam: Camera): Vec3 {
    Sub(cam.target, cam.eye)
  }

  // ---------------------------------------------------------------- Controller

  /** `CameraController`. The cursor positions are f64 pairs in the source. */
  datatype Controller = Controller(
    speed: real,
    upPressed: bool,
    downPressed: bool,
    forwardPressed: bool,
    backwardPressed: bool,
    leftPressed: bool,
    rightPressed: bool,
    middlePressed: bool,
    wheelScrolled: bool,
    shiftPressed: bool,
    frontViewPressed: bool,
    rightViewPressed: bool,
    topViewPressed: bool,
    scroll: real,
    cursorBefore: Vec2,
    cursorCurrent: Vec2)

  /** The ten flags that a key can set. */
  datatype Flag =
    | UpFlag | DownFlag | ForwardFlag | BackwardFlag | LeftFlag | RightFlag
    | ShiftFlag | FrontViewFlag | RightViewFlag | TopViewFlag

  function GetFlag(c: Controller, f: Flag): bool {
    match f
    case UpFlag => c.upPressed
    case DownFlag => c.downPressed
    case ForwardFlag => c.forwardPressed
    case BackwardFlag => c.backwardPressed
    case LeftFlag => c.leftPressed
    case RightFlag => c.rightPressed
    case ShiftFlag => c.shiftPressed
    case FrontViewFlag => c.frontViewPressed
    case RightViewFlag => c.rightViewPressed
    case TopViewFlag => c.topViewPressed
  }

  /** The controller with every key flag cleared: what a key event must not
      touch. */
  function WithoutKeyFlags(c: Controller): Controller {
    c.(upPressed := false, downPressed := false, forwardPressed := false,
       backwardPressed := false, leftPressed := false, rightPressed := false,
       shiftPressed := false, frontViewPressed := false, rightViewPressed := false,
       topViewPressed := false)
  }

  /** Set one key flag; every other flag and every other field stays. */
  function SetFlag(c: Controller, f: Flag, b: bool): (r: Controller)
    ensures GetFlag(r, f) == b
  {
    match f
    case UpFlag => c.(upPressed := b)
    case DownFlag => c.(downPressed := b)
    case ForwardFlag => c.(forwardPressed := b)
    case BackwardFlag => c.(backwardPressed := b)
    case LeftFlag => c.(leftPressed := b)
    case RightFlag => c.(rightPressed := b)
    case ShiftFlag => c.(shiftPressed := b)
    case FrontViewFlag => c.(frontViewPressed := b)
    case RightViewFlag => c.(rightViewPressed := b)
    case TopViewFlag => c.(topViewPressed := b)
  }

  /** Setting one flag leaves every other flag, and every field that is not
      a key flag, as it was. */
  lemma SetFlagKeepsTheRest(c: Controller, f: Flag, b: bool, g: Flag)
    ensures g != f ==> GetFlag(SetFlag(c, f, b), g) == GetFlag(c, g)
    ensures WithoutKeyFlags(SetFlag(c, f, b)) == WithoutKeyFlags(c)
  {
  }

  /** The key table, one key per line: which flag each key drives. */
  function KeyFlag(k: Key): Option<Flag> {
    match k
    case Q => Some(UpFlag)
    case Space => Some(UpFlag)
    case Numpad8 => Some(UpFlag)
    case R => Some(DownFlag)
    case Numpad2 => Some(DownFlag)
    case W => Some(ForwardFlag)
    case Up => Some(ForwardFlag)
    case S => Some(BackwardFlag)
    case Down => Some(BackwardFlag)
    case A => Some(LeftFlag)
    case Left => Some(LeftFlag)
    case Numpad4 => Some(LeftFlag)
    case D => Some(RightFlag)
    case Right => Some(RightFlag)
    case Numpad6 => Some(RightFlag)
    case LShift => Some(ShiftFlag)
    case Numpad1 => Some(FrontViewFlag)
    case Numpad3 => Some(RightViewFlag)
    case Numpad7 => Some(TopViewFlag)
    case Escape => None
    case OtherKey(_) => None
  }

  /** `CameraController::new`: nothing pressed, nothing scrolled, the cursor
      at the origin. */
  function NewController(speed: real): (c: Controller)
    ensures forall f :: !GetFlag(c, f)
    ensures !c.middlePressed && !c.wheelScrolled && c.scroll == 0.0
    ensures c.cursorBefore == c.cursorCurrent && c.speed == speed
    ensures c.cursorCurrent == Vec2(0.0, 0.0)
  {
    Controller(speed, false, false, false, false, false, false, false, false, false,
               false, false, false, 0.0, Vec2(0.0, 0.0), Vec2(0.0, 0.0))
  }

  /** The events the controller reports as consumed. */
  predicate Consumes(ev: WindowEvent) {
    || (ev.KeyboardInput? && ev.keycode.Some? && KeyFlag(ev.keycode.value).Some?)
    || (ev.MouseWheel? && ev.delta.LineDelta?)
    || (ev.MouseInput? && ev.button == Middle)
  }

  /** `process_events`: update the flags and say whether the event was
      consumed. A cursor move is recorded but not consumed. */
  function ProcessEvents(c: Controller, ev: WindowEvent): (r: (Controller, bool))
    ensures r.1 <==> Consumes(ev)
    ensures !r.1 && !ev.CursorMoved? ==> r.0 == c
    ensures ev.CursorMoved? ==> r.0 == c.(cursorCurrent := Vec2(ev.x, ev.y))
    ensures !ev.CursorMoved? ==> r.0.cursorCurrent == c.cursorCurrent
    ensures r.0.cursorBefore == c.cursorBefore && r.0.speed == c.speed
    ensures ev.MouseInput? && ev.button == Middle ==> r.0 == c.(middlePressed := ev.state == Pressed)
  {
    match ev
    case KeyboardInput(state, Some(keycode)) =>
      var isPressed := state == Pressed;
      (match keycode
      case Q | Space | Numpad8 => (c.(upPressed := isPressed), true)
      case R | Numpad2 => (c.(downPressed := isPressed), true)
      case W | Up => (c.(forwardPressed := isPressed), true)
      case A | Left | Numpad4 => (c.(leftPressed := isPressed), true)
      case S | Down => (c.(backwardPressed := isPressed), true)
      case D | Right | Numpad6 => (c.(rightPressed := isPressed), true)
      case LShift => (c.(shiftPressed := isPressed), true)
      case Numpad1 => (c.(frontViewPressed := isPressed), true)
      case Numpad3 => (c.(rightViewPressed := isPressed), true)
      case Numpad7 => (c.(topViewPressed := isPressed), true)
      case _ => (c, false))
    case MouseWheel(LineDelta(_, vertical)) =>
      (c.(scroll := vertical, wheelScrolled := true), true)
    case MouseWheel(PixelDelta(_, _)) => (c, false)
    case CursorMoved(x, y) => (c.(cursorCurrent := Vec2(x, y)), false)
    case MouseInput(state, button) =>
      if button == Middle then (c.(middlePressed := state == Pressed), true)
      else (c, false)
    case _ => (c, false)
  }

  /** A key in the table sets exactly its flag to "pressed?" and is consumed;
      any other key, and a key event without a key code, changes nothing. */
  lemma KeyEventSetsItsFlag(c: Controller, state: ElementState, k: Key)
    ensures KeyFlag(k).Some? ==>
      ProcessEvents(c, KeyboardInput(state, Some(k))) == (SetFlag(c, KeyFlag(k).value, state == Pressed), true)
    ensures KeyFlag(k).None? ==> ProcessEvents(c, KeyboardInput(state, Some(k))) == (c, false)
    ensures ProcessEvents(c, KeyboardInput(state, None)) == (c, false)
  {
  }

  /** A line scroll stores the vertical amount, raises the wheel flag and is
      consumed; the horizontal amount is ignored. */
  lemma LineScrollArmsDolly(c: Controller, h: real, v: real)
    ensures ProcessEvents(c, MouseWheel(LineDelta(h, v))) == (c.(scroll := v, wheelScrolled := true), true)
  {
  }

  /** The middle button sets the drag flag to "pressed?" and is consumed;
      every other button changes nothing. */
  lemma MiddleButtonSetsDrag(c: Controller, state: ElementState, button: MouseButton)
    ensures button == Middle ==>
      ProcessEvents(c, MouseInput(state, button)) == (c.(middlePressed := state == Pressed), true)
    ensures button != Middle ==> ProcessEvents(c, MouseInput(state, button)) == (c, false)
  {
  }

  // ------------------------------------------------------------ Update steps

  /** The angle of one keyboard orbit step, and the drag sensitivity. */
  const OrbitStep: real := 0.05
  const DragSensitivity: real := 0.007

  /** `rotate_quartanion(t, n)`: the half-angle sine scales the axis. */
  function Rotation(m: Maths, t: real, n: Vec3): (q: Quat)
    requires ValidMaths(m)
    ensures QNorm2(q) == 1.0 + m.sin(t / 2.0) * m.sin(t / 2.0) * (Norm2(n) - 1.0)
    ensures Norm2(n) == 1.0 ==> QNorm2(q) == 1.0
  {
    RotateQuaternion(m.sin(t / 2.0), m.cos(t / 2.0), n)
  }

  /** The tail shared by every rotation branch:
      `eye := target - R * forward` and `up := normalize(R * up)`. */
  function Orbit(m: Maths, cam: Camera, q: Quat): (r: Option<Camera>)
    requires ValidMaths(m)
    ensures r.None? <==> MulVec(QuatMatrix(q), cam.up) == Zero
    ensures r.Some? ==> r.value.target == cam.target && Norm2(r.value.up) == 1.0
  {
    var rotate := QuatMatrix(q);
    var up :- Normalize(m, MulVec(rotate, cam.up));
    NormalizeIsUnit(m, MulVec(rotate, cam.up));
    Some(Camera(Sub(cam.target, MulVec(rotate, Forward(cam))), cam.target, up))
  }

  /** The orbit radius is scaled by `|q|^2`: squared, by `|q|^4`. */
  lemma OrbitScalesRadius(m: Maths, cam: Camera, q: Quat)
    requires ValidMaths(m) && Orbit(m, cam, q).Some?
    ensures Norm2(Forward(Orbit(m, cam, q).value)) == QNorm2(q) * QNorm2(q) * Norm2(Forward(cam))
  {
    var w := MulVec(QuatMatrix(q), Forward(cam));
    QuatMatrixScalesLength(q, Forward(cam));
    assert Forward(Orbit(m, cam, q).value) == w;
  }

  /** Yaw: a rotation about the world y axis (right: `-0.05`, left: `+0.05`). */
  function Yaw(m: Maths, cam: Camera, t: real): (r: Option<Camera>)
    requires ValidMaths(m)
  {
    Orbit(m, cam, Rotation(m, t, UnitY))
  }

  /** Yaw keeps the orbit radius and the target. */
  lemma YawKeepsRadius(m: Maths, cam: Camera, t: real)
    requires ValidMaths(m) && Yaw(m, cam, t).Some?
    ensures Norm2(Forward(Yaw(m, cam, t).value)) == Norm2(Forward(cam))
    ensures Yaw(m, cam, t).value.target == cam.target
  {
    var q := Rotation(m, t, UnitY);
    assert QNorm2(q) == 1.0;
    OrbitScalesRadius(m, cam, q);
  }

  /** The axis of a pitch or drag rotation: `normalize(forward) x up`; `None`
      when the eye sits on the target. */
  function RightAxis(m: Maths, forward: Vec3, up: Vec3): (r: Option<Vec3>)
    requires ValidMaths(m)
    ensures r.None? <==> forward == Zero
  {
    var n :- Normalize(m, forward);
    Some(Cross(n, up))
  }

  /** Pitch: a rotation about the camera's right axis. */
  function Pitch(m: Maths, cam: Camera, t: real): (r: Option<Camera>)
    requires ValidMaths(m)
  {
    var right :- RightAxis(m, Forward(cam), cam.up);
    Orbit(m, cam, Rotation(m, t, right))
  }

  /** Pitch keeps the orbit radius exactly when the right axis is a unit
      vector; otherwise the radius is scaled by the squared norm of the
      rotation quaternion. */
  lemma PitchScalesRadius(m: Maths, cam: Camera, t: real, q: Quat)
    requires ValidMaths(m) && Pitch(m, cam, t).Some?
    requires q == Rotation(m, t, RightAxis(m, Forward(cam), cam.up).value)
    ensures Norm2(Forward(Pitch(m, cam, t).value)) == QNorm2(q) * QNorm2(q) * Norm2(Forward(cam))
    ensures Norm2(RightAxis(m, Forward(cam), cam.up).value) == 1.0 ==>
      Norm2(Forward(Pitch(m, cam, t).value)) == Norm2(Forward(cam))
  {
    OrbitScalesRadius(m, cam, q);
    assert Pitch(m, cam, t) == Orbit(m, cam, q);
  }

  /** The snap keys move the target to the origin and the eye onto an axis
      at the previous orbit radius `d = |target - eye|`. Front: the eye on
      the negative z axis, up along y. */
  function SnapFront(m: Maths, cam: Camera): (r: Camera)
    requires ValidMaths(m)
    ensures r.target == Zero && r.up == UnitY
    ensures r.eye.x == 0.0 && r.eye.y == 0.0 && r.eye.z <= 0.0
    ensures Norm2(Forward(r)) == Norm2(Forward(cam))
  {
    var d := Magnitude(m, Forward(cam));
    var r := Camera(Vec3(0.0, 0.0, -d), Zero, Vec3(0.0, 1.0, 0.0));
    assert Forward(r) == Vec3(0.0, 0.0, d);
    r
  }

  /** Right: the eye on the negative x axis. As written, the up vector is
      `(0, 2, 0)`, which is not a unit vector. */
  function SnapRight(m: Maths, cam: Camera): (r: Camera)
    requires ValidMaths(m)
    ensures r.target == Zero && r.up == Vec3(0.0, 2.0, 0.0)
    ensures r.eye.x <= 0.0 && r.eye.y == 0.0 && r.eye.z == 0.0
    ensures Norm2(Forward(r)) == Norm2(Forward(cam))
  {
    var d := Magnitude(m, Forward(cam));
    var r := Camera(Vec3(-d, 0.0, 0.0), Zero, Vec3(0.0, 2.0, 0.0));
    assert Forward(r) == Vec3(d, 0.0, 0.0);
    r
  }

  /** Top: the eye on the positive y axis, up along z. */
  function SnapTop(m: Maths, cam: Camera): (r: Camera)
    requires ValidMaths(m)
    ensures r.target == Zero && r.up == Vec3(0.0, 0.0, 1.0)
    ensures r.eye.x == 0.0 && r.eye.y >= 0.0 && r.eye.z == 0.0
    ensures Norm2(Forward(r)) == Norm2(Forward(cam))
  {
    var d := Magnitude(m, Forward(cam));
    var r := Camera(Vec3(0.0, d, 0.0), Zero, Vec3(0.0, 0.0, 1.0));
    assert Forward(r) == Vec3(0.0, -d, 0.0);
    r
  }

  /** Shift + middle drag: `eye` and `target` move by the same vector. The
      right axis comes from the viewing direction at the start of the update. */
  function Pan(m: Maths, cam: Camera, startForward: Vec3, dx: real, dy: real): (r: Option<Camera>)
    requires ValidMaths(m)
    ensures r.None? <==> startForward == Zero
    ensures r.Some? ==> Forward(r.value) == Forward(cam) && r.value.up == cam.up
  {
    var right :- RightAxis(m, startForward, cam.up);
    var across := Scale(Scale(Neg(right), DragSensitivity), dx);
    var along := Scale(Scale(cam.up, DragSensitivity), dy);
    Some(Camera(Add(Add(cam.eye, across), along), Add(Add(cam.target, across), along), cam.up))
  }

  /** Plain middle drag: a pitch by the vertical and a yaw by the horizontal
      cursor movement, combined with `mult_quartanion`. */
  function DragRotation(m: Maths, cam: Camera, dx: real, dy: real): (r: Option<Quat>)
    requires ValidMaths(m)
  {
    var right :- RightAxis(m, Forward(cam), cam.up);
    var a := Rotation(m, -DragSensitivity * dy, right);
    var b := Rotation(m, DragSensitivity * dx, UnitY);
    Some(MultQuaternion(a, b))
  }

  /** The drag rotation's squared norm is that of its pitch part, since the
      yaw part is a unit quaternion; with a unit right axis the drag keeps
      the orbit radius. */
  lemma DragRotationNorm(m: Maths, cam: Camera, dx: real, dy: real)
    requires ValidMaths(m) && DragRotation(m, cam, dx, dy).Some?
    ensures var right := RightAxis(m, Forward(cam), cam.up).value;
      QNorm2(DragRotation(m, cam, dx, dy).value) == QNorm2(Rotation(m, -DragSensitivity * dy, right))
    ensures Norm2(RightAxis(m, Forward(cam), cam.up).value) == 1.0 ==>
      QNorm2(DragRotation(m, cam, dx, dy).value) == 1.0
  {
    var right := RightAxis(m, Forward(cam), cam.up).value;
    var a := Rotation(m, -DragSensitivity * dy, right);
    var b := Rotation(m, DragSensitivity * dx, UnitY);
    MultNormMultiplicative(a, b);
  }

  /** The middle-button drag: a pan with shift held, an orbit otherwise.
      `(dx, dy)` is the cursor movement since the previous update. */
  function MiddleDrag(m: Maths, shift: bool, cam: Camera, startForward: Vec3, dx: real, dy: real): (r: Option<Camera>)
    requires ValidMaths(m)
  {
    if shift then
      Pan(m, cam, startForward, dx, dy)
    else
      var q :- DragRotation(m, cam, dx, dy);
      Orbit(m, cam, q)
  }

  /** A tenth of a vector: `forward / 10.`. */
  function Tenth(f: Vec3): Vec3 {
    Vec3(f.x / 10.0, f.y / 10.0, f.z / 10.0)
  }

  /** One dolly step: move the eye and clear the wheel state. */
  function Zoom(c: Controller, cam: Camera, startForward: Vec3): (Controller, Camera) {
    (c.(wheelScrolled := false, scroll := 0.0), cam.(eye := Add(cam.eye, Scale(Tenth(startForward), c.scroll))))
  }

  /** The dolly, with the viewing direction taken at the start of the
      update. The source has two branches, for `scroll >= 0` and
      `scroll < 0`, with the same body; the first clears the wheel flag, so
      whatever the sign the eye moves exactly once, a tenth of the viewing
      direction per line, and the target and up vector stay. */
  function Dolly(c: Controller, cam: Camera, startForward: Vec3): (r: (Controller, Camera))
    ensures r.0 == c.(wheelScrolled := false, scroll := if c.wheelScrolled then 0.0 else c.scroll)
    ensures c.wheelScrolled ==> r.1 == cam.(eye := Add(cam.eye, Scale(Tenth(startForward), c.scroll)))
    ensures !c.wheelScrolled ==> r.1 == cam
  {
    var first := if c.wheelScrolled && c.scroll >= 0.0 then Zoom(c, cam, startForward) else (c, cam);
    if first.0.wheelScrolled && first.0.scroll < 0.0 then Zoom(first.0, first.1, startForward) else first
  }

  /** The four rotation keys, in the source's order: yaw right, yaw left,
      pitch up, pitch down. */
  function RotateByKeys(m: Maths, right: bool, left: bool, up: bool, down: bool, cam: Camera): (r: Option<Camera>)
    requires ValidMaths(m)
    ensures !right && !left && !up && !down ==> r == Some(cam)
  {
    var cam1 :- if right then Yaw(m, cam, -OrbitStep) else Some(cam);
    var cam2 :- if left then Yaw(m, cam1, OrbitStep) else Some(cam1);
    var cam3 :- if up then Pitch(m, cam2, OrbitStep) else Some(cam2);
    if down then Pitch(m, cam3, -OrbitStep) else Some(cam3)
  }

  /** The three snap keys, in the source's order: front, right, top. The
      last one held decides the view. */
  function SnapByKeys(m: Maths, front: bool, right: bool, top: bool, cam: Camera): (r: Camera)
    requires ValidMaths(m)
    ensures !front && !right && !top ==> r == cam
    ensures (front || right || top) ==> r.target == Zero && Norm2(Forward(r)) == Norm2(Forward(cam))
    ensures top ==> r.up == Vec3(0.0, 0.0, 1.0)
    ensures right && !top ==> r.up == Vec3(0.0, 2.0, 0.0)
    ensures front && !right && !top ==> r.up == UnitY
  {
    var cam1 := if front then SnapFront(m, cam) else cam;
    var cam2 := if right then SnapRight(m, cam1) else cam1;
    if top then SnapTop(m, cam2) else cam2
  }

  /** No key or button that moves the camera is held. */
  predicate Idle(c: Controller) {
    !c.rightPressed && !c.leftPressed && !c.upPressed && !c.downPressed
    && !c.frontViewPressed && !c.rightViewPressed && !c.topViewPressed && !c.middlePressed
  }

  /** `update_camera`, one branch after another in the source's order:
      dolly, the four rotation keys, the three snaps, the middle-button
      drag, and finally `cursor_position_before := current`. `None` stands
      for the NaN that normalising a zero vector puts into the f32 camera.
      The controller comes out with the wheel state cleared and the cursor
      position remembered for the next drag. */
  function UpdateCamera(m: Maths, c: Controller, cam: Camera): (r: Option<(Controller, Camera)>)
    requires ValidMaths(m)
    ensures r.Some? ==>
              r.value.0 == c.(wheelScrolled := false, scroll := if c.wheelScrolled then 0.0 else c.scroll,
                              cursorBefore := c.cursorCurrent)
    ensures !c.rightPressed && !c.leftPressed && !c.upPressed && !c.downPressed && !c.middlePressed ==> r.Some?
  {
    var startForward := Forward(cam);
    var zoomed := Dolly(c, cam, startForward);
    var c1 := zoomed.0;
    var cam1 :- RotateByKeys(m, c1.rightPressed, c1.leftPressed, c1.upPressed, c1.downPressed, zoomed.1);
    var cam2 := SnapByKeys(m, c1.frontViewPressed, c1.rightViewPressed, c1.topViewPressed, cam1);
    var dx := c1.cursorCurrent.x - c1.cursorBefore.x;
    var dy := c1.cursorCurrent.y - c1.cursorBefore.y;
    var cam3 :- if c1.middlePressed then MiddleDrag(m, c1.shiftPressed, cam2, startForward, dx, dy) else Some(cam2);
    Some((c1.(cursorBefore := c1.cursorCurrent), cam3))
  }

  /** With nothing held and no wheel scrolled, an update changes only
      `cursor_position_before`. */
  lemma IdleUpdateKeepsCamera(m: Maths, c: Controller, cam: Camera)
    requires ValidMaths(m) && Idle(c) && !c.wheelScrolled
    ensures UpdateCamera(m, c, cam) == Some((c.(cursorBefore := c.cursorCurrent), cam))
  {
  }

  /** A freshly made controller leaves the camera where it is. */
  lemma NewControllerKeepsCamera(m: Maths, speed: real, cam: Camera)
    requires ValidMaths(m)
    ensures UpdateCamera(m, NewController(speed), cam) == Some((NewController(speed), cam))
  {
    IdleUpdateKeepsCamera(m, NewController(speed), cam);
  }

  /** A wheel scroll dollies once: the update moves the eye along the
      viewing direction and keeps the target, and the update after it, with
      no new event, changes nothing. */
  lemma DollyHappensOnce(m: Maths, c: Controller, cam: Camera)
    requires ValidMaths(m) && Idle(c) && c.wheelScrolled
    ensures var r := UpdateCamera(m, c, cam);
      && r.Some?
      && r.value.1.target == cam.target && r.value.1.up == cam.up
      && r.value.1.eye == Add(cam.eye, Scale(Tenth(Forward(cam)), c.scroll))
      && UpdateCamera(m, r.value.0, r.value.1) == r
  {
    var r := UpdateCamera(m, c, cam);
    IdleUpdateKeepsCamera(m, r.value.0, r.value.1);
  }

  /** A shift + middle drag with nothing else held pans: `target - eye` is
      unchanged, and so is `up`. */
  lemma PanKeepsForward(m: Maths, c: Controller, cam: Camera)
    requires ValidMaths(m) && c.middlePressed && c.shiftPressed && !c.wheelScrolled
    requires !c.rightPressed && !c.leftPressed && !c.upPressed && !c.downPressed
    requires !c.frontViewPressed && !c.rightViewPressed && !c.topViewPressed
    ensures var r := UpdateCamera(m, c, cam);
      r.Some? <==> Forward(cam) != Zero
    ensures var r := UpdateCamera(m, c, cam);
      r.Some? ==> Forward(r.value.1) == Forward(cam) && r.value.1.up == cam.up
  {
  }

  /** After the right snap the next pitch rotates about an axis of squared
      length 4, so its quaternion is not a unit one: with `s = sin(t/2)`,
      `|q|^2 = 1 + 3 s^2`. */
  lemma RightSnapSkewsNextPitch(m: Maths, cam: Camera, t: real)
    requires ValidMaths(m) && Forward(cam) != Zero
    ensures var snapped := SnapRight(m, cam);
      && RightAxis(m, Forward(snapped), snapped.up) == Some(Vec3(0.0, 0.0, 2.0))
      && QNorm2(Rotation(m, t, Vec3(0.0, 0.0, 2.0))) == 1.0 + 3.0 * m.sin(t / 2.0) * m.sin(t / 2.0)
  {
    RightSnapAxis(m, cam);
    DoubledAxisRotation(m, t);
  }

  lemma DoubledAxisRotation(m: Maths, t: real)
    requires ValidMaths(m)
    ensures QNorm2(Rotation(m, t, Vec3(0.0, 0.0, 2.0))) == 1.0 + 3.0 * m.sin(t / 2.0) * m.sin(t / 2.0)
  {
    var s := m.sin(t / 2.0);
    assert Norm2(Vec3(0.0, 0.0, 2.0)) == 4.0;
    assert QNorm2(Rotation(m, t, Vec3(0.0, 0.0, 2.0))) == 1.0 + s * s * (4.0 - 1.0);
  }

  /** The right snap leaves the eye on the negative x axis and `up` at
      `(0, 2, 0)`, so the right axis is `(1, 0, 0) x (0, 2, 0) = (0, 0, 2)`. */
  lemma RightSnapAxis(m: Maths, cam: Camera)
    requires ValidMaths(m) && Forward(cam) != Zero
    ensures var snapped := SnapRight(m, cam);
      RightAxis(m, Forward(snapped), snapped.up) == Some(Vec3(0.0, 0.0, 2.0))
  {
    var snapped := SnapRight(m, cam);
    var d := Magnitude(m, Forward(cam));
    MagnitudePositive(m, Forward(cam));
    assert Forward(snapped) == Vec3(d, 0.0, 0.0) && snapped.up == Vec3(0.0, 2.0, 0.0);
    RightAxisOnX(m, d);
  }

  /** Looking down the positive x axis with up `(0, 2, 0)`, the right axis
      is `(0, 0, 2)`. */
  lemma RightAxisOnX(m: Maths, d: real)
    requires ValidMaths(m) && d > 0.0
    ensures RightAxis(m, Vec3(d, 0.0, 0.0), Vec3(0.0, 2.0, 0.0)) == Some(Vec3(0.0, 0.0, 2.0))
  {
    NormalizeOnAxis(m, d);
    assert Cross(Vec3(1.0, 0.0, 0.0), Vec3(0.0, 2.0, 0.0)) == Vec3(0.0, 0.0, 2.0);
  }
}

=== FILE: collections.dfy ===
/** collection.rs: a keyed collection of models, and the two GPU-free OBJ
    loaders, one for a file on disk and one for the Rungholt house that is
    embedded in the binary. Both build the same vertex arrays as model.rs
    but keep them in memory instead of uploading them, ignore the
    materials beyond unwrapping them, and mark the result dirty. */
module Collections {
  import opened Wrappers
  import opened Ints
  import opened Failures
  import opened Paths
  import opened Textures
  import opened MeshAssembly
  import ModelLoad

  /** `Mesh` of collection.rs: the vertices and indices themselves. */
  datatype Mesh = Mesh(name: string, vertices: seq<Vertex>, indices: seq<U32>, numElements: U32)

  datatype ObjModel = ObjModel(meshes: seq<Mesh>, isDirty: bool)

  datatype GltfModel = GltfModel(meshes: seq<Mesh>, isDirty: bool)

  datatype Rungholt = Rungholt(meshes: seq<Mesh>, isDirty: bool)

  datatype Model = Obj(obj: ObjModel) | Gltf(gltf: GltfModel) | House(house: Rungholt)

  /** `Model::meshes`: the mesh list of whichever kind of model is held. */
  function Meshes(m: Model): (r: seq<Mesh>)
    ensures m.Obj? ==> r == m.obj.meshes
    ensures m.Gltf? ==> r == m.gltf.meshes
    ensures m.House? ==> r == m.house.meshes
  {
    match m
      case Obj(o) => o.meshes
      case Gltf(g) => g.meshes
      case House(h) => h.meshes
  }

  // ----------------------------------------------------------- Collection

  datatype Collection = Collection(models: map<string, Model>)

  /** `Collection::new`: no models. */
  function New(): (c: Collection)
    ensures forall k :: k !in c.models
  {
    Collection(map[])
  }

  /** `Collection::add_model`: `key` now names `model`, replacing whatever
      it named; every other key keeps its model. */
  function AddModel(c: Collection, model: Model, key: string): (r: Collection)
    ensures r.models.Keys == c.models.Keys + {key}
    ensures r.models[key] == model
    ensures forall k :: k in c.models && k != key ==> r.models[k] == c.models[k]
  {
    Collection(c.models[key := model])
  }

  /** Adding under the same key twice keeps only the second model. */
  lemma AddModelOverwrites(c: Collection, first: Model, second: Model, key: string)
    ensures AddModel(AddModel(c, first, key), second, key) == AddModel(c, second, key)
  {
    assert AddModel(AddModel(c, first, key), second, key).models == AddModel(c, second, key).models;
  }

  /** Adding under different keys commutes. */
  lemma AddModelCommutes(c: Collection, m1: Model, k1: string, m2: Model, k2: string)
    requires k1 != k2
    ensures AddModel(AddModel(c, m1, k1), m2, k2) == AddModel(AddModel(c, m2, k2), m1, k1)
  {
    assert AddModel(AddModel(c, m1, k1), m2, k2).models == AddModel(AddModel(c, m2, k2), m1, k1).models;
  }

  // --------------------------------------------------------------- Meshes

  /** `mesh` is what the mesh loop of collection.rs makes of the model `e`:
      its name and indices, the index count truncated to `u32`, and the
      assembled vertices. */
  predicate MeshOf(e: ObjEntry, mesh: Mesh) {
    && Assemblable(e.mesh)
    && mesh.name == e.name
    && mesh.indices == e.mesh.indices
    && mesh.numElements == |e.mesh.indices| % U32_LIMIT
    && |mesh.vertices| == VertexCount(e.mesh)
    && forall v :: 0 <= v < VertexCount(e.mesh) ==> mesh.vertices[v] == AssembledVertex(e.mesh, v)
  }

  /** The mesh loop shared by both loaders: every model becomes a mesh, in
      order, or the first model that cannot be assembled panics. Material
      ids are not looked at. */
  method LoadMeshes(models: seq<ObjEntry>) returns (r: Result<seq<Mesh>, Failure>)
    ensures r.Ok? <==> forall k :: 0 <= k < |models| ==> Assemblable(models[k].mesh)
    ensures r.Err? ==> r.error.Panic?
    ensures r.Ok? ==> |r.value| == |models|
    ensures r.Ok? ==> forall k :: 0 <= k < |models| ==> MeshOf(models[k], r.value[k])
  {
    var meshes: seq<Mesh> := [];
    for j := 0 to |models|
      invariant |meshes| == j
      invariant forall k :: 0 <= k < j ==> MeshOf(models[k], meshes[k])
    {
      var e := models[j];
      var vertices := AssembleVertices(e.mesh);
      if vertices.Err? {
        return vertices.PropagateFailure();
      }
      meshes := meshes + [Mesh(e.name, vertices.value, e.mesh.indices, |e.mesh.indices| % U32_LIMIT)];
    }
    return Ok(meshes);
  }

  /** A model determines its mesh: the two loaders of collection.rs agree
      on identical input. */
  lemma MeshOfUnique(e: ObjEntry, a: Mesh, b: Mesh)
    requires MeshOf(e, a) && MeshOf(e, b)
    ensures a == b
  {
    assert a.vertices == b.vertices;
  }

  /** collection.rs and model.rs build the same mesh contents from the same
      OBJ model: name, vertices, indices and element count. */
  lemma AgreesWithModelLoad(
    e: ObjEntry, keys: seq<string>, materials: map<string, ModelLoad.Material>, gpu: ModelLoad.Mesh, mesh: Mesh)
    requires ModelLoad.MeshOf(e, keys, materials, gpu) && MeshOf(e, mesh)
    ensures gpu.name == mesh.name && gpu.vertices == mesh.vertices
    ensures gpu.indices == mesh.indices && gpu.numElements == mesh.numElements
  {
    assert gpu.vertices == mesh.vertices;
  }

  // -------------------------------------------------------------- Loaders

  /** What the loaders have in common once tobj has returned: the path must
      have a parent, the material library must have loaded (the materials
      are then ignored), and every model must assemble. The result is
      marked dirty. */
  method LoadParsed(file: ObjFile, path: Path) returns (r: Result<seq<Mesh>, Failure>)
    ensures Parent(path).None? ==> r == Err(Error("Directory has no parent"))
    ensures Parent(path).Some? && file.materials.Err? ==> r.Err? && r.error.Panic?
    ensures r.Ok? <==>
      && Parent(path).Some? && file.materials.Ok?
      && forall k :: 0 <= k < |file.models| ==> Assemblable(file.models[k].mesh)
    ensures r.Ok? ==> |r.value| == |file.models|
    ensures r.Ok? ==> forall k :: 0 <= k < |file.models| ==> MeshOf(file.models[k], r.value[k])
  {
    if Parent(path).None? {
      return Err(Error("Directory has no parent"));
    }
    if file.materials.Err? {
      return Err(Panic("called `Result::unwrap()` on an `Err` value"));
    }
    r := LoadMeshes(file.models);
  }

  /** `ObjModel::load` of collection.rs. `parsed` is what tobj made of the
      file at `path`; a parse failure is an error. */
  method LoadObj(parsed: Result<ObjFile, string>, path: Path) returns (r: Result<ObjModel, Failure>)
    ensures parsed.Err? ==> r.Err? && r.error.Error?
    ensures parsed.Ok? && Parent(path).None? ==> r == Err(Error("Directory has no parent"))
    ensures r.Ok? <==>
      && parsed.Ok? && Parent(path).Some? && parsed.value.materials.Ok?
      && forall k :: 0 <= k < |parsed.value.models| ==> Assemblable(parsed.value.models[k].mesh)
    ensures r.Ok? ==> r.value.isDirty && |r.value.meshes| == |parsed.value.models|
    ensures r.Ok? ==>
      forall k :: 0 <= k < |parsed.value.models| ==> MeshOf(parsed.value.models[k], r.value.meshes[k])
  {
    if parsed.Err? {
      return Err(Error(parsed.error));
    }
    var meshes := LoadParsed(parsed.value, path);
    if meshes.Err? {
      return Err(meshes.error);
    }
    return Ok(ObjModel(meshes.value, true));
  }

  /** The material-library resolver of `Rungholt::load`: only a library
      whose file name is the text `house.mtl` resolves (to the embedded
      library); any other name, a path without a file name and a name that
      is not UTF-8 all panic. */
  const HouseMtl := "house.mtl"

  function ResolveMtl(lib: Path): (r: Result<(), Failure>)
    ensures r.Ok? <==> TextFileName(lib) == Some(HouseMtl)
    ensures r.Err? ==> r.error.Panic?
  {
    match TextFileName(lib)
      case None => Err(Panic("called `Option::unwrap()` on a `None` value"))
      case Some(name) =>
        if name == HouseMtl then Ok(()) else Err(Panic("internal error: entered unreachable code"))
  }

  /** Every referenced material library resolves. */
  predicate AllResolve(mtlLibs: seq<Path>) {
    forall k :: 0 <= k < |mtlLibs| ==> ResolveMtl(mtlLibs[k]).Ok?
  }

  /** The resolver applied to each referenced library in turn; the first
      it rejects panics. */
  function ResolveAll(mtlLibs: seq<Path>): (r: Result<(), Failure>)
    ensures r.Ok? <==> AllResolve(mtlLibs)
    ensures r.Err? ==> r.error.Panic?
  {
    if |mtlLibs| == 0 then Ok(())
    else
      var _ :- ResolveMtl(mtlLibs[0]);
      assert forall k :: 1 <= k < |mtlLibs| ==> mtlLibs[k] == mtlLibs[1..][k - 1];
      ResolveAll(mtlLibs[1..])
  }

  /** `Rungholt::load`. The OBJ text is the embedded house; `mtlLibs` are
      the material libraries it references, each handed to the resolver
      while it is parsed, and `parsed` is what tobj made of it. A library
      the resolver rejects panics; otherwise the load goes on as for a file
      on disk, against the given `path`. */
  method LoadRungholt(mtlLibs: seq<Path>, parsed: Result<ObjFile, string>, path: Path)
    returns (r: Result<Rungholt, Failure>)
    ensures !AllResolve(mtlLibs) ==> r.Err? && r.error.Panic?
    ensures r.Ok? <==>
      && AllResolve(mtlLibs)
      && parsed.Ok? && Parent(path).Some? && parsed.value.materials.Ok?
      && forall k :: 0 <= k < |parsed.value.models| ==> Assemblable(parsed.value.models[k].mesh)
    ensures r.Ok? ==> r.value.isDirty && |r.value.meshes| == |parsed.value.models|
    ensures r.Ok? ==>
      forall k :: 0 <= k < |parsed.value.models| ==> MeshOf(parsed.value.models[k], r.value.meshes[k])
  {
    if ResolveAll(mtlLibs).Err? {
      return Err(ResolveAll(mtlLibs).error);
    }
    if parsed.Err? {
      return Err(Error(parsed.error));
    }
    var meshes := LoadParsed(parsed.value, path);
    if meshes.Err? {
      return Err(meshes.error);
    }
    return Ok(Rungholt(meshes.value, true));
  }

  /** The libraries are resolved in the order they are referenced, and the
      first one the resolver rejects decides the panic: every library
      before it resolves, and whatever follows it is never looked at. */
  lemma {:induction false} ResolveAllStopsAtFirstRejected(mtlLibs: seq<Path>, n: nat)
    requires n < |mtlLibs| && ResolveMtl(mtlLibs[n]).Err?
    requires forall k :: 0 <= k < n ==> ResolveMtl(mtlLibs[k]).Ok?
    ensures ResolveAll(mtlLibs) == ResolveMtl(mtlLibs[n])
    decreases n
  {
    if n > 0 {
      var rest := mtlLibs[1..];
      assert forall k :: 0 <= k < n - 1 ==> rest[k] == mtlLibs[k + 1];
      assert rest[n - 1] == mtlLibs[n];
      ResolveAllStopsAtFirstRejected(rest, n - 1);
    }
  }
}

=== FILE: events.dfy ===
/** winit's window events, cut down to the fields that the camera controller
    and the event loop read. */
module Events {
  import opened Wrappers
  import opened Ints

  datatype ElementState = Pressed | Released

  /** The virtual key codes the program names, and every other key. */
  datatype Key =
    | Q | Space | Numpad8 | R | Numpad2 | W | Up | S | Down
    | A | Left | Numpad4 | D | Right | Numpad6 | LShift
    | Numpad1 | Numpad3 | Numpad7 | Escape | OtherKey(code: nat)

  datatype MouseButton = LeftButton | RightButton | Middle | OtherButton(id: nat)

  /** A wheel turn measured in lines, or a touchpad scroll in pixels. */
  datatype ScrollDelta = LineDelta(horizontal: real, vertical: real) | PixelDelta(dx: real, dy: real)

  datatype PhysicalSize = PhysicalSize(width: U32, height: U32)

  datatype WindowEvent =
    | KeyboardInput(state: ElementState, keycode: Option<Key>)
    | MouseWheel(delta: ScrollDelta)
    | CursorMoved(x: real, y: real)
    | MouseInput(state: ElementState, button: MouseButton)
    | CloseRequested
    | Resized(size: PhysicalSize)
    | ScaleFactorChanged(newInnerSize: PhysicalSize)
    | OtherWindowEvent
}

=== FILE: failures.dfy ===
/** How an operation of the program stops early. Rust distinguishes an
    error returned through `?` or `bail!` (the caller sees it and may carry
    on) from a panic (`unwrap` on `None`/`Err`, `unreachable!`, an index
    out of range, an arithmetic overflow), which ends the program. */
module Failures {

  datatype Failure =
    | Error(message: string)
    | Panic(reason: string)
}

=== FILE: framedriver.dfy ===
/** state.rs: how the event loop drives the application. `handle_event`
    renders on a redraw request, paces redraws to sixty frames a second,
    updates the camera and scene once the main events are drained, and
    turns the window's close, escape and resize events into an exit or a
    resize, unless the camera controller has already consumed them.

    Time is an integer count of nanoseconds. The GPU work an event
    triggers (rendering, rebuilding the swap chain, uploading the camera)
    is not performed here but listed, in order, as effects; whether the
    camera controller consumes a window event is a parameter. */
module FrameDriver {
  import opened Wrappers
  import opened Ints
  import opened Events
  import opened Textures

  /** `Duration::from_secs_f64(1.0 / 60.0)`. Rust toolchains that round to
      the nearest nanosecond give this value; older ones truncate to
      16 666 666. */
  const TargetFrameTime: nat := 16_666_667

  datatype WindowId = WindowId(id: nat)

  /** The event-loop events `handle_event` distinguishes. */
  datatype LoopEvent =
    | RedrawRequested(target: WindowId)
    | RedrawEventsCleared
    | MainEventsCleared
    | Window(windowId: WindowId, event: WindowEvent)
    | OtherLoopEvent

  datatype ControlFlow = Poll | Wait | WaitUntil(deadline: nat) | Exit

  /** The side effects of handling one event, in the order they happen. */
  datatype Effect =
    | Render
    | RequestRedraw
    | UpdateCamera
    | UpdateScene
    | RecreateSwapChain
    | ResizeScene

  /** The part of `State` that event handling changes: the window size, the
      surface configuration's extent, and the size the camera controller
      keeps. */
  datatype State = State(size: PhysicalSize, config: SurfaceConfiguration, controllerSize: PhysicalSize)

  /** What handling an event leaves behind: the new state, the control
      flow, the instant of the last redraw and the effects. */
  datatype Outcome = Outcome(state: State, flow: ControlFlow, lastUpdate: nat, effects: seq<Effect>)

  /** The state's three copies of the size agree. */
  predicate Consistent(s: State) {
    && s.config == SurfaceConfiguration(s.size.width, s.size.height)
    && s.controllerSize == s.size
  }

  /** `State::resize`: record the new size, size the surface configuration
      to it, then rebuild the swap chain and the scene's size-dependent
      resources and hand the size to the camera controller. */
  function Resize(s: State, newSize: PhysicalSize): (r: (State, seq<Effect>))
    ensures r.0.size == newSize && Consistent(r.0)
    ensures r.1 == [RecreateSwapChain, ResizeScene]
  {
    (State(newSize, SurfaceConfiguration(newSize.width, newSize.height), newSize),
     [RecreateSwapChain, ResizeScene])
  }

  /** Resizing to a size twice is resizing to it once, and the resulting
      state does not depend on the state before. */
  lemma ResizeForgetsOldSize(s: State, t: State, newSize: PhysicalSize)
    ensures Resize(Resize(s, newSize).0, newSize) == Resize(s, newSize)
    ensures Resize(s, newSize) == Resize(t, newSize)
  {
  }

  /** After a resize the depth texture built from the surface configuration
      has exactly the new size. */
  lemma ResizeSizesDepthTexture(s: State, newSize: PhysicalSize)
    ensures CreateDepthTexture(Resize(s, newSize).0.config).descriptor.size
         == Extent3d(newSize.width, newSize.height, 1)
  {
  }

  /** `Instant::elapsed`, which saturates at zero. */
  function Elapsed(since: nat, now: nat): (d: nat)
    ensures since <= now ==> since + d == now
    ensures now < since ==> d == 0
  {
    if since <= now then now - since else 0
  }

  /** A window event the controller did not consume: close and escape
      pressed exit, a resize or scale-factor change resizes, anything else
      (escape released included) changes nothing. */
  function Dispatch(s: State, flow: ControlFlow, lastUpdate: nat, event: WindowEvent): (r: Outcome)
    ensures r.lastUpdate == lastUpdate
    ensures r.flow == Exit <==> flow == Exit || ExitRequest(event)
    ensures r.flow != Exit ==> r.flow == flow
    ensures ResizeRequest(event).Some? ==> (r.state, r.effects) == Resize(s, ResizeRequest(event).value)
    ensures ResizeRequest(event).None? ==> r.state == s && r.effects == []
  {
    match event
      case CloseRequested => Outcome(s, Exit, lastUpdate, [])
      case KeyboardInput(Pressed, Some(Escape)) => Outcome(s, Exit, lastUpdate, [])
      case Resized(size) =>
        var (after, effects) := Resize(s, size);
        Outcome(after, flow, lastUpdate, effects)
      case ScaleFactorChanged(size) =>
        var (after, effects) := Resize(s, size);
        Outcome(after, flow, lastUpdate, effects)
      case _ => Outcome(s, flow, lastUpdate, [])
  }

  /** The window events that ask the program to exit. */
  predicate ExitRequest(event: WindowEvent) {
    || event.CloseRequested?
    || event == KeyboardInput(Pressed, Some(Escape))
  }

  /** The size a window event asks the program to take, if any. */
  function ResizeRequest(event: WindowEvent): (r: Option<PhysicalSize>)
    ensures r.Some? <==> event.Resized? || event.ScaleFactorChanged?
  {
    match event
      case Resized(size) => Some(size)
      case ScaleFactorChanged(size) => Some(size)
      case _ => None
  }

  /** `State::handle_event`. `window` is the id of the program's window,
      `lastUpdate` the instant of the last redraw, `now` the clock when the
      elapsed time is read and `later` the clock when the next instant is
      read (the program reads the clock twice); `consumed` is whether the
      camera controller consumes a window event. */
  function HandleEvent(
    s: State, event: LoopEvent, flow: ControlFlow, window: WindowId,
    lastUpdate: nat, now: nat, later: nat, consumed: bool): (r: Outcome)
    ensures event.RedrawRequested? ==> r == Outcome(s, flow, lastUpdate, [Render])
    ensures event.MainEventsCleared? ==> r == Outcome(s, flow, lastUpdate, [UpdateCamera, UpdateScene])
    ensures event.RedrawEventsCleared? ==> r.state == s
    ensures event.Window? && event.windowId == window && !consumed ==>
      r == Dispatch(s, flow, lastUpdate, event.event)
    ensures event.OtherLoopEvent? || (event.Window? && (event.windowId != window || consumed)) ==>
      r == Outcome(s, flow, lastUpdate, [])
  {
    match event
      case RedrawRequested(_) => Outcome(s, flow, lastUpdate, [Render])
      case RedrawEventsCleared =>
        var sinceLast := Elapsed(lastUpdate, now);
        if sinceLast >= TargetFrameTime then
          Outcome(s, flow, later, [RequestRedraw])
        else
          Outcome(s, WaitUntil(later + TargetFrameTime - sinceLast), lastUpdate, [])
      case MainEventsCleared => Outcome(s, flow, lastUpdate, [UpdateCamera, UpdateScene])
      case Window(id, ev) =>
        if id == window && !consumed then Dispatch(s, flow, lastUpdate, ev)
        else Outcome(s, flow, lastUpdate, [])
      case OtherLoopEvent => Outcome(s, flow, lastUpdate, [])
  }

  /** Frame pacing: a redraw is requested exactly when at least a target
      frame time has passed since the last one, and then the last-redraw
      instant moves to the clock; otherwise the loop sleeps until one frame
      time after the last redraw, a deadline strictly after the clock and
      at most a frame time away. */
  lemma FramePacing(s: State, flow: ControlFlow, window: WindowId, lastUpdate: nat, now: nat, later: nat, consumed: bool)
    ensures var r := HandleEvent(s, RedrawEventsCleared, flow, window, lastUpdate, now, later, consumed);
      && (RequestRedraw in r.effects <==> Elapsed(lastUpdate, now) >= TargetFrameTime)
      && (RequestRedraw in r.effects ==> r.lastUpdate == later && r.flow == flow && r.effects == [RequestRedraw])
      && (RequestRedraw !in r.effects ==>
            && r.lastUpdate == lastUpdate && r.effects == []
            && r.flow.WaitUntil? && later < r.flow.deadline <= later + TargetFrameTime
            && (lastUpdate <= now == later ==> r.flow.deadline == lastUpdate + TargetFrameTime))
  {
  }

  /** Only an unconsumed close request or escape press on the program's
      own window stops the loop. */
  lemma ExitOnlyOnRequest(
    s: State, event: LoopEvent, flow: ControlFlow, window: WindowId,
    lastUpdate: nat, now: nat, later: nat, consumed: bool)
    requires flow != Exit
    ensures HandleEvent(s, event, flow, window, lastUpdate, now, later, consumed).flow == Exit
        <==> event.Window? && event.windowId == window && !consumed && ExitRequest(event.event)
  {
  }

  /** An event the controller consumes, or one for another window, leaves
      the state, the control flow and the clock alone and has no effect. */
  lemma IgnoredWindowEvents(
    s: State, id: WindowId, ev: WindowEvent, flow: ControlFlow, window: WindowId,
    lastUpdate: nat, now: nat, later: nat, consumed: bool)
    requires id != window || consumed
    ensures HandleEvent(s, Window(id, ev), flow, window, lastUpdate, now, later, consumed)
         == Outcome(s, flow, lastUpdate, [])
  {
  }

  /** Releasing escape does nothing, where pressing it exits. */
  lemma EscapeReleaseIgnored(s: State, flow: ControlFlow, window: WindowId, lastUpdate: nat, now: nat, later: nat)
    ensures HandleEvent(s, Window(window, KeyboardInput(Released, Some(Escape))), flow, window, lastUpdate, now, later, false)
         == Outcome(s, flow, lastUpdate, [])
    ensures HandleEvent(s, Window(window, KeyboardInput(Pressed, Some(Escape))), flow, window, lastUpdate, now, later, false).flow
         == Exit
  {
  }

  /** Every event keeps the three copies of the size in agreement, and only
      a resize or scale-factor change on the program's own window changes
      the size. */
  lemma HandleEventKeepsConsistent(
    s: State, event: LoopEvent, flow: ControlFlow, window: WindowId,
    lastUpdate: nat, now: nat, later: nat, consumed: bool)
    requires Consistent(s)
    ensures var r := HandleEvent(s, event, flow, window, lastUpdate, now, later, consumed);
      && Consistent(r.state)
      && (r.state.size != s.size ==>
            event.Window? && event.windowId == window && !consumed
            && ResizeRequest(event.event) == Some(r.state.size))
  {
  }
}

=== FILE: ints.dfy ===
/** Machine integer ranges that the program's `u8` and `u32` values live in. */
module Ints {
  const U8_LIMIT: int := 0x100
  const U32_LIMIT: int := 0x1_0000_0000

  type U8 = x: int | 0 <= x < U8_LIMIT
  type U32 = x: int | 0 <= x < U32_LIMIT
}

=== FILE: meshassembly.dfy ===
/** The GPU-free half of OBJ loading, identical in `ObjModel::load` of
    model.rs and in both loaders of collection.rs: the vertex array built
    from tobj's flat position / texture-coordinate / normal arrays, then
    the per-triangle tangent pass in which the last triangle to touch a
    vertex decides its tangent and bitangent. */
module MeshAssembly {
  import opened Wrappers
  import opened Ints
  import opened Failures
  import opened Vectors

  /** A vertex's tangent frame. A triangle whose texture coordinates are
      collinear makes `1.0 / 0.0` in f32 and fills the frame with infinite
      or NaN components; that outcome is `NonFinite`. */
  datatype Basis = Basis(tangent: Vec3, bitangent: Vec3) | NonFinite

  const ZeroBasis := Basis(Zero, Zero)

  /** `ModelVertex`. */
  datatype Vertex = Vertex(position: Vec3, texCoords: Vec2, normal: Vec3, basis: Basis)

  /** One mesh as tobj returns it with `single_index` and `triangulate`. */
  datatype ObjMesh = ObjMesh(
    positions: seq<real>,
    texcoords: seq<real>,
    normals: seq<real>,
    indices: seq<U32>,
    materialId: Option<nat>)

  /** An RGB colour of a material, each channel nominally in `[0, 1]`. */
  datatype Rgb = Rgb(r: real, g: real, b: real)

  /** The fields of a tobj material that the loaders read. An empty
      texture name means the material names no such map. */
  datatype ObjMaterial = ObjMaterial(
    name: string,
    diffuse: Rgb,
    specular: Rgb,
    diffuseTexture: string,
    normalTexture: string,
    specularTexture: string)

  /** One named model of an OBJ file. */
  datatype ObjEntry = ObjEntry(name: string, mesh: ObjMesh)

  /** What tobj returns for a file it could parse: the models, and the
      materials or the error that loading the material library gave. */
  datatype ObjFile = ObjFile(models: seq<ObjEntry>, materials: Result<seq<ObjMaterial>, string>)

  // ---------------------------------------------------------------- Vertices

  /** The number of vertices: one per whole position triple. */
  function VertexCount(m: ObjMesh): nat {
    |m.positions| / 3
  }

  /** The flat arrays are long enough to read every vertex's texture
      coordinates and normal. */
  predicate AttributesCover(m: ObjMesh) {
    2 * VertexCount(m) <= |m.texcoords| && 3 * VertexCount(m) <= |m.normals|
  }

  /** Vertex `i` before the tangent pass: position and normal copied, the
      texture's v coordinate flipped, a zero tangent frame. */
  function InitialVertex(m: ObjMesh, i: nat): Vertex
    requires i < VertexCount(m) && AttributesCover(m)
  {
    Vertex(
      Vec3(m.positions[3 * i], m.positions[3 * i + 1], m.positions[3 * i + 2]),
      Vec2(m.texcoords[2 * i], 1.0 - m.texcoords[2 * i + 1]),
      Vec3(m.normals[3 * i], m.normals[3 * i + 1], m.normals[3 * i + 2]),
      ZeroBasis)
  }

  /** The first `n` vertices, pushed in order. */
  function VerticesUpTo(m: ObjMesh, n: nat): (vs: seq<Vertex>)
    requires n <= VertexCount(m) && AttributesCover(m)
    ensures |vs| == n
    ensures forall i :: 0 <= i < n ==> vs[i] == InitialVertex(m, i)
  {
    if n == 0 then [] else VerticesUpTo(m, n - 1) + [InitialVertex(m, n - 1)]
  }

  /** The vertex loop: it reads `texcoords[2i + 1]` and `normals[3i + 2]`
      for every vertex, so short attribute arrays panic. */
  function BuildVertices(m: ObjMesh): (r: Result<seq<Vertex>, Failure>)
    ensures r.Ok? <==> AttributesCover(m)
    ensures r.Err? ==> r.error.Panic?
    ensures r.Ok? ==> |r.value| == VertexCount(m)
  {
    if !AttributesCover(m) then Err(Panic("index out of bounds"))
    else Ok(VerticesUpTo(m, VertexCount(m)))
  }

  // ------------------------------------------------------------ Triangles

  /** The number of whole triangles in the index list. */
  function TriangleCount(indices: seq<U32>): nat {
    |indices| / 3
  }

  /** Triangle `t` references vertex `v`. */
  predicate Touches(indices: seq<U32>, t: nat, v: nat)
    requires 3 * t + 3 <= |indices|
  {
    indices[3 * t] == v || indices[3 * t + 1] == v || indices[3 * t + 2] == v
  }

  /** The last of the first `n` triangles that references `v`. */
  function LastTouch(indices: seq<U32>, n: nat, v: nat): (r: Option<nat>)
    requires 3 * n <= |indices|
    ensures r.Some? ==> r.value < n && Touches(indices, r.value, v)
    ensures r.Some? ==> forall t :: r.value < t < n ==> !Touches(indices, t, v)
    ensures r.None? ==> forall t :: 0 <= t < n ==> !Touches(indices, t, v)
  {
    if n == 0 then None
    else if Touches(indices, n - 1, v) then Some(n - 1)
    else LastTouch(indices, n - 1, v)
  }

  /** The tangent frame of a triangle from its corners' positions and
      texture coordinates. */
  function FrameOf(p0: Vec3, p1: Vec3, p2: Vec3, w0: Vec2, w1: Vec2, w2: Vec2): Basis {
    FrameFromEdges(Sub(p1, p0), Sub(p2, p0), Vec2(w1.x - w0.x, w1.y - w0.y), Vec2(w2.x - w0.x, w2.y - w0.y))
  }

  /** The frame from the two edges leaving the first corner and their
      texture-coordinate changes: `(dp1 * dw2.y - dp2 * dw1.y) * r` and
      `(dp2 * dw1.x - dp1 * dw2.x) * r` with `r = 1 / det`, coordinate by
      coordinate. */
  function FrameFromEdges(dp1: Vec3, dp2: Vec3, dw1: Vec2, dw2: Vec2): Basis {
    var det := Det(dw1, dw2);
    if det == 0.0 then NonFinite
    else
      var r := Reciprocal(det);
      Basis(
        Vec3(TangentCoord(dp1.x, dp2.x, dw1, dw2, r), TangentCoord(dp1.y, dp2.y, dw1, dw2, r),
             TangentCoord(dp1.z, dp2.z, dw1, dw2, r)),
        Vec3(BitangentCoord(dp1.x, dp2.x, dw1, dw2, r), BitangentCoord(dp1.y, dp2.y, dw1, dw2, r),
             BitangentCoord(dp1.z, dp2.z, dw1, dw2, r)))
  }

  /** The determinant of the texture-coordinate changes. */
  function Det(dw1: Vec2, dw2: Vec2): real {
    dw1.x * dw2.y - dw1.y * dw2.x
  }

  /** `1.0 / d` (f32 division, exact over the reals). */
  function Reciprocal(d: real): (r: real)
    requires d != 0.0
    ensures r * d == 1.0
  {
    1.0 / d
  }

  function TangentCoord(a1: real, a2: real, dw1: Vec2, dw2: Vec2, r: real): real {
    (a1 * dw2.y - a2 * dw1.y) * r
  }

  function BitangentCoord(a1: real, a2: real, dw1: Vec2, dw2: Vec2, r: real): real {
    (a2 * dw1.x - a1 * dw2.x) * r
  }

  /** One coordinate of a tangent `t` and bitangent `b` reproduces one
      coordinate `a1`, `a2` of both edges. */
  predicate Solves(t: real, b: real, dw1: Vec2, dw2: Vec2, a1: real, a2: real) {
    t * dw1.x + b * dw1.y == a1 && t * dw2.x + b * dw2.y == a2
  }

  /** The frame is the solution of the texture-space system: each edge is
      the tangent and bitangent combined with the edge's texture-coordinate
      change (`dp = T * dw.x + B * dw.y`, coordinate by coordinate). It is
      `NonFinite` exactly when the texture coordinates of the triangle are
      collinear. */
  lemma FrameSolvesEdges(dp1: Vec3, dp2: Vec3, dw1: Vec2, dw2: Vec2)
    ensures FrameFromEdges(dp1, dp2, dw1, dw2).NonFinite? <==> Det(dw1, dw2) == 0.0
    ensures FrameFromEdges(dp1, dp2, dw1, dw2).Basis? ==>
      var f := FrameFromEdges(dp1, dp2, dw1, dw2);
      && Solves(f.tangent.x, f.bitangent.x, dw1, dw2, dp1.x, dp2.x)
      && Solves(f.tangent.y, f.bitangent.y, dw1, dw2, dp1.y, dp2.y)
      && Solves(f.tangent.z, f.bitangent.z, dw1, dw2, dp1.z, dp2.z)
  {
    if Det(dw1, dw2) != 0.0 {
      var r := Reciprocal(Det(dw1, dw2));
      CoordSolves(dp1.x, dp2.x, dw1, dw2, r);
      CoordSolves(dp1.y, dp2.y, dw1, dw2, r);
      CoordSolves(dp1.z, dp2.z, dw1, dw2, r);
    }
  }

  /** One coordinate of `FrameSolvesEdges`. */
  lemma CoordSolves(a1: real, a2: real, dw1: Vec2, dw2: Vec2, r: real)
    requires r * Det(dw1, dw2) == 1.0
    ensures Solves(TangentCoord(a1, a2, dw1, dw2, r), BitangentCoord(a1, a2, dw1, dw2, r), dw1, dw2, a1, a2)
  {
    var x1, y1, x2, y2 := dw1.x, dw1.y, dw2.x, dw2.y;
    var p, q, det := a1 * y2 - a2 * y1, a2 * x1 - a1 * x2, x1 * y2 - y1 * x2;
    assert p * x1 + q * y1 == a1 * det;
    assert p * x2 + q * y2 == a2 * det;
    Factor(p, q, r, x1, y1);
    Factor(p, q, r, x2, y2);
    assert (a1 * det) * r == a1 * (r * det);
    assert (a2 * det) * r == a2 * (r * det);
  }

  lemma Factor(p: real, q: real, r: real, x: real, y: real)
    ensures (p * r) * x + (q * r) * y == (p * x + q * y) * r
  {
  }

  // ------------------------------------------------------------ Frames

  /** The frame of triangle `t` of the index list over the given vertices. */
  function TriangleFrame(vertices: seq<Vertex>, indices: seq<U32>, t: nat): Basis
    requires 3 * t + 3 <= |indices|
    requires indices[3 * t] < |vertices| && indices[3 * t + 1] < |vertices| && indices[3 * t + 2] < |vertices|
  {
    var a := vertices[indices[3 * t]];
    var b := vertices[indices[3 * t + 1]];
    var c := vertices[indices[3 * t + 2]];
    FrameOf(a.position, b.position, c.position, a.texCoords, b.texCoords, c.texCoords)
  }

  /** A vertex's frame after the first `n` triangles: the frame of the
      last of them that touches it, or its own frame if none does. */
  function FrameAfter(vertices: seq<Vertex>, indices: seq<U32>, n: nat, v: nat): Basis
    requires v < |vertices| && 3 * n <= |indices|
    requires forall k :: 0 <= k < 3 * n ==> indices[k] < |vertices|
  {
    match LastTouch(indices, n, v)
      case None => vertices[v].basis
      case Some(t) => TriangleFrame(vertices, indices, t)
  }

  /** Every index names a vertex. */
  predicate IndicesInRange(vertices: seq<Vertex>, indices: seq<U32>) {
    forall k :: 0 <= k < |indices| ==> indices[k] < |vertices|
  }

  /** Two vertex arrays that differ at most in their tangent frames. */
  predicate SameGeometry(a: seq<Vertex>, b: seq<Vertex>) {
    |a| == |b| && forall v :: 0 <= v < |a| ==>
      a[v].position == b[v].position && a[v].texCoords == b[v].texCoords && a[v].normal == b[v].normal
  }

  lemma Thirds(n: nat, t: nat)
    requires 3 * t <= n < 3 * t + 3
    ensures n / 3 == t && (n % 3 == 0 <==> n == 3 * t)
  {
  }

  /** Frames depend on geometry only. */
  lemma SameFrame(vs: seq<Vertex>, vertices: seq<Vertex>, indices: seq<U32>, t: nat)
    requires SameGeometry(vs, vertices) && 3 * t + 3 <= |indices|
    requires indices[3 * t] < |vertices| && indices[3 * t + 1] < |vertices| && indices[3 * t + 2] < |vertices|
    ensures TriangleFrame(vs, indices, t) == TriangleFrame(vertices, indices, t)
  {
  }

  /** A vertex array with the same geometry and the expected frames is the
      expected array. */
  lemma Rebuild(vertices: seq<Vertex>, vs: seq<Vertex>, indices: seq<U32>)
    requires |indices| % 3 == 0 && IndicesInRange(vertices, indices)
    requires SameGeometry(vs, vertices)
    requires forall v :: 0 <= v < |vertices| ==>
      vs[v].basis == FrameAfter(vertices, indices, TriangleCount(indices), v)
    ensures forall v :: 0 <= v < |vertices| ==>
      vs[v] == vertices[v].(basis := FrameAfter(vertices, indices, TriangleCount(indices), v))
  {
  }

  /** The three writes of one triangle: its corners, in order, get the
      triangle's frame. */
  function SetFrame(vs: seq<Vertex>, a: nat, b: nat, c: nat, frame: Basis): (r: seq<Vertex>)
    requires a < |vs| && b < |vs| && c < |vs|
    ensures |r| == |vs|
    ensures forall v :: 0 <= v < |vs| ==>
      r[v] == if v == a || v == b || v == c then vs[v].(basis := frame) else vs[v]
  {
    var r1 := vs[a := vs[a].(basis := frame)];
    var r2 := r1[b := r1[b].(basis := frame)];
    r2[c := r2[c].(basis := frame)]
  }

  /** The tangent pass after `t` triangles: the indices read so far name
      vertices, the geometry is untouched, and every vertex carries the
      frame of the last of those triangles that references it. */
  predicate PassState(vertices: seq<Vertex>, indices: seq<U32>, t: nat, vs: seq<Vertex>) {
    && 3 * t <= |indices|
    && (forall k :: 0 <= k < 3 * t ==> indices[k] < |vertices|)
    && SameGeometry(vs, vertices)
    && forall v :: 0 <= v < |vertices| ==> vs[v].basis == FrameAfter(vertices, indices, t, v)
  }

  /** One iteration of the tangent pass: the frame of triangle `t`, computed
      from the array being updated, is written to its three corners, which
      moves the state from `t` triangles to `t + 1`. */
  method PassTriangle(vertices: seq<Vertex>, indices: seq<U32>, t: nat, vs: seq<Vertex>) returns (w: seq<Vertex>)
    requires PassState(vertices, indices, t, vs) && 3 * t + 3 <= |indices|
    requires indices[3 * t] < |vs| && indices[3 * t + 1] < |vs| && indices[3 * t + 2] < |vs|
    ensures PassState(vertices, indices, t + 1, w)
  {
    var frame := TriangleFrame(vs, indices, t);
    SameFrame(vs, vertices, indices, t);
    w := SetFrame(vs, indices[3 * t], indices[3 * t + 1], indices[3 * t + 2], frame);
    forall v | 0 <= v < |vertices|
      ensures w[v].basis == FrameAfter(vertices, indices, t + 1, v)
    {
      if Touches(indices, t, v) {
        assert LastTouch(indices, t + 1, v) == Some(t);
      } else {
        assert LastTouch(indices, t + 1, v) == LastTouch(indices, t, v);
      }
    }
    assert forall k :: 0 <= k < 3 * t + 3 ==> indices[k] < |vertices| by {
      forall k | 0 <= k < 3 * t + 3 ensures indices[k] < |vertices| {
        if k >= 3 * t {
          assert k == 3 * t || k == 3 * t + 1 || k == 3 * t + 2;
        }
      }
    }
  }

  /** The tangent pass over `indices.chunks(3)`. A chunk that names a
      missing vertex panics, and so does a final chunk of fewer than three
      indices (`c[1]` or `c[2]` is out of range). Otherwise every vertex
      ends with the frame of the last triangle that references it; a
      vertex no triangle references keeps its frame, and positions,
      texture coordinates and normals are untouched. */
  method TangentPass(vertices: seq<Vertex>, indices: seq<U32>) returns (r: Result<seq<Vertex>, Failure>)
    ensures r.Ok? <==> |indices| % 3 == 0 && IndicesInRange(vertices, indices)
    ensures r.Err? ==> r.error.Panic?
    ensures r.Ok? ==> (|r.value| == |vertices|
      && forall v :: 0 <= v < |vertices| ==>
        r.value[v] == vertices[v].(basis := FrameAfter(vertices, indices, TriangleCount(indices), v)))
  {
    var passed := PassWholeTriangles(vertices, indices);
    if passed.Err? {
      return passed;
    }
    if |indices| % 3 != 0 {
      return Err(Panic("index out of bounds"));
    }
    Rebuild(vertices, passed.value, indices);
    return passed;
  }

  /** The indices of the whole triangles name vertices. */
  predicate WholeTrianglesInRange(vertices: seq<Vertex>, indices: seq<U32>) {
    forall k :: 0 <= k < 3 * TriangleCount(indices) ==> indices[k] < |vertices|
  }

  /** The loop of the tangent pass over the whole triangles, in order: the
      first that names a missing vertex panics, otherwise every whole
      triangle has been applied. */
  method PassWholeTriangles(vertices: seq<Vertex>, indices: seq<U32>) returns (r: Result<seq<Vertex>, Failure>)
    ensures r.Ok? <==> WholeTrianglesInRange(vertices, indices)
    ensures r.Err? ==> r.error.Panic?
    ensures r.Ok? ==> PassState(vertices, indices, TriangleCount(indices), r.value)
  {
    var vs := vertices;
    var t := 0;
    while 3 * t + 3 <= |indices|
      invariant PassState(vertices, indices, t, vs)
    {
      var a, b, c := indices[3 * t], indices[3 * t + 1], indices[3 * t + 2];
      if a >= |vs| || b >= |vs| || c >= |vs| {
        assert 3 * t + 3 <= 3 * TriangleCount(indices);
        return Err(Panic("index out of bounds"));
      }
      vs := PassTriangle(vertices, indices, t, vs);
      t := t + 1;
    }
    Thirds(|indices|, t);
    assert t == TriangleCount(indices);
    return Ok(vs);
  }

  /** The mesh can be assembled without a panic: its attribute arrays
      cover every vertex and its indices form whole triangles of existing
      vertices. */
  predicate Assemblable(m: ObjMesh) {
    && AttributesCover(m)
    && |m.indices| % 3 == 0
    && forall k :: 0 <= k < |m.indices| ==> m.indices[k] < VertexCount(m)
  }

  /** The vertex array a mesh ends with: vertex `v` as the vertex loop
      built it, with the frame of the last triangle that references it. */
  function AssembledVertex(m: ObjMesh, v: nat): Vertex
    requires v < VertexCount(m) && Assemblable(m)
  {
    var vs := VerticesUpTo(m, VertexCount(m));
    vs[v].(basis := FrameAfter(vs, m.indices, TriangleCount(m.indices), v))
  }

  /** The vertex loop followed by the tangent pass. It panics when an
      attribute array is short, the index count is not a multiple of three
      or an index names a missing vertex; otherwise it yields exactly the
      assembled vertices. */
  method AssembleVertices(m: ObjMesh) returns (r: Result<seq<Vertex>, Failure>)
    ensures r.Ok? <==> Assemblable(m)
    ensures r.Err? ==> r.error.Panic?
    ensures r.Ok? ==> |r.value| == VertexCount(m)
    ensures r.Ok? ==>
      forall v :: 0 <= v < VertexCount(m) ==> r.value[v] == AssembledVertex(m, v)
  {
    var built := BuildVertices(m);
    if built.Err? {
      return built.PropagateFailure();
    }
    r := TangentPass(built.value, m.indices);
  }
}

=== FILE: modelload.dfy ===
/** `ObjModel::load` of model.rs without the GPU: the material loop, which
    builds three textures per material (falling back to one-pixel textures
    for maps the material does not name) and then goes through the shared
    shader and material caches, and the mesh loop, which assembles the
    vertices and looks up each mesh's material by key. GPU objects are
    plain values; the caches are maps threaded through the load. */
module ModelLoad {
  import opened Wrappers
  import opened Ints
  import opened Failures
  import opened Strings
  import opened Paths
  import opened Textures
  import opened ResourceCache
  import opened MeshAssembly

  /** A compiled shader program, by its label and the path of its SPIR-V. */
  datatype Shader = Shader(title: string, spvPath: string)

  /** `Material`: the three textures, the material's index in its file and
      the shader it draws with. */
  datatype Material = Material(
    name: string,
    diffuse: Texture,
    normal: Texture,
    specular: Texture,
    index: U32,
    shader: Shader)

  /** The scene's shared `shaders` and `materials` maps. */
  datatype Caches = Caches(shaders: map<string, Shader>, materials: map<string, Material>)

  /** `Mesh`: the vertex and index buffers are their contents. */
  datatype Mesh = Mesh(
    name: string,
    vertices: seq<Vertex>,
    indices: seq<U32>,
    numElements: U32,
    material: Material)

  datatype ObjModel = ObjModel(meshes: seq<Mesh>)

  datatype GltfModel = GltfModel(meshes: seq<Mesh>, materials: seq<Material>)

  datatype Model = Obj(obj: ObjModel) | Gltf(gltf: GltfModel)

  /** `Model::meshes`: the mesh list of whichever kind of model is held. */
  function Meshes(m: Model): (r: seq<Mesh>)
    ensures m.Obj? ==> r == m.obj.meshes
    ensures m.Gltf? ==> r == m.gltf.meshes
  {
    match m
      case Obj(o) => o.meshes
      case Gltf(g) => g.meshes
  }

  const ShaderLabel := "obj vertex shader"

  // ------------------------------------------------------ Fallback colours

  /** `(c * 255.) as u8`: Rust's float-to-integer cast truncates toward
      zero and saturates, so the byte is the whole part of `c * 255`
      clamped to `0..=255`. */
  function ChannelByte(c: real): (b: U8)
    ensures c * 255.0 <= 0.0 ==> b == 0
    ensures 255.0 <= c * 255.0 ==> b == 255
    ensures 0.0 <= c * 255.0 < 255.0 ==> b as real <= c * 255.0 < b as real + 1.0
  {
    var x := c * 255.0;
    if x <= 0.0 then 0 else if x >= 255.0 then 255 else x.Floor
  }

  /** The bytes of the one-pixel stand-in for a missing diffuse or
      specular map: the material's colour, then an opaque alpha. */
  function FallbackBytes(c: Rgb): (r: seq<U8>)
    ensures |r| == 4 && r[3] == 0xff
    ensures r[0] == ChannelByte(c.r) && r[1] == ChannelByte(c.g) && r[2] == ChannelByte(c.b)
  {
    [ChannelByte(c.r), ChannelByte(c.g), ChannelByte(c.b), 0xff]
  }

  /** The stand-in for a missing normal map: a flat normal, zero alpha. */
  const FlatNormalBytes: seq<U8> := [0x80, 0x80, 0xff, 0]

  /** A colour whose channels are all in `[0, 1]` quantises to bytes that
      lie within one step below it; white and black are exact. */
  lemma FallbackQuantises(c: Rgb)
    requires 0.0 <= c.r <= 1.0 && 0.0 <= c.g <= 1.0 && 0.0 <= c.b <= 1.0
    ensures var r := FallbackBytes(c);
      && r[0] as real <= c.r * 255.0 < r[0] as real + 1.0
      && r[1] as real <= c.g * 255.0 < r[1] as real + 1.0
      && r[2] as real <= c.b * 255.0 < r[2] as real + 1.0
    ensures FallbackBytes(Rgb(1.0, 1.0, 1.0)) == [255, 255, 255, 255]
    ensures FallbackBytes(Rgb(0.0, 0.0, 0.0)) == [0, 0, 0, 255]
  {
  }

  // ------------------------------------------------------------- Textures

  /** The message of a map whose image file cannot be opened. */
  function NotFound(what: string, file: string): string {
    what + " texture: " + file + " not found"
  }

  /** One of a material's maps: the fallback when the material names no
      file, otherwise the file next to the OBJ, loaded with
      `Texture::load`. An image that cannot be opened becomes the error
      `<what> texture: <file> not found`; a panic while building the
      texture passes through. */
  function MapTexture(
    folder: Path, file: string, isNormalMap: bool, fallback: Texture, what: string,
    images: map<Path, Image>)
    : (r: Result<Texture, Failure>)
    ensures file == "" ==> r == Ok(fallback)
    ensures file != "" ==> (r.Ok? <==> Load(JoinName(folder, file), isNormalMap, images).Ok?)
    ensures file != "" && r.Ok? ==> r == Load(JoinName(folder, file), isNormalMap, images)
    ensures file != "" && JoinName(folder, file) !in images ==>
      r == Err(Error(NotFound(what, file)))
  {
    if file == "" then Ok(fallback)
    else match Load(JoinName(folder, file), isNormalMap, images)
      case Ok(t) => Ok(t)
      case Err(Error(_)) => Err(Error(NotFound(what, file)))
      case Err(Panic(reason)) => Err(Panic(reason))
  }

  /** The diffuse map: loaded as sRGB, or the material's diffuse colour. */
  function DiffuseMap(folder: Path, mat: ObjMaterial, images: map<Path, Image>): Result<Texture, Failure> {
    MapTexture(folder, mat.diffuseTexture, false, OnePixel(FallbackBytes(mat.diffuse), true), "Diffuse", images)
  }

  /** The normal map: loaded as linear data, or a flat normal. */
  function NormalMap(folder: Path, mat: ObjMaterial, images: map<Path, Image>): Result<Texture, Failure> {
    MapTexture(folder, mat.normalTexture, true, OnePixel(FlatNormalBytes, true), "Normal", images)
  }

  /** The specular map: loaded as sRGB, or the material's specular colour.
      Its failure message calls it a diffuse texture. */
  function SpecularMap(folder: Path, mat: ObjMaterial, images: map<Path, Image>): Result<Texture, Failure> {
    MapTexture(folder, mat.specularTexture, false, OnePixel(FallbackBytes(mat.specular), true), "Diffuse", images)
  }

  /** The three maps of a material in the order the loader builds them;
      the first that fails fails the material. The one-pixel fallbacks are
      all built as linear textures, as in the source. */
  function MaterialTextures(folder: Path, mat: ObjMaterial, images: map<Path, Image>)
    : (r: Result<(Texture, Texture, Texture), Failure>)
    ensures r.Ok? <==>
      DiffuseMap(folder, mat, images).Ok? && NormalMap(folder, mat, images).Ok? && SpecularMap(folder, mat, images).Ok?
    ensures DiffuseMap(folder, mat, images).Err? ==> r == Err(DiffuseMap(folder, mat, images).error)
    ensures DiffuseMap(folder, mat, images).Ok? && NormalMap(folder, mat, images).Err? ==>
      r == Err(NormalMap(folder, mat, images).error)
    ensures DiffuseMap(folder, mat, images).Ok? && NormalMap(folder, mat, images).Ok? ==>
      (SpecularMap(folder, mat, images).Err? ==> r == Err(SpecularMap(folder, mat, images).error))
    ensures r.Ok? && mat.diffuseTexture == "" ==> r.value.0 == OnePixel(FallbackBytes(mat.diffuse), true)
    ensures r.Ok? && mat.normalTexture == "" ==> r.value.1 == OnePixel(FlatNormalBytes, true)
    ensures r.Ok? && mat.specularTexture == "" ==> r.value.2 == OnePixel(FallbackBytes(mat.specular), true)
  {
    var d :- DiffuseMap(folder, mat, images);
    var n :- NormalMap(folder, mat, images);
    var s :- SpecularMap(folder, mat, images);
    Ok((d, n, s))
  }

  // ------------------------------------------------------------ Cache keys

  /** `format!("{}-{}", name, i)`. */
  function MaterialKey(name: string, i: nat): string {
    name + "-" + Decimal(i)
  }

  /** The name and index can be read back from a key: the key's last `-`
      is the one after the name, because the decimal index has none. So
      different (name, index) pairs never share an entry, and in particular
      the materials of one file get distinct keys. */
  lemma MaterialKeyInjective(n1: string, i1: nat, n2: string, i2: nat)
    requires MaterialKey(n1, i1) == MaterialKey(n2, i2)
    ensures n1 == n2 && i1 == i2
  {
    var key := MaterialKey(n1, i1);
    KeyDash(n1, i1);
    KeyDash(n2, i2);
    assert |n1| == |n2|;
    assert n1 == key[..|n1|] == n2;
    assert Decimal(i1) == key[|n1| + 1..] == Decimal(i2);
    DecimalInjective(i1, i2);
  }

  /** The `-` after the name is the last one in the key. */
  lemma KeyDash(name: string, i: nat)
    ensures var key := MaterialKey(name, i);
      key[|name|] == '-' && forall k :: |name| < k < |key| ==> key[k] != '-'
  {
    var key := MaterialKey(name, i);
    forall k | |name| < k < |key|
      ensures key[k] != '-'
    {
      assert key[k] == Decimal(i)[k - |name| - 1];
    }
  }

  // ------------------------------------------------------------ Materials

  /** The load leaves every cached entry as it was and adds no shader but
      the one under `shaderKey`. */
  predicate Preserves(before: Caches, after: Caches, shaderKey: string) {
    && (forall k :: k in before.materials ==> k in after.materials && after.materials[k] == before.materials[k])
    && (forall k :: k in before.shaders ==> k in after.shaders && after.shaders[k] == before.shaders[k])
    && (forall k :: k in after.shaders ==> k in before.shaders || k == shaderKey)
  }

  /** The cache half of one turn of the material loop: the shader entry
      and then the material entry are looked up, each created on a miss.
      The result is the material's key and the caches after the turn. On a
      material-cache hit the textures just built are dropped and the
      cached material stays. */
  function CacheMaterial(caches: Caches, mat: ObjMaterial, i: nat, textures: (Texture, Texture, Texture), shaderKey: string)
    : (r: (string, Caches))
    ensures var (key, after) := r;
      && key == MaterialKey(mat.name, i)
      && key in after.materials
      && shaderKey in after.shaders
      && Preserves(caches, after, shaderKey)
      && (key in caches.materials ==> after.materials == caches.materials)
      && (forall k :: k in after.materials ==> k in caches.materials || k == key)
      && (key !in caches.materials ==>
            after.materials == caches.materials[key :=
              Material(mat.name, textures.0, textures.1, textures.2, i % U32_LIMIT, after.shaders[shaderKey])])
  {
    var (shader, shaders) := GetOrInsert(caches.shaders, shaderKey, Shader(ShaderLabel, shaderKey));
    var key := MaterialKey(mat.name, i);
    var (_, materials) := GetOrInsert(caches.materials, key, Material(mat.name, textures.0, textures.1, textures.2, i % U32_LIMIT, shader));
    (key, Caches(shaders, materials))
  }

  /** One turn of the material loop: the three textures are built first
      and only then are the caches consulted, so a texture that fails fails
      the turn, before either cache is touched and whether or not the
      material's key is cached. */
  function LoadMaterial(
    caches: Caches, folder: Path, mat: ObjMaterial, i: nat, images: map<Path, Image>, shaderKey: string)
    : (r: Result<(string, Caches), Failure>)
    ensures r.Ok? <==> MaterialTextures(folder, mat, images).Ok?
    ensures r.Err? ==> r.error == MaterialTextures(folder, mat, images).error
    ensures r.Ok? ==> r.value == CacheMaterial(caches, mat, i, MaterialTextures(folder, mat, images).value, shaderKey)
  {
    var textures :- MaterialTextures(folder, mat, images);
    Ok(CacheMaterial(caches, mat, i, textures, shaderKey))
  }

  /** A material whose diffuse file is missing fails the load even when
      its key is already cached, say by a file loaded earlier with a
      material of the same name at the same index. */
  lemma MissingTextureFailsOnCacheHit(
    caches: Caches, folder: Path, mat: ObjMaterial, i: nat, images: map<Path, Image>, shaderKey: string)
    requires mat.diffuseTexture != "" && JoinName(folder, mat.diffuseTexture) !in images
    requires MaterialKey(mat.name, i) in caches.materials
    ensures LoadMaterial(caches, folder, mat, i, images, shaderKey)
         == Err(Error(NotFound("Diffuse", mat.diffuseTexture)))
  {
  }

  /** The key leaves out the file, so a material with the name and index
      of one that is already cached, from whatever folder, gets the cached
      entry rather than its own textures. */
  lemma SameNameAndIndexShareEntry(
    caches: Caches, folder: Path, mat: ObjMaterial, i: nat, images: map<Path, Image>, shaderKey: string)
    requires MaterialKey(mat.name, i) in caches.materials
    requires LoadMaterial(caches, folder, mat, i, images, shaderKey).Ok?
    ensures var after := LoadMaterial(caches, folder, mat, i, images, shaderKey).value.1;
      after.materials[MaterialKey(mat.name, i)] == caches.materials[MaterialKey(mat.name, i)]
  {
  }

  /** Every material's maps can be built. */
  predicate AllTexturesLoad(folder: Path, mats: seq<ObjMaterial>, images: map<Path, Image>) {
    forall k :: 0 <= k < |mats| ==> MaterialTextures(folder, mats[k], images).Ok?
  }

  /** The keys of the first `|keys|` materials, in order. */
  predicate KeysOf(keys: seq<string>, mats: seq<ObjMaterial>) {
    |keys| <= |mats| && forall k :: 0 <= k < |keys| ==> keys[k] == MaterialKey(mats[k].name, k)
  }

  /** The keys of all the materials of a file. */
  function MaterialKeys(mats: seq<ObjMaterial>): (keys: seq<string>)
    ensures |keys| == |mats| && KeysOf(keys, mats)
  {
    seq(|mats|, k requires 0 <= k < |mats| => MaterialKey(mats[k].name, k))
  }

  /** Every material the load created holds the textures built for it,
      its index truncated to `u32`, and the shader cached under
      `shaderKey`. */
  predicate Created(
    keys: seq<string>, mats: seq<ObjMaterial>, built: seq<Result<(Texture, Texture, Texture), Failure>>,
    before: Caches, after: Caches, shaderKey: string)
    requires |keys| <= |mats| == |built|
  {
    forall k :: 0 <= k < |keys| && keys[k] !in before.materials ==>
      && built[k].Ok?
      && shaderKey in after.shaders
      && keys[k] in after.materials
      && after.materials[keys[k]]
         == Material(mats[k].name, built[k].value.0, built[k].value.1, built[k].value.2, k % U32_LIMIT,
                     after.shaders[shaderKey])
  }

  /** The maps of every material, built in order. Building a texture has
      no effect on the caches, so building them all before the cache turns
      gives the turns the same inputs as building each just before its
      turn. */
  function BuildTextures(folder: Path, mats: seq<ObjMaterial>, images: map<Path, Image>)
    : (built: seq<Result<(Texture, Texture, Texture), Failure>>)
    ensures |built| == |mats| && forall k :: 0 <= k < |mats| ==> built[k] == MaterialTextures(folder, mats[k], images)
  {
    seq(|mats|, k requires 0 <= k < |mats| => MaterialTextures(folder, mats[k], images))
  }

  /** What the material loop knows after the turns that produced `keys`:
      they are the first keys of the file, all cached, the old entries are
      intact, nothing else was added, and the created materials are as
      built. */
  predicate LoopState(
    caches: Caches, after: Caches, keys: seq<string>, mats: seq<ObjMaterial>,
    built: seq<Result<(Texture, Texture, Texture), Failure>>, shaderKey: string)
    requires |mats| == |built|
  {
    && KeysOf(keys, mats)
    && (forall k :: 0 <= k < |keys| ==> built[k].Ok? && keys[k] in after.materials)
    && Preserves(caches, after, shaderKey)
    && (forall k :: k in after.materials ==> k in caches.materials || k in keys)
    && Created(keys, mats, built, caches, after, shaderKey)
  }

  /** One more turn keeps the loop's knowledge. The turn's key was cached
      before the load, or is created now; it cannot come from an earlier
      turn, whose keys all differ from it. */
  lemma TurnKeepsState(
    caches: Caches, cur: Caches, keys: seq<string>, mats: seq<ObjMaterial>,
    built: seq<Result<(Texture, Texture, Texture), Failure>>, shaderKey: string)
    requires |mats| == |built| && |keys| < |mats| && built[|keys|].Ok?
    requires LoopState(caches, cur, keys, mats, built, shaderKey)
    ensures var (key, next) := CacheMaterial(cur, mats[|keys|], |keys|, built[|keys|].value, shaderKey);
      LoopState(caches, next, keys + [key], mats, built, shaderKey)
  {
    var i := |keys|;
    var (key, next) := CacheMaterial(cur, mats[i], i, built[i].value, shaderKey);
    var all := keys + [key];
    assert KeysOf(all, mats) by {
      assert forall k :: 0 <= k < |keys| ==> all[k] == keys[k];
    }
    CreatedStep(caches, cur, keys, mats, built, shaderKey);
  }

  /** The `Created` half of `TurnKeepsState`. */
  lemma CreatedStep(
    caches: Caches, cur: Caches, keys: seq<string>, mats: seq<ObjMaterial>,
    built: seq<Result<(Texture, Texture, Texture), Failure>>, shaderKey: string)
    requires |mats| == |built| && |keys| < |mats| && built[|keys|].Ok?
    requires LoopState(caches, cur, keys, mats, built, shaderKey)
    ensures var (key, next) := CacheMaterial(cur, mats[|keys|], |keys|, built[|keys|].value, shaderKey);
      Created(keys + [key], mats, built, caches, next, shaderKey)
  {
    var i := |keys|;
    var (key, next) := CacheMaterial(cur, mats[i], i, built[i].value, shaderKey);
    var all := keys + [key];
    forall k | 0 <= k < |all| && all[k] !in caches.materials
      ensures shaderKey in next.shaders && all[k] in next.materials
      ensures next.materials[all[k]]
        == Material(mats[k].name, built[k].value.0, built[k].value.1, built[k].value.2, k % U32_LIMIT,
                    next.shaders[shaderKey])
    {
      if k < i {
        assert all[k] == keys[k] && keys[k] in cur.materials;
      } else if key in cur.materials {
        var j :| 0 <= j < |keys| && keys[j] == key;
        MaterialKeyInjective(mats[j].name, j, mats[i].name, i);
      }
    }
  }

  /** The material loop over the textures built for each material: the
      keys of all materials in order, or the failure of the first material
      whose textures failed, together with the caches as the loop left
      them (the turns before a failure keep their insertions). */
  method LoadMaterials(
    caches: Caches, mats: seq<ObjMaterial>, built: seq<Result<(Texture, Texture, Texture), Failure>>, shaderKey: string)
    returns (r: Result<seq<string>, Failure>, after: Caches)
    requires |mats| == |built|
    ensures Preserves(caches, after, shaderKey)
    ensures r.Ok? <==> forall k :: 0 <= k < |built| ==> built[k].Ok?
    ensures r.Err? ==> exists k :: (0 <= k < |built| && built[k].Err? && r.error == built[k].error
      && forall j :: 0 <= j < k ==> built[j].Ok?)
    ensures r.Ok? ==> r.value == MaterialKeys(mats)
    ensures r.Ok? ==> forall k :: 0 <= k < |r.value| ==> r.value[k] in after.materials
    ensures r.Ok? ==> Created(r.value, mats, built, caches, after, shaderKey)
  {
    var keys: seq<string> := [];
    after := caches;
    for i := 0 to |mats|
      invariant |keys| == i && LoopState(caches, after, keys, mats, built, shaderKey)
    {
      if built[i].Err? {
        return Err(built[i].error), after;
      }
      TurnKeepsState(caches, after, keys, mats, built, shaderKey);
      var (key, next) := CacheMaterial(after, mats[i], i, built[i].value, shaderKey);
      after := next;
      keys := keys + [key];
    }
    assert keys == MaterialKeys(mats);
    return Ok(keys), after;
  }

  // --------------------------------------------------------------- Meshes

  /** The mesh loop can handle this model: it assembles, and it names a
      material the file defines. */
  predicate MeshLoads(e: ObjEntry, keys: seq<string>) {
    Assemblable(e.mesh) && e.mesh.materialId.Some? && e.mesh.materialId.value < |keys|
  }

  /** `mesh` is what the mesh loop makes of the model `e`: its name and
      indices, the index count truncated to `u32`, the assembled vertices,
      and the cached material under the key of its material id. */
  predicate MeshOf(e: ObjEntry, keys: seq<string>, materials: map<string, Material>, mesh: Mesh) {
    && MeshLoads(e, keys)
    && mesh.name == e.name
    && mesh.indices == e.mesh.indices
    && mesh.numElements == |e.mesh.indices| % U32_LIMIT
    && |mesh.vertices| == VertexCount(e.mesh)
    && (forall v :: 0 <= v < VertexCount(e.mesh) ==> mesh.vertices[v] == AssembledVertex(e.mesh, v))
    && keys[e.mesh.materialId.value] in materials
    && mesh.material == materials[keys[e.mesh.materialId.value]]
  }

  /** The mesh loop: every model becomes a mesh, in order, or the first
      model that cannot be handled panics (a short attribute array, a bad
      index, a missing material id or one past the file's materials). The
      material lookup itself cannot fail, since every key is cached. */
  method LoadMeshes(models: seq<ObjEntry>, keys: seq<string>, materials: map<string, Material>)
    returns (r: Result<seq<Mesh>, Failure>)
    requires forall k :: 0 <= k < |keys| ==> keys[k] in materials
    ensures r.Ok? <==> forall k :: 0 <= k < |models| ==> MeshLoads(models[k], keys)
    ensures r.Err? ==> r.error.Panic?
    ensures r.Ok? ==> |r.value| == |models|
    ensures r.Ok? ==> forall k :: 0 <= k < |models| ==> MeshOf(models[k], keys, materials, r.value[k])
  {
    var meshes: seq<Mesh> := [];
    for j := 0 to |models|
      invariant |meshes| == j
      invariant forall k :: 0 <= k < j ==> MeshOf(models[k], keys, materials, meshes[k])
    {
      var e := models[j];
      var vertices := AssembleVertices(e.mesh);
      if vertices.Err? {
        return vertices.PropagateFailure();
      }
      if e.mesh.materialId.None? {
        return Err(Panic("called `Option::unwrap()` on a `None` value"));
      }
      var id := e.mesh.materialId.value;
      if id >= |keys| {
        return Err(Panic("index out of bounds"));
      }
      var mesh := Mesh(e.name, vertices.value, e.mesh.indices, |e.mesh.indices| % U32_LIMIT, materials[keys[id]]);
      meshes := meshes + [mesh];
    }
    return Ok(meshes);
  }

  // ----------------------------------------------------------------- Load

  /** The two loops of `ObjModel::load` over a parsed file whose material
      library loaded, with `folder` the directory of the OBJ file. It
      succeeds exactly when every material's maps build and every model
      can be turned into a mesh. */
  method LoadFile(file: ObjFile, folder: Path, images: map<Path, Image>, shaderKey: string, caches: Caches)
    returns (r: Result<ObjModel, Failure>, after: Caches)
    requires file.materials.Ok?
    ensures Preserves(caches, after, shaderKey)
    ensures r.Ok? <==>
      && AllTexturesLoad(folder, file.materials.value, images)
      && forall k :: 0 <= k < |file.models| ==> MeshLoads(file.models[k], MaterialKeys(file.materials.value))
    ensures r.Ok? ==> |r.value.meshes| == |file.models|
    ensures r.Ok? ==> forall k :: 0 <= k < |file.models| ==>
      MeshOf(file.models[k], MaterialKeys(file.materials.value), after.materials, r.value.meshes[k])
  {
    var mats := file.materials.value;
    var built := BuildTextures(folder, mats, images);
    var keys;
    keys, after := LoadMaterials(caches, mats, built, shaderKey);
    if keys.Err? {
      return Err(keys.error), after;
    }
    var meshes := LoadMeshes(file.models, keys.value, after.materials);
    if meshes.Err? {
      return Err(meshes.error), after;
    }
    return Ok(ObjModel(meshes.value)), after;
  }

  /** `ObjModel::load`. `parsed` is what tobj made of the file at `path`,
      `images` the image files that open, `shaderKey` the text of
      `OUT_DIR/shader`. The failures come in this order: the OBJ file does
      not parse (an error), the path has no parent (an error), the material
      library failed to load (a panic at `unwrap`), a material's map fails,
      a mesh cannot be built (a panic). Whatever happens, the caches keep
      every entry they had and gain no shader but `shaderKey`. */
  method LoadObjModel(
    parsed: Result<ObjFile, string>, path: Path, images: map<Path, Image>, shaderKey: string, caches: Caches)
    returns (r: Result<ObjModel, Failure>, after: Caches)
    ensures Preserves(caches, after, shaderKey)
    ensures parsed.Err? ==> r.Err? && r.error.Error? && after == caches
    ensures parsed.Ok? && Parent(path).None? ==> r == Err(Error("Directory has no parent")) && after == caches
    ensures parsed.Ok? && Parent(path).Some? && parsed.value.materials.Err? ==> r.Err? && r.error.Panic?
    ensures r.Ok? ==> parsed.Ok? && Parent(path).Some? && parsed.value.materials.Ok?
    ensures parsed.Ok? && Parent(path).Some? && parsed.value.materials.Ok? ==>
      (r.Ok? <==>
        && AllTexturesLoad(Parent(path).value, parsed.value.materials.value, images)
        && forall k :: 0 <= k < |parsed.value.models| ==>
             MeshLoads(parsed.value.models[k], MaterialKeys(parsed.value.materials.value)))
    ensures r.Ok? ==>
      var models := parsed.value.models;
      var mats := parsed.value.materials.value;
      && AllTexturesLoad(Parent(path).value, mats, images)
      && |r.value.meshes| == |models|
      && forall k :: 0 <= k < |models| ==> MeshOf(models[k], MaterialKeys(mats), after.materials, r.value.meshes[k])
  {
    after := caches;
    if parsed.Err? {
      return Err(Error(parsed.error)), after;
    }
    var folder := Parent(path);
    if folder.None? {
      return Err(Error("Directory has no parent")), after;
    }
    if parsed.value.materials.Err? {
      return Err(Panic("called `Result::unwrap()` on an `Err` value")), after;
    }
    r, after := LoadFile(parsed.value, folder.value, images, shaderKey, caches);
  }
}

=== FILE: paths.dfy ===
/** The part of `std::path` the build script relies on: a path as the list
    of components `Path::components` yields, the last component's file
    name, its extension and stem as `Path::extension` / `Path::file_stem`
    split them, and `Path::with_extension`. Operating-system strings are
    sequences of units, each a character or a byte that is not valid
    UTF-8. */
module Paths {
  import opened Wrappers

  datatype OsUnit = Ch(c: char) | RawByte(b: int)

  type OsString = seq<OsUnit>

  datatype Component =
    | RootDir
    | CurDir
    | ParentDir
    | Normal(name: OsString)

  type Path = seq<Component>

  function Text(s: string): (r: OsString)
    ensures |r| == |s| && forall k :: 0 <= k < |s| ==> r[k] == Ch(s[k])
  {
    seq(|s|, k requires 0 <= k < |s| => Ch(s[k]))
  }

  /** `OsStr::to_str`: `None` when some unit is not valid UTF-8. */
  function ToStr(s: OsString): (r: Option<string>)
    ensures r.Some? <==> forall k :: 0 <= k < |s| ==> s[k].Ch?
    ensures r.Some? ==> Text(r.value) == s
  {
    if |s| == 0 then Some("")
    else if s[0].RawByte? then None
    else
      var tail := s[1..];
      assert forall k :: 1 <= k < |s| ==> s[k] == tail[k - 1];
      match ToStr(tail)
        case None => None
        case Some(rest) =>
          assert Text([s[0].c] + rest) == [s[0]] + Text(rest);
          assert s == [s[0]] + tail;
          Some([s[0].c] + rest)
  }

  /** `Path::file_name`: the last component when it is a normal name. */
  function FileName(p: Path): (r: Option<OsString>)
    ensures r.Some? <==> 1 <= |p| && p[|p| - 1].Normal?
  {
    if 1 <= |p| && p[|p| - 1].Normal? then Some(p[|p| - 1].name) else None
  }

  /** The position of the last `.` in a name, if any. */
  function LastDot(name: OsString): (r: Option<nat>)
    ensures r.Some? ==> (r.value < |name| && name[r.value] == Ch('.')
      && forall k :: r.value < k < |name| ==> name[k] != Ch('.'))
    ensures r.None? ==> forall k :: 0 <= k < |name| ==> name[k] != Ch('.')
    decreases |name|
  {
    if |name| == 0 then None
    else if name[|name| - 1] == Ch('.') then Some(|name| - 1)
    else LastDot(name[..|name| - 1])
  }

  /** The split of a file name at its last dot into stem and extension.
      A name with no dot, a name whose only dot is its first character
      (`.bashrc`) and the name `..` have no extension. */
  function SplitAtDot(name: OsString): (r: (OsString, Option<OsString>))
    ensures r.1.None? ==> r.0 == name
    ensures r.1.Some? ==> r.0 + [Ch('.')] + r.1.value == name && 1 <= |r.0|
    ensures r.1.Some? ==> Ch('.') !in r.1.value
  {
    if name == [Ch('.'), Ch('.')] then (name, None)
    else match LastDot(name)
      case None => (name, None)
      case Some(d) =>
        if d == 0 then (name, None)
        else
          assert name[..d] + [Ch('.')] + name[d + 1..] == name;
          (name[..d], Some(name[d + 1..]))
  }

  /** `Path::extension`. */
  function Extension(p: Path): Option<OsString> {
    match FileName(p)
      case None => None
      case Some(name) => SplitAtDot(name).1
  }

  /** `Path::file_stem`. */
  function FileStem(p: Path): Option<OsString> {
    match FileName(p)
      case None => None
      case Some(name) => Some(SplitAtDot(name).0)
  }

  /** `Path::with_extension`: the stem keeps its place and the new
      extension, when not empty, follows a dot; a path without a file name
      is returned unchanged. */
  function WithExtension(p: Path, ext: OsString): (r: Path)
    ensures |r| == |p| && (1 <= |p| ==> r[..|p| - 1] == p[..|p| - 1])
    ensures FileName(p).None? ==> r == p
  {
    match FileStem(p)
      case None => p
      case Some(stem) =>
        p[..|p| - 1] + [Normal(if |ext| == 0 then stem else stem + [Ch('.')] + ext)]
  }

  /** Replacing the extension of a file that has one by that extension
      with a non-empty suffix appended appends the suffix to the file name
      and leaves the directories alone. */
  lemma AppendToExtension(p: Path, suffix: OsString)
    requires Extension(p).Some? && 1 <= |suffix|
    ensures var r := WithExtension(p, Extension(p).value + suffix);
      FileName(r) == Some(FileName(p).value + suffix)
      && r[..|r| - 1] == p[..|p| - 1]
  {
    var name := FileName(p).value;
    var sp := SplitAtDot(name);
    var e := sp.1.value + suffix;
    assert FileStem(p) == Some(sp.0);
    var r := WithExtension(p, e);
    assert r == p[..|p| - 1] + [Normal(sp.0 + [Ch('.')] + e)];
    calc {
      sp.0 + [Ch('.')] + e;
      sp.0 + [Ch('.')] + sp.1.value + suffix;
      name + suffix;
    }
  }

  /** Appending a non-empty suffix changes a name. */
  lemma SuffixChangesName(name: OsString, suffix: OsString)
    requires 1 <= |suffix|
    ensures name + suffix != name
  {
    assert |name + suffix| != |name|;
  }

  /** `Path::parent`: the path without its last component; the empty path
      and a path that ends at the root have none. A single relative name
      has the empty path as parent. */
  function Parent(p: Path): (r: Option<Path>)
    ensures r.Some? <==> 1 <= |p| && !p[|p| - 1].RootDir?
    ensures r.Some? ==> |r.value| + 1 == |p| && r.value + [p[|p| - 1]] == p
  {
    if 1 <= |p| && !p[|p| - 1].RootDir? then Some(p[..|p| - 1]) else None
  }

  /** `Path::join` of a directory with a plain file name (one without
      separators): the name becomes a new last component. */
  function JoinName(dir: Path, name: string): (r: Path)
    ensures |r| == |dir| + 1 && r[..|dir|] == dir
  {
    dir + [Normal(Text(name))]
  }

  /** Joining a name onto a directory and asking for the parent and the
      file name gives the two back. */
  lemma JoinNameSplits(dir: Path, name: string)
    ensures Parent(JoinName(dir, name)) == Some(dir)
    ensures FileName(JoinName(dir, name)) == Some(Text(name))
  {
    assert JoinName(dir, name)[..|dir|] == dir;
  }
}

=== FILE: quaternions.dfy ===
/** The hand-written quaternion helpers of the camera: `quartanion_matrix`,
    `rotate_quartanion` and `mult_quartanion`. A quaternion is stored as
    `(x, y, z, w)` with `w` the scalar part, as cgmath's `Vector4` stores it.

    cgmath's `Matrix3::new` and `Matrix4::new` take their arguments column by
    column, so the matrices below hold the source's argument lists as columns.
    As a consequence `QuatMatrix(q)` is the transpose of the textbook rotation
    matrix of `q`, and `MultQuaternion(a, b)` is the Hamilton product of the
    conjugate of `a` with `b`. Both are modelled as written; the lemmas show
    which laws still hold. */
module Quaternions {
  import opened Vectors

  /** A 4x4 matrix given by its four columns (cgmath's layout). */
  datatype Mat4 = Mat4(c0: Quat, c1: Quat, c2: Quat, c3: Quat)

  const QuatIdentity := Quat(0.0, 0.0, 0.0, 1.0)

  function MulVec4(m: Mat4, v: Quat): Quat {
    Quat(m.c0.x * v.x + m.c1.x * v.y + m.c2.x * v.z + m.c3.x * v.w,
         m.c0.y * v.x + m.c1.y * v.y + m.c2.y * v.z + m.c3.y * v.w,
         m.c0.z * v.x + m.c1.z * v.y + m.c2.z * v.z + m.c3.z * v.w,
         m.c0.w * v.x + m.c1.w * v.y + m.c2.w * v.z + m.c3.w * v.w)
  }

  /** `quartanion_matrix`: the nine products of the source, passed to
      `Matrix3::new` in the source's order (so they fill the columns). */
  function QuatMatrix(v: Quat): Mat3 {
    var w := v.w;
    var ww := w * w;
    var x := v.x;
    var xx := x * x;
    var y := v.y;
    var yy := y * y;
    var z := v.z;
    var zz := z * z;
    var xy := x * y;
    var xz := x * z;
    var xw := x * w;
    var yz := y * z;
    var yw := y * w;
    var zw := z * w;
    Mat3(Vec3(ww + xx - yy - zz, 2.0 * (xy - zw), 2.0 * (xz + yw)),
         Vec3(2.0 * (xy + zw), ww - xx + yy - zz, 2.0 * (yz - xw)),
         Vec3(2.0 * (xz - yw), 2.0 * (yz + xw), ww - xx - yy + zz))
  }

  /** `rotate_quartanion(t, n)` with `s = sin(t/2)` and `c = cos(t/2)` passed
      in: the vector part is `s * n` and the scalar part is `c`. The result is
      a unit quaternion exactly when the axis is a unit vector (or `s` is 0). */
  function RotateQuaternion(s: real, c: real, n: Vec3): (r: Quat)
    requires s * s + c * c == 1.0
    ensures QNorm2(r) == 1.0 + s * s * (Norm2(n) - 1.0)
    ensures Norm2(n) == 1.0 ==> QNorm2(r) == 1.0
  {
    var r := Quat(s * n.x, s * n.y, s * n.z, c);
    RotateNorm(s, c, n.x, n.y, n.z, Norm2(n), QNorm2(r));
    r
  }

  /** `mult_quartanion(a, b)`: `Matrix4::new(...) * b`, the sixteen entries
      filling the columns. */
  function MultQuaternion(a: Quat, b: Quat): Quat {
    MulVec4(Mat4(Quat(a.w, -a.z, a.y, a.x),
                 Quat(a.z, a.w, -a.x, a.y),
                 Quat(-a.y, a.x, a.w, a.z),
                 Quat(-a.x, -a.y, -a.z, a.w)), b)
  }

  function Conjugate(q: Quat): Quat {
    Quat(-q.x, -q.y, -q.z, q.w)
  }

  /** The identity quaternion gives the identity matrix. */
  lemma QuatMatrixOfIdentity()
    ensures QuatMatrix(QuatIdentity) == Identity3
  {
  }

  /** Multiplying on the left by the identity quaternion changes nothing. */
  lemma MultIdentityLeft(b: Quat)
    ensures MultQuaternion(QuatIdentity, b) == b
  {
  }

  /** Multiplying on the right by the identity quaternion conjugates: the
      column-major constructor makes the product `conj(a) * b`. */
  lemma MultIdentityRightConjugates(a: Quat)
    ensures MultQuaternion(a, QuatIdentity) == Conjugate(a)
  {
  }

  /** `QuatMatrix(q)` scales squared lengths by `|q|^4`; for a unit
      quaternion it is an isometry. */
  lemma QuatMatrixScalesLength(q: Quat, v: Vec3)
    ensures Norm2(MulVec(QuatMatrix(q), v)) == QNorm2(q) * QNorm2(q) * Norm2(v)
  {
    ColumnLengths(q);
    ColumnsOrthogonal(q);
    OrthogonalMatrixScales(QuatMatrix(q), v, QNorm2(q) * QNorm2(q));
  }

  /** A matrix whose columns are pairwise orthogonal and all of squared
      length `n` multiplies squared lengths by `n`. */
  lemma OrthogonalMatrixScales(m: Mat3, v: Vec3, n: real)
    requires Dot(m.c0, m.c0) == n && Dot(m.c1, m.c1) == n && Dot(m.c2, m.c2) == n
    requires Dot(m.c0, m.c1) == 0.0 && Dot(m.c0, m.c2) == 0.0 && Dot(m.c1, m.c2) == 0.0
    ensures Norm2(MulVec(m, v)) == n * Norm2(v)
  {
    var r := MulVec(m, v);
    MulVecEntries(m, v);
    OrthogonalColumns(m.c0.x, m.c0.y, m.c0.z, m.c1.x, m.c1.y, m.c1.z, m.c2.x, m.c2.y, m.c2.z,
                      v.x, v.y, v.z, n, Norm2(v), r.x, r.y, r.z);
  }

  /** Each column of `QuatMatrix(q)` has squared length `|q|^4`. */
  lemma ColumnLengths(q: Quat)
    ensures Dot(QuatMatrix(q).c0, QuatMatrix(q).c0) == QNorm2(q) * QNorm2(q)
    ensures Dot(QuatMatrix(q).c1, QuatMatrix(q).c1) == QNorm2(q) * QNorm2(q)
    ensures Dot(QuatMatrix(q).c2, QuatMatrix(q).c2) == QNorm2(q) * QNorm2(q)
  {
    Column0Length(q);
    Column1Length(q);
    Column2Length(q);
  }

  lemma Column0Length(q: Quat)
    ensures Dot(QuatMatrix(q).c0, QuatMatrix(q).c0) == QNorm2(q) * QNorm2(q)
  {
    var c := QuatMatrix(q).c0;
    QuatMatrixEntries(q);
    ColumnNorm0(q.x, q.y, q.z, q.w, c.x, c.y, c.z, QNorm2(q));
  }

  lemma Column1Length(q: Quat)
    ensures Dot(QuatMatrix(q).c1, QuatMatrix(q).c1) == QNorm2(q) * QNorm2(q)
  {
    var c := QuatMatrix(q).c1;
    QuatMatrixEntries(q);
    ColumnNorm1(q.x, q.y, q.z, q.w, c.x, c.y, c.z, QNorm2(q));
  }

  lemma Column2Length(q: Quat)
    ensures Dot(QuatMatrix(q).c2, QuatMatrix(q).c2) == QNorm2(q) * QNorm2(q)
  {
    var c := QuatMatrix(q).c2;
    QuatMatrixEntries(q);
    ColumnNorm2(q.x, q.y, q.z, q.w, c.x, c.y, c.z, QNorm2(q));
  }

  /** The columns of `QuatMatrix(q)` are pairwise orthogonal. */
  lemma ColumnsOrthogonal(q: Quat)
    ensures Dot(QuatMatrix(q).c0, QuatMatrix(q).c1) == 0.0
    ensures Dot(QuatMatrix(q).c0, QuatMatrix(q).c2) == 0.0
    ensures Dot(QuatMatrix(q).c1, QuatMatrix(q).c2) == 0.0
  {
    Columns01Orthogonal(q);
    Columns02Orthogonal(q);
    Columns12Orthogonal(q);
  }

  lemma Columns01Orthogonal(q: Quat)
    ensures Dot(QuatMatrix(q).c0, QuatMatrix(q).c1) == 0.0
  {
    var a, b := QuatMatrix(q).c0, QuatMatrix(q).c1;
    QuatMatrixEntries(q);
    Columns01(q.x, q.y, q.z, q.w, a.x, a.y, a.z, b.x, b.y, b.z);
  }

  lemma Columns02Orthogonal(q: Quat)
    ensures Dot(QuatMatrix(q).c0, QuatMatrix(q).c2) == 0.0
  {
    var a, c := QuatMatrix(q).c0, QuatMatrix(q).c2;
    QuatMatrixEntries(q);
    Columns02(q.x, q.y, q.z, q.w, a.x, a.y, a.z, c.x, c.y, c.z);
  }

  lemma Columns12Orthogonal(q: Quat)
    ensures Dot(QuatMatrix(q).c1, QuatMatrix(q).c2) == 0.0
  {
    var b, c := QuatMatrix(q).c1, QuatMatrix(q).c2;
    QuatMatrixEntries(q);
    Columns12(q.x, q.y, q.z, q.w, b.x, b.y, b.z, c.x, c.y, c.z);
  }

  lemma QuatMatrixEntries(q: Quat)
    ensures QuatMatrix(q).c0 == Vec3(q.w * q.w + q.x * q.x - q.y * q.y - q.z * q.z,
                                     2.0 * (q.x * q.y - q.z * q.w), 2.0 * (q.x * q.z + q.y * q.w))
    ensures QuatMatrix(q).c1 == Vec3(2.0 * (q.x * q.y + q.z * q.w),
                                     q.w * q.w - q.x * q.x + q.y * q.y - q.z * q.z, 2.0 * (q.y * q.z - q.x * q.w))
    ensures QuatMatrix(q).c2 == Vec3(2.0 * (q.x * q.z - q.y * q.w), 2.0 * (q.y * q.z + q.x * q.w),
                                     q.w * q.w - q.x * q.x - q.y * q.y + q.z * q.z)
  {
  }

  lemma MulVecEntries(m: Mat3, v: Vec3)
    ensures MulVec(m, v) == Vec3(m.c0.x * v.x + m.c1.x * v.y + m.c2.x * v.z,
                                 m.c0.y * v.x + m.c1.y * v.y + m.c2.y * v.z,
                                 m.c0.z * v.x + m.c1.z * v.y + m.c2.z * v.z)
  {
  }

  /** Rotating by the matrix of a unit quaternion preserves squared length. */
  lemma UnitQuatPreservesLength(q: Quat, v: Vec3)
    requires QNorm2(q) == 1.0
    ensures Norm2(MulVec(QuatMatrix(q), v)) == Norm2(v)
  {
    QuatMatrixScalesLength(q, v);
  }

  // Polynomial identities over plain reals. Each takes the entries it talks
  // about as parameters together with their defining equations, so that a
  // caller can pass the selector terms of a datatype value directly.

  lemma RotateNorm(s: real, c: real, x: real, y: real, z: real, n: real, r: real)
    requires s * s + c * c == 1.0
    requires n == x * x + y * y + z * z
    requires r == (s * x) * (s * x) + (s * y) * (s * y) + (s * z) * (s * z) + c * c
    ensures r == 1.0 + s * s * (n - 1.0)
  {
  }

  lemma FourSquare(px: real, py: real, pz: real, pw: real, qx: real, qy: real, qz: real, qw: real,
                   rx: real, ry: real, rz: real, rw: real, np: real, nq: real)
    requires rx == pw * qx + pz * qy + -py * qz + -px * qw
    requires ry == -pz * qx + pw * qy + px * qz + -py * qw
    requires rz == py * qx + -px * qy + pw * qz + -pz * qw
    requires rw == px * qx + py * qy + pz * qz + pw * qw
    requires np == px * px + py * py + pz * pz + pw * pw
    requires nq == qx * qx + qy * qy + qz * qz + qw * qw
    ensures rx * rx + ry * ry + rz * rz + rw * rw == np * nq
  {
  }

  lemma ColumnNorm0(x: real, y: real, z: real, w: real, a: real, b: real, c: real, n: real)
    requires a == w * w + x * x - y * y - z * z && b == 2.0 * (x * y - z * w) && c == 2.0 * (x * z + y * w)
    requires n == x * x + y * y + z * z + w * w
    ensures a * a + b * b + c * c == n * n
  {
  }

  lemma ColumnNorm1(x: real, y: real, z: real, w: real, a: real, b: real, c: real, n: real)
    requires a == 2.0 * (x * y + z * w) && b == w * w - x * x + y * y - z * z && c == 2.0 * (y * z - x * w)
    requires n == x * x + y * y + z * z + w * w
    ensures a * a + b * b + c * c == n * n
  {
  }

  lemma ColumnNorm2(x: real, y: real, z: real, w: real, a: real, b: real, c: real, n: real)
    requires a == 2.0 * (x * z - y * w) && b == 2.0 * (y * z + x * w) && c == w * w - x * x - y * y + z * z
    requires n == x * x + y * y + z * z + w * w
    ensures a * a + b * b + c * c == n * n
  {
  }

  lemma Columns01(x: real, y: real, z: real, w: real, a0: real, a1: real, a2: real, b0: real, b1: real, b2: real)
    requires a0 == w * w + x * x - y * y - z * z && a1 == 2.0 * (x * y - z * w) && a2 == 2.0 * (x * z + y * w)
    requires b0 == 2.0 * (x * y + z * w) && b1 == w * w - x * x + y * y - z * z && b2 == 2.0 * (y * z - x * w)
    ensures a0 * b0 + a1 * b1 + a2 * b2 == 0.0
  {
  }

  lemma Columns02(x: real, y: real, z: real, w: real, a0: real, a1: real, a2: real, c0: real, c1: real, c2: real)
    requires a0 == w * w + x * x - y * y - z * z && a1 == 2.0 * (x * y - z * w) && a2 == 2.0 * (x * z + y * w)
    requires c0 == 2.0 * (x * z - y * w) && c1 == 2.0 * (y * z + x * w) && c2 == w * w - x * x - y * y + z * z
    ensures a0 * c0 + a1 * c1 + a2 * c2 == 0.0
  {
  }

  lemma Columns12(x: real, y: real, z: real, w: real, b0: real, b1: real, b2: real, c0: real, c1: real, c2: real)
    requires b0 == 2.0 * (x * y + z * w) && b1 == w * w - x * x + y * y - z * z && b2 == 2.0 * (y * z - x * w)
    requires c0 == 2.0 * (x * z - y * w) && c1 == 2.0 * (y * z + x * w) && c2 == w * w - x * x - y * y + z * z
    ensures b0 * c0 + b1 * c1 + b2 * c2 == 0.0
  {
  }

  /** A matrix whose columns `a`, `b`, `c` are pairwise orthogonal and all
      of squared length `n` scales every squared length by `n`. */
  lemma OrthogonalColumns(a0: real, a1: real, a2: real, b0: real, b1: real, b2: real,
                          c0: real, c1: real, c2: real, x: real, y: real, z: real,
                          n: real, nv: real, r0: real, r1: real, r2: real)
    requires a0 * a0 + a1 * a1 + a2 * a2 == n && b0 * b0 + b1 * b1 + b2 * b2 == n
    requires c0 * c0 + c1 * c1 + c2 * c2 == n
    requires a0 * b0 + a1 * b1 + a2 * b2 == 0.0 && a0 * c0 + a1 * c1 + a2 * c2 == 0.0
    requires b0 * c0 + b1 * c1 + b2 * c2 == 0.0
    requires r0 == a0 * x + b0 * y + c0 * z && r1 == a1 * x + b1 * y + c1 * z
    requires r2 == a2 * x + b2 * y + c2 * z
    requires nv == x * x + y * y + z * z
    ensures r0 * r0 + r1 * r1 + r2 * r2 == n * nv
  {
    Expand(a0, a1, a2, b0, b1, b2, c0, c1, c2, x, y, z);
    Substitute(x, y, z, a0 * a0 + a1 * a1 + a2 * a2, b0 * b0 + b1 * b1 + b2 * b2, c0 * c0 + c1 * c1 + c2 * c2,
               a0 * b0 + a1 * b1 + a2 * b2, a0 * c0 + a1 * c1 + a2 * c2, b0 * c0 + b1 * c1 + b2 * c2, n);
  }

  /** Bilinear expansion of the squared length of `x*a + y*b + z*c`. */
  lemma Expand(a0: real, a1: real, a2: real, b0: real, b1: real, b2: real,
               c0: real, c1: real, c2: real, x: real, y: real, z: real)
    ensures (a0 * x + b0 * y + c0 * z) * (a0 * x + b0 * y + c0 * z)
          + (a1 * x + b1 * y + c1 * z) * (a1 * x + b1 * y + c1 * z)
          + (a2 * x + b2 * y + c2 * z) * (a2 * x + b2 * y + c2 * z)
       == x * x * (a0 * a0 + a1 * a1 + a2 * a2) + y * y * (b0 * b0 + b1 * b1 + b2 * b2)
        + z * z * (c0 * c0 + c1 * c1 + c2 * c2)
        + 2.0 * x * y * (a0 * b0 + a1 * b1 + a2 * b2) + 2.0 * x * z * (a0 * c0 + a1 * c1 + a2 * c2)
        + 2.0 * y * z * (b0 * c0 + b1 * c1 + b2 * c2)
  {
  }

  lemma Substitute(x: real, y: real, z: real, d00: real, d11: real, d22: real,
                   d01: real, d02: real, d12: real, n: real)
    requires d00 == n && d11 == n && d22 == n && d01 == 0.0 && d02 == 0.0 && d12 == 0.0
    ensures x * x * d00 + y * y * d11 + z * z * d22 + 2.0 * x * y * d01 + 2.0 * x * z * d02
          + 2.0 * y * z * d12 == n * (x * x + y * y + z * z)
  {
  }

  /** The squared norm is multiplicative (Euler's four-square identity), so
      the product of two unit quaternions is a unit quaternion. */
  lemma MultNormMultiplicative(a: Quat, b: Quat)
    ensures QNorm2(MultQuaternion(a, b)) == QNorm2(a) * QNorm2(b)
  {
    var r := MultQuaternion(a, b);
    MultQuaternionEntries(a, b);
    FourSquare(a.x, a.y, a.z, a.w, b.x, b.y, b.z, b.w, r.x, r.y, r.z, r.w, QNorm2(a), QNorm2(b));
  }

  lemma MultQuaternionEntries(a: Quat, b: Quat)
    ensures MultQuaternion(a, b).x == a.w * b.x + a.z * b.y + -a.y * b.z + -a.x * b.w
    ensures MultQuaternion(a, b).y == -a.z * b.x + a.w * b.y + a.x * b.z + -a.y * b.w
    ensures MultQuaternion(a, b).z == a.y * b.x + -a.x * b.y + a.w * b.z + -a.z * b.w
    ensures MultQuaternion(a, b).w == a.x * b.x + a.y * b.y + a.z * b.z + a.w * b.w
  {}
}

=== FILE: resourcecache.dfy ===
/** The shared caches of model.rs: `HashMap::entry(key).or_insert_with(make)`
    followed by `.clone()` of the entry, over a map from string keys. */
module ResourceCache {

  /** Looks `key` up and, on a miss, stores `made` under it. Returns the
      value now stored under `key` and the updated map. */
  function GetOrInsert<V>(cache: map<string, V>, key: string, made: V): (r: (V, map<string, V>))
    ensures key in cache ==> r.0 == cache[key] && r.1 == cache
    ensures key !in cache ==> r.0 == made
    ensures key in r.1 && r.1[key] == r.0
    ensures r.1.Keys == cache.Keys + {key}
    ensures forall k :: k in cache ==> k in r.1 && r.1[k] == cache[k]
  {
    if key in cache then (cache[key], cache) else (made, cache[key := made])
  }

  /** A second lookup of the same key is a hit: it returns what the first
      returned, whatever value it is offered, and changes nothing. */
  lemma GetOrInsertIdempotent<V>(cache: map<string, V>, key: string, made: V, other: V)
    ensures var (v, c) := GetOrInsert(cache, key, made);
      GetOrInsert(c, key, other) == (v, c)
  {
  }

  /** Lookups of different keys do not disturb each other: their order
      does not matter. */
  lemma GetOrInsertCommutes<V>(cache: map<string, V>, k1: string, v1: V, k2: string, v2: V)
    requires k1 != k2
    ensures GetOrInsert(GetOrInsert(cache, k1, v1).1, k2, v2).1
         == GetOrInsert(GetOrInsert(cache, k2, v2).1, k1, v1).1
  {
  }
}

=== FILE: shaderbuild.dfy ===
/** The build script's shader discovery: `ShaderData::load` classifies a
    shader source by its extension, reads it and derives the `.spv` output
    path; `main` collects the loads of every globbed path all-or-nothing
    before compiling anything. The file system is a map from paths to
    file contents. */
module ShaderBuild {
  import opened Wrappers
  import opened Paths

  datatype ShaderKind = Vertex | Fragment | Compute

  datatype ShaderData = ShaderData(src: string, srcPath: Path, spvPath: Path, kind: ShaderKind)

  /** Why `read_to_string` fails: no such file, or contents that are not
      UTF-8. */
  datatype IoError = NotFound | InvalidData

  /** The errors of `ShaderData::load`, in the order they are checked:
      "File has no extension", "Extension cannot be converted to &str",
      "Unsupported shader: <path>", then the read error, passed on bare
      with `?` (it names no path). */
  datatype LoadError =
    | NoExtension
    | ExtensionNotUtf8
    | Unsupported(path: Path)
    | ReadFailed(cause: IoError)

  type FileSystem = map<Path, OsString>

  /** The shader kind an extension names, if any. */
  function KindOf(ext: string): (r: Option<ShaderKind>)
    ensures r.Some? <==> ext in {"vert", "frag", "comp"}
  {
    if ext == "vert" then Some(Vertex)
    else if ext == "frag" then Some(Fragment)
    else if ext == "comp" then Some(Compute)
    else None
  }

  /** The extension a shader of each kind carries. */
  function ExtensionFor(kind: ShaderKind): string {
    match kind
      case Vertex => "vert"
      case Fragment => "frag"
      case Compute => "comp"
  }

  /** `KindOf` and `ExtensionFor` are inverse: each kind has exactly one
      extension. */
  lemma KindOfInvertsExtensionFor(ext: string, kind: ShaderKind)
    ensures KindOf(ext) == Some(kind) <==> ext == ExtensionFor(kind)
  {
  }

  /** `std::fs::read_to_string`. */
  function ReadToString(fs: FileSystem, p: Path): (r: Result<string, IoError>)
    ensures r.Ok? <==> p in fs && ToStr(fs[p]).Some?
    ensures r.Ok? ==> Text(r.value) == fs[p]
    ensures r == Err(NotFound) <==> p !in fs
  {
    if p !in fs then Err(NotFound)
    else match ToStr(fs[p])
      case None => Err(InvalidData)
      case Some(s) => Ok(s)
  }

  /** The extension, when it is text. */
  function ExtensionText(p: Path): Option<string> {
    match Extension(p)
      case None => None
      case Some(raw) => ToStr(raw)
  }

  /** `ShaderData::load`. It succeeds exactly when the extension names a
      shader kind and the file exists and holds UTF-8 text; the result
      carries that text, the kind the extension names and the given path. */
  function LoadShader(srcPath: Path, fs: FileSystem): (r: Result<ShaderData, LoadError>)
    ensures r.Ok? <==>
      ExtensionText(srcPath).Some? && KindOf(ExtensionText(srcPath).value).Some?
      && srcPath in fs && ToStr(fs[srcPath]).Some?
    ensures r.Ok? ==>
      && Text(r.value.src) == fs[srcPath]
      && r.value.srcPath == srcPath
      && ExtensionText(srcPath) == Some(ExtensionFor(r.value.kind))
    ensures r.Err? && r.error.ReadFailed? <==>
      ExtensionText(srcPath).Some? && KindOf(ExtensionText(srcPath).value).Some?
      && ReadToString(fs, srcPath).Err?
    ensures r.Err? && r.error.ReadFailed? ==> ReadToString(fs, srcPath) == Err(r.error.cause)
  {
    match Extension(srcPath)
      case None => Err(NoExtension)
      case Some(rawExt) =>
        match ToStr(rawExt)
          case None => Err(ExtensionNotUtf8)
          case Some(ext) =>
            match KindOf(ext)
              case None => Err(Unsupported(srcPath))
              case Some(kind) =>
                assert ExtensionText(srcPath) == Some(ext);
                match ReadToString(fs, srcPath)
                  case Err(e) => Err(ReadFailed(e))
                  case Ok(src) =>
                    var spvPath := WithExtension(srcPath, Text(ext + ".spv"));
                    Ok(ShaderData(src, srcPath, spvPath, kind))
  }

  /** The extension is judged before the file is read: a path whose
      extension is missing, not text or not a shader kind fails the same
      way whatever the file system holds, and never with a read error. */
  lemma ExtensionCheckedBeforeRead(srcPath: Path, fs1: FileSystem, fs2: FileSystem)
    requires ExtensionText(srcPath).None? || KindOf(ExtensionText(srcPath).value).None?
    ensures LoadShader(srcPath, fs1) == LoadShader(srcPath, fs2)
    ensures LoadShader(srcPath, fs1).Err? && !LoadShader(srcPath, fs1).error.ReadFailed?
  {
  }

  lemma TextAppend(a: string, b: string)
    ensures Text(a + b) == Text(a) + Text(b)
  {
    assert forall k :: 0 <= k < |a + b| ==> Text(a + b)[k] == (Text(a) + Text(b))[k];
  }

  /** The output path is the source path with `.spv` appended to its file
      name, in the same directory; so compiling never overwrites the
      source. */
  lemma SpvPathAppendsSuffix(srcPath: Path, fs: FileSystem)
    requires LoadShader(srcPath, fs).Ok?
    ensures var d := LoadShader(srcPath, fs).value;
      && FileName(d.spvPath) == Some(FileName(srcPath).value + Text(".spv"))
      && d.spvPath[..|d.spvPath| - 1] == srcPath[..|srcPath| - 1]
      && d.spvPath != srcPath
  {
    var d := LoadShader(srcPath, fs).value;
    var raw := Extension(srcPath).value;
    var ext := ToStr(raw).value;
    TextAppend(ext, ".spv");
    AppendToExtension(srcPath, Text(".spv"));
    SuffixChangesName(FileName(srcPath).value, Text(".spv"));
  }

  /** What one globbed entry is: a path, or the error `glob` met while
      walking the directories. */
  datatype GlobEntry = Found(path: Path) | GlobError(at: Path)

  datatype BuildError = Walk(at: Path) | Load(error: LoadError)

  /** The load of one entry, with `glob_result?` first. */
  function LoadEntry(entry: GlobEntry, fs: FileSystem): (r: Result<ShaderData, BuildError>)
    ensures entry.GlobError? ==> r == Err(Walk(entry.at))
    ensures entry.Found? ==> (r.Ok? <==> LoadShader(entry.path, fs).Ok?)
    ensures entry.Found? && r.Ok? ==> r.value == LoadShader(entry.path, fs).value
    ensures entry.Found? && r.Err? ==> r.error == Load(LoadShader(entry.path, fs).error)
  {
    match entry
      case GlobError(at) => Err(Walk(at))
      case Found(p) =>
        match LoadShader(p, fs)
          case Err(e) => Err(Load(e))
          case Ok(d) => Ok(d)
  }

  /** The loads of every entry, in order (the parallel `map`). */
  function LoadAll(entries: seq<GlobEntry>, fs: FileSystem): (r: seq<Result<ShaderData, BuildError>>)
    ensures |r| == |entries| && forall k :: 0 <= k < |entries| ==> r[k] == LoadEntry(entries[k], fs)
  {
    seq(|entries|, k requires 0 <= k < |entries| => LoadEntry(entries[k], fs))
  }

  /** `collect::<Result<Vec<_>>>()`: every value in order when all results
      are `Ok`, otherwise the error of the first result that is not. */
  method CollectResults<T, E>(results: seq<Result<T, E>>) returns (r: Result<seq<T>, E>)
    ensures r.Ok? <==> forall k :: 0 <= k < |results| ==> results[k].Ok?
    ensures r.Ok? ==> (|r.value| == |results|
      && forall k :: 0 <= k < |results| ==> r.value[k] == results[k].value)
    ensures r.Err? ==> exists n ::
      && 0 <= n < |results|
      && (forall k :: 0 <= k < n ==> results[k].Ok?)
      && results[n] == Err(r.error)
  {
    var values: seq<T> := [];
    var i := 0;
    while i < |results|
      invariant 0 <= i <= |results| && |values| == i
      invariant forall k :: 0 <= k < i ==> results[k].Ok?
      invariant forall k :: 0 <= k < i ==> values[k] == results[k].value
    {
      if results[i].Err? {
        return Err(results[i].error);
      }
      values := values + [results[i].value];
      i := i + 1;
    }
    return Ok(values);
  }

  /** The shader list `main` goes on to compile: all of them, or the first
      failure in glob order, in which case nothing is compiled. */
  method CollectShaders(entries: seq<GlobEntry>, fs: FileSystem)
    returns (r: Result<seq<ShaderData>, BuildError>)
    ensures r.Ok? <==> forall k :: 0 <= k < |entries| ==> LoadAll(entries, fs)[k].Ok?
    ensures r.Ok? ==> (|r.value| == |entries|
      && forall k :: 0 <= k < |entries| ==> r.value[k] == LoadAll(entries, fs)[k].value)
    ensures r.Err? ==> exists n ::
      && 0 <= n < |entries|
      && (forall k :: 0 <= k < n ==> LoadAll(entries, fs)[k].Ok?)
      && LoadAll(entries, fs)[n] == Err(r.error)
  {
    r := CollectResults(LoadAll(entries, fs));
  }
}

=== FILE: strings.dfy ===
/** Text helpers that the program gets from Rust's `str` and `format!`:
    decimal formatting of an index, splitting on a separator character, and
    the substring relation. */
module Strings {

  // ------------------------------------------------------------- Decimals

  predicate IsDigit(c: char) {
    '0' <= c <= '9'
  }

  function DigitChar(d: nat): (c: char)
    requires d < 10
    ensures IsDigit(c) && c as int - '0' as int == d
  {
    (('0' as int) + d) as char
  }

  /** `format!("{}", n)` for an unsigned integer: no sign, no leading zero. */
  function Decimal(n: nat): (s: string)
    ensures 1 <= |s|
    ensures forall k :: 0 <= k < |s| ==> IsDigit(s[k])
    decreases n
  {
    if n < 10 then [DigitChar(n)] else Decimal(n / 10) + [DigitChar(n % 10)]
  }

  /** The value of a string of digits, most significant first. */
  function ParseDecimal(s: string): nat
    requires forall k :: 0 <= k < |s| ==> IsDigit(s[k])
    decreases |s|
  {
    if |s| == 0 then 0
    else ParseDecimal(s[..|s| - 1]) * 10 + DigitValue(s[|s| - 1])
  }

  function DigitValue(c: char): (d: nat)
    requires IsDigit(c)
    ensures d < 10 && DigitChar(d) == c
  {
    c as int - '0' as int
  }

  /** Reading back a formatted number gives the number. */
  lemma {:induction false} DecimalRoundTrip(n: nat)
    ensures ParseDecimal(Decimal(n)) == n
    decreases n
  {
    if n >= 10 {
      var s := Decimal(n);
      assert s[..|s| - 1] == Decimal(n / 10);
      DecimalRoundTrip(n / 10);
    }
  }

  /** Different numbers are formatted differently. */
  lemma DecimalInjective(a: nat, b: nat)
    requires Decimal(a) == Decimal(b)
    ensures a == b
  {
    DecimalRoundTrip(a);
    DecimalRoundTrip(b);
  }

  // ------------------------------------------------------ Split and join

  /** The position of the first occurrence of `c` in `s`. */
  function IndexOf(s: string, c: char): (i: nat)
    requires c in s
    ensures i < |s| && s[i] == c && c !in s[..i]
  {
    if s[0] == c then 0
    else
      assert c in s[1..] by { var k :| 0 <= k < |s| && s[k] == c; assert s[1..][k - 1] == c; }
      var j := IndexOf(s[1..], c);
      assert s[..j + 1] == [s[0]] + s[1..][..j];
      j + 1
  }

  /** The pieces put back together with the separator between them. */
  function Join(parts: seq<string>, sep: char): string
    requires 1 <= |parts|
    decreases |parts|
  {
    if |parts| == 1 then parts[0] else parts[0] + [sep] + Join(parts[1..], sep)
  }

  /** `str::split(sep)` for a single character: always at least one piece
      (the empty string gives one empty piece), no piece contains the
      separator, and joining the pieces gives the input back. */
  function Split(s: string, sep: char): (parts: seq<string>)
    ensures 1 <= |parts|
    ensures forall k :: 0 <= k < |parts| ==> sep !in parts[k]
    ensures Join(parts, sep) == s
    decreases |s|
  {
    if sep !in s then [s]
    else
      var i := IndexOf(s, sep);
      var rest := Split(s[i + 1..], sep);
      var parts := [s[..i]] + rest;
      assert parts[1..] == rest;
      assert s == s[..i] + [sep] + s[i + 1..];
      parts
  }

  /** Splitting a join gives the pieces back, so `Split` is the only
      function with the contract above. */
  lemma {:induction false} SplitJoin(parts: seq<string>, sep: char)
    requires 1 <= |parts|
    requires forall k :: 0 <= k < |parts| ==> sep !in parts[k]
    ensures Split(Join(parts, sep), sep) == parts
    decreases |parts|
  {
    var s := Join(parts, sep);
    if |parts| == 1 {
    } else {
      var head := parts[0];
      var tail := Join(parts[1..], sep);
      assert s == head + [sep] + tail;
      assert s[|head|] == sep;
      assert s[..|head|] == head;
      assert sep in s;
      var i := IndexOf(s, sep);
      assert i == |head|;
      assert s[i + 1..] == tail;
      SplitJoin(parts[1..], sep);
      assert Split(s, sep) == [head] + Split(tail, sep);
    }
  }

  // ----------------------------------------------------------- Substrings

  /** `t` occurs in `s` at some position. */
  ghost predicate IsSubstring(t: string, s: string) {
    exists i, j :: 0 <= i <= j <= |s| && s[i..j] == t
  }

  lemma SubstringTransitive(t: string, u: string, s: string)
    requires IsSubstring(t, u) && IsSubstring(u, s)
    ensures IsSubstring(t, s)
  {
    var i, j :| 0 <= i <= j <= |u| && u[i..j] == t;
    var a, b :| 0 <= a <= b <= |s| && s[a..b] == u;
    SliceOfSlice(s, a, b, i, j);
  }

  /** A slice of a slice is a slice of the whole. */
  lemma SliceOfSlice(s: string, a: nat, b: nat, i: nat, j: nat)
    requires a <= b <= |s| && i <= j <= b - a
    ensures s[a..b][i..j] == s[a + i..a + j]
  {
    assert forall k :: 0 <= k < j - i ==> s[a..b][i..j][k] == s[a + i + k];
  }

  /** A character missing from a string is missing from its substrings. */
  lemma SubstringAvoids(t: string, s: string, c: char)
    requires IsSubstring(t, s) && c !in s
    ensures c !in t
  {
    var i, j :| 0 <= i <= j <= |s| && s[i..j] == t;
    assert forall k :: 0 <= k < |t| ==> t[k] == s[i + k];
  }

  /** Every piece of a join occurs in the joined string. */
  lemma {:induction false} PartIsSubstring(parts: seq<string>, sep: char, k: nat)
    requires k < |parts|
    ensures IsSubstring(parts[k], Join(parts, sep))
    decreases |parts|
  {
    var s := Join(parts, sep);
    if |parts| == 1 {
      assert s[0..|s|] == parts[k];
    } else if k == 0 {
      assert s[0..|parts[0]|] == parts[0];
    } else {
      var tail := Join(parts[1..], sep);
      PartIsSubstring(parts[1..], sep, k - 1);
      var off := |parts[0]| + 1;
      assert s[off..] == tail;
      assert IsSubstring(tail, s) by { assert s[off..|s|] == tail; }
      SubstringTransitive(parts[k], tail, s);
    }
  }

  lemma SuffixIsSubstring(s: string, n: nat)
    requires n <= |s|
    ensures IsSubstring(s[n..], s)
  {
    assert s[n..|s|] == s[n..];
  }
}

=== FILE: textures.dfy ===
/** Texture construction with the GPU calls replaced by the descriptors
    they receive: format, extent, upload layout, sampler, the `id` and
    `tex_coord` numbers, and the bytes uploaded. Image decoding and file
    reading are parameters. */
module Textures {
  import opened Wrappers
  import opened Ints
  import opened Failures
  import opened Paths

  datatype TextureFormat = Rgba8Unorm | Rgba8UnormSrgb | Depth32Float

  datatype TextureUsage = TextureBinding | CopyDst | RenderAttachment

  datatype Extent3d = Extent3d(width: U32, height: U32, depthOrArrayLayers: U32)

  datatype TextureDescriptor = TextureDescriptor(
    size: Extent3d,
    mipLevelCount: nat,
    sampleCount: nat,
    format: TextureFormat,
    usage: set<TextureUsage>)

  /** `ImageDataLayout`: the row pitch and row count, each optional. */
  datatype DataLayout = DataLayout(offset: nat, bytesPerRow: Option<U32>, rowsPerImage: Option<U32>)

  datatype FilterMode = Linear | Nearest

  datatype CompareFunction = LessEqual

  /** The level-of-detail clamp: wgpu's default, or an explicit range. */
  datatype LodClamp = DefaultLod | Clamp(min: real, max: real)

  /** A sampler descriptor. Every sampler of the program clamps to the
      edge on all three axes, so the address mode is not recorded. */
  datatype SamplerDescriptor = SamplerDescriptor(
    magFilter: FilterMode,
    minFilter: FilterMode,
    mipmapFilter: FilterMode,
    compare: Option<CompareFunction>,
    lod: LodClamp)

  /** A texture: what was created, what was uploaded and how, and the
      numbers the material code reads back. Depth textures upload
      nothing. */
  datatype Texture = Texture(
    descriptor: TextureDescriptor,
    upload: Option<(seq<U8>, DataLayout)>,
    sampler: SamplerDescriptor,
    id: U32,
    texCoord: U32)

  /** A decoded image, already converted to RGBA8. */
  datatype Image = Image(width: U32, height: U32, rgba: seq<U8>)

  /** The format a colour texture is created with. */
  function ColorFormat(isNormalMap: bool): (f: TextureFormat)
    ensures f == Rgba8Unorm <==> isNormalMap
    ensures f != Depth32Float
  {
    if isNormalMap then Rgba8Unorm else Rgba8UnormSrgb
  }

  /** The sampler of `one_pixel` and `from_image`: linear magnification,
      nearest minification and mipmapping. */
  const ImageSampler := SamplerDescriptor(Linear, Nearest, Nearest, None, DefaultLod)

  function ColorDescriptor(width: U32, height: U32, format: TextureFormat): TextureDescriptor {
    TextureDescriptor(Extent3d(width, height, 1), 1, 1, format, {TextureBinding, CopyDst})
  }

  /** `Texture::one_pixel`: a 1×1 texture holding the given bytes, one row
      of four bytes. */
  function OnePixel(bytes: seq<U8>, isNormalMap: bool): (t: Texture)
    ensures t.descriptor.size == Extent3d(1, 1, 1)
    ensures t.descriptor.format == ColorFormat(isNormalMap)
    ensures t.upload == Some((bytes, DataLayout(0, Some(4), Some(1))))
    ensures t.id == 0 && t.texCoord == 0
  {
    Texture(ColorDescriptor(1, 1, ColorFormat(isNormalMap)),
      Some((bytes, DataLayout(0, Some(4), Some(1)))), ImageSampler, 0, 0)
  }

  /** `4 * width` in `u32`, with debug-build arithmetic: an overflow
      panics. (A release build would wrap instead.) */
  function RowPitch(width: U32): (r: Result<U32, Failure>)
    ensures r.Ok? <==> 4 * width < U32_LIMIT
    ensures r.Ok? ==> r.value == 4 * width
  {
    if 4 * width < U32_LIMIT then Ok(4 * width) else Err(Panic("attempt to multiply with overflow"))
  }

  /** `Texture::from_image`. It panics when the image is empty in either
      direction (`NonZeroU32::new(..).unwrap()`) or too wide for the row
      pitch to fit in `u32`; otherwise the texture has the image's
      extent, a row pitch of four bytes per pixel and one row per pixel
      row. It never returns an error. */
  function FromImage(img: Image, isNormalMap: bool): (r: Result<Texture, Failure>)
    ensures r.Ok? <==> 0 < img.width && 0 < img.height && 4 * img.width < U32_LIMIT
    ensures r.Err? ==> r.error.Panic?
    ensures r.Ok? ==>
      && r.value.descriptor.size == Extent3d(img.width, img.height, 1)
      && r.value.descriptor.format == ColorFormat(isNormalMap)
      && r.value.upload == Some((img.rgba, DataLayout(0, Some(4 * img.width), Some(img.height))))
      && r.value.id == 0 && r.value.texCoord == 0
  {
    var pitch :- RowPitch(img.width);
    if pitch == 0 then Err(Panic("called `Option::unwrap()` on a `None` value"))
    else if img.height == 0 then Err(Panic("called `Option::unwrap()` on a `None` value"))
    else
      Ok(Texture(ColorDescriptor(img.width, img.height, ColorFormat(isNormalMap)),
        Some((img.rgba, DataLayout(0, Some(pitch), Some(img.height)))), ImageSampler, 0, 0))
  }

  /** A one-pixel texture is exactly the texture of a 1×1 image holding
      the same bytes. */
  lemma OnePixelIsSmallestImage(bytes: seq<U8>, isNormalMap: bool)
    ensures FromImage(Image(1, 1, bytes), isNormalMap) == Ok(OnePixel(bytes, isNormalMap))
  {
  }

  /** An image-backed texture never shares the depth texture's format. */
  lemma ColorTexturesAreNotDepth(img: Image, isNormalMap: bool)
    requires FromImage(img, isNormalMap).Ok?
    ensures FromImage(img, isNormalMap).value.descriptor.format != DepthFormat
  {
  }

  const DepthFormat: TextureFormat := Depth32Float

  /** The fields of the surface configuration the depth texture reads. */
  datatype SurfaceConfiguration = SurfaceConfiguration(width: U32, height: U32)

  /** `Texture::create_depth_texture`: a depth texture exactly the size of
      the surface, usable as a render attachment and for sampling, with a
      comparison sampler and the reserved id 1000000. */
  function CreateDepthTexture(config: SurfaceConfiguration): (t: Texture)
    ensures t.descriptor.size == Extent3d(config.width, config.height, 1)
    ensures t.descriptor.format == DepthFormat
    ensures RenderAttachment in t.descriptor.usage && TextureBinding in t.descriptor.usage
    ensures t.upload.None?
    ensures t.sampler.compare == Some(LessEqual)
    ensures t.id == 1000000
  {
    Texture(
      TextureDescriptor(Extent3d(config.width, config.height, 1), 1, 1, DepthFormat,
        {RenderAttachment, TextureBinding}),
      None,
      SamplerDescriptor(Linear, Linear, Nearest, Some(LessEqual), Clamp(-100.0, 100.0)),
      1000000, 0)
  }

  /** The depth texture follows the surface: two configurations give the
      same depth extent only when they have the same size. */
  lemma DepthTextureTracksSurface(a: SurfaceConfiguration, b: SurfaceConfiguration)
    ensures CreateDepthTexture(a).descriptor.size == CreateDepthTexture(b).descriptor.size <==> a == b
  {
  }

  /** `Texture::load`: `image::open(path)?` then `from_image`. The images
      that open successfully are a map from path to decoded image. */
  function Load(path: Path, isNormalMap: bool, images: map<Path, Image>): (r: Result<Texture, Failure>)
    ensures path !in images ==> r.Err? && r.error.Error?
    ensures path in images ==> r == FromImage(images[path], isNormalMap)
  {
    if path !in images then Err(Error("image::open failed"))
    else FromImage(images[path], isNormalMap)
  }

  // ------------------------------------------------------------ load_house

  /** The three images embedded in the binary for the Rungholt house. */
  datatype HouseImage = HouseAlpha | HouseRgb | HouseRgba

  function HouseImageName(h: HouseImage): string {
    match h
      case HouseAlpha => "house-Alpha.png"
      case HouseRgb => "house-RGB.png"
      case HouseRgba => "house-RGBA.png"
  }

  /** The file name of a path as text, when it has one. */
  function TextFileName(path: Path): Option<string> {
    match FileName(path)
      case None => None
      case Some(raw) => ToStr(raw)
  }

  /** `Texture::load_house`. The file name must exist, be text and be one
      of the three embedded image names; anything else panics, whatever
      the directory. The embedded bytes are decoded by `decode`. */
  function LoadHouse(path: Path, isNormalMap: bool, decode: HouseImage -> Option<Image>)
    : (r: Result<Texture, Failure>)
    ensures (forall h :: TextFileName(path) != Some(HouseImageName(h))) ==> r.Err? && r.error.Panic?
    ensures r.Err? && r.error.Error? ==>
      exists h :: TextFileName(path) == Some(HouseImageName(h)) && decode(h).None?
    ensures r.Ok? ==> exists h ::
      && TextFileName(path) == Some(HouseImageName(h))
      && decode(h).Some? && r == FromImage(decode(h).value, isNormalMap)
  {
    match TextFileName(path)
      case None => Err(Panic("called `Option::unwrap()` on a `None` value"))
      case Some(name) =>
        var h :-
          if name == "house-Alpha.png" then Ok(HouseAlpha)
          else if name == "house-RGB.png" then Ok(HouseRgb)
          else if name == "house-RGBA.png" then Ok(HouseRgba)
          else Err(Panic("internal error: entered unreachable code"));
        assert HouseImageName(h) == name;
        match decode(h)
          case None => Err(Error("image decoding failed"))
          case Some(img) => FromImage(img, isNormalMap)
  }

  // ------------------------------------------------------------- load_gltf

  datatype ImageFormat = Jpeg | Png

  /** The MIME dispatch of `load_gltf` as written: the JPEG entry is
      spelled `image/jpeq`, so the registered `image/jpeg` type falls into
      the panicking default. */
  function MimeFormatAsWritten(mime: string): Option<ImageFormat> {
    if mime == "image/jpeq" then Some(Jpeg)
    else if mime == "image/png" then Some(Png)
    else None
  }

  lemma JpegMimePanicsAsWritten()
    ensures MimeFormatAsWritten("image/jpeg") == None
    ensures MimeFormatAsWritten("image/jpeq") == Some(Jpeg)
  {
  }

  /** The registered MIME type of each image format. */
  function MimeType(f: ImageFormat): string {
    match f
      case Jpeg => "image/jpeg"
      case Png => "image/png"
  }

  /** The MIME dispatch as intended: each format's registered type selects
      that format and every other type is rejected. */
  function MimeFormat(mime: string): (r: Option<ImageFormat>)
    ensures r.Some? ==> MimeType(r.value) == mime
  {
    if mime == "image/jpeg" then Some(Jpeg)
    else if mime == "image/png" then Some(Png)
    else None
  }

  lemma MimeFormatRoundTrip(f: ImageFormat)
    ensures MimeFormat(MimeType(f)) == Some(f)
  {
  }

  /** The two dispatches disagree on the two JPEG spellings only. */
  lemma MimeFormatFixesOnlyJpeg(mime: string)
    ensures MimeFormat(mime) != MimeFormatAsWritten(mime) <==> mime in {"image/jpeg", "image/jpeq"}
  {
  }

  datatype GltfMagFilter = MagLinear | MagNearest

  datatype GltfMinFilter =
    | MinLinear
    | MinNearest
    | NearestMipmapNearest
    | LinearMipmapNearest
    | NearestMipmapLinear
    | LinearMipmapLinear

  function MagFilter(f: GltfMagFilter): FilterMode {
    match f
      case MagLinear => Linear
      case MagNearest => Nearest
  }

  /** The plain minification filters map one to one; every mipmapped one
      becomes `Nearest`. */
  function MinFilter(f: GltfMinFilter): (m: FilterMode)
    ensures m == Linear <==> f == MinLinear
  {
    match f
      case MinLinear => Linear
      case MinNearest => Nearest
      case _ => Nearest
  }

  lemma MagFilterInjective(a: GltfMagFilter, b: GltfMagFilter)
    ensures MagFilter(a) == MagFilter(b) <==> a == b
  {
  }

  /** Where a glTF image comes from: a slice of a loaded buffer with a
      MIME type, or a file under the build's `res` directory. */
  datatype ImageSource =
    | View(buffer: nat, offset: nat, length: nat, mimeType: string)
    | Uri(uri: string)

  datatype GltfSampler = GltfSampler(mag: Option<GltfMagFilter>, min: Option<GltfMinFilter>)

  /** The parts of a glTF `texture::Info` that `load_gltf` reads. */
  datatype TextureInfo = TextureInfo(
    index: nat,
    source: ImageSource,
    sampler: GltfSampler,
    texCoord: U32)

  /** Which MIME dispatch a loader uses: the table as written, or the one
      the JPEG entry was evidently meant to be. */
  datatype MimeTable = AsWrittenTable | IntendedTable

  function FormatFor(table: MimeTable, mime: string): Option<ImageFormat> {
    match table
      case AsWrittenTable => MimeFormatAsWritten(mime)
      case IntendedTable => MimeFormat(mime)
  }

  /** A buffer view lies inside the buffers that were loaded. */
  predicate ViewInRange(source: ImageSource, buffers: seq<seq<U8>>)
    requires source.View?
  {
    source.buffer < |buffers| && source.offset + source.length <= |buffers[source.buffer]|
  }

  /** The bytes a buffer view covers. */
  function ViewBytes(source: ImageSource, buffers: seq<seq<U8>>): seq<U8>
    requires source.View? && ViewInRange(source, buffers)
  {
    buffers[source.buffer][source.offset..source.offset + source.length]
  }

  /** The image a source names, or the panic on the way to it: an
      out-of-range buffer or slice, a MIME type the table does not know
      (`panic!("mimetype")`), or a decode or open failure (`img.unwrap()`).
      A file under `res` is opened whatever its MIME type. */
  function SourceImage(
    table: MimeTable,
    source: ImageSource,
    buffers: seq<seq<U8>>,
    decode: (seq<U8>, ImageFormat) -> Option<Image>,
    resImages: map<string, Image>)
    : (r: Result<Image, Failure>)
    ensures r.Err? ==> r.error.Panic?
    ensures source.Uri? ==> (r.Ok? <==> source.uri in resImages)
    ensures source.Uri? && r.Ok? ==> r.value == resImages[source.uri]
    ensures source.View? ==> (r.Ok? <==>
      && ViewInRange(source, buffers)
      && FormatFor(table, source.mimeType).Some?
      && decode(ViewBytes(source, buffers), FormatFor(table, source.mimeType).value).Some?)
    ensures source.View? && r.Ok? ==>
      r.value == decode(ViewBytes(source, buffers), FormatFor(table, source.mimeType).value).value
    ensures source.View? && ViewInRange(source, buffers) && FormatFor(table, source.mimeType).None? ==>
      r == Err(Panic("mimetype"))
  {
    match source
      case View(b, offset, length, mime) =>
        if b >= |buffers| then Err(Panic("index out of bounds"))
        else if offset + length > |buffers[b]| then Err(Panic("range end index out of range"))
        else
          (match FormatFor(table, mime)
            case None => Err(Panic("mimetype"))
            case Some(format) =>
              match decode(buffers[b][offset..offset + length], format)
                case None => Err(Panic("called `Result::unwrap()` on an `Err` value"))
                case Some(img) => Ok(img))
      case Uri(uri) =>
        if uri !in resImages then Err(Panic("called `Result::unwrap()` on an `Err` value"))
        else Ok(resImages[uri])
  }

  /** `NonZeroU32::new`: absent for zero. */
  function NonZero(n: U32): (r: Option<U32>)
    ensures r.None? <==> n == 0
    ensures r.Some? ==> r.value == n
  {
    if n == 0 then None else Some(n)
  }

  /** `t` is the texture `load_gltf` builds from `img` for `info`: sRGB with
      the image's extent, the image's pixels uploaded with whatever row
      pitch and row count are non-zero, the glTF texture index (truncated
      to `u32`) as id, the info's `tex_coord`, and the filters the glTF
      sampler names. */
  predicate GltfBuilt(info: TextureInfo, img: Image, t: Texture)
    requires info.sampler.mag.Some? && info.sampler.min.Some? && 4 * img.width < U32_LIMIT
  {
    && t.descriptor.size == Extent3d(img.width, img.height, 1)
    && t.descriptor.format == Rgba8UnormSrgb
    && t.upload == Some((img.rgba, DataLayout(0, NonZero(4 * img.width), NonZero(img.height))))
    && t.id == info.index % U32_LIMIT
    && t.texCoord == info.texCoord
    && t.sampler.magFilter == MagFilter(info.sampler.mag.value)
    && t.sampler.minFilter == MinFilter(info.sampler.min.value)
  }

  /** What `load_gltf` does once it has the image. */
  function GltfTexture(info: TextureInfo, img: Image): Result<Texture, Failure> {
    var pitch :- RowPitch(img.width);
    match info.sampler.mag
      case None => Err(Panic("called `Option::unwrap()` on a `None` value"))
      case Some(mag) =>
        match info.sampler.min
          case None => Err(Panic("called `Option::unwrap()` on a `None` value"))
          case Some(min) =>
            Ok(Texture(
              ColorDescriptor(img.width, img.height, Rgba8UnormSrgb),
              Some((img.rgba, DataLayout(0, NonZero(pitch), NonZero(img.height)))),
              SamplerDescriptor(MagFilter(mag), MinFilter(min), Nearest, None, DefaultLod),
              info.index % U32_LIMIT,
              info.texCoord))
  }

  /** `Texture::load_gltf`, with the MIME dispatch as written. It never
      returns an error, only panics. It builds a texture exactly when the
      image is obtained, its row pitch fits in `u32` and the sampler names
      both filters, and the texture is then `GltfBuilt` from that image.
      Unlike `from_image`, an empty image gives an absent row pitch or row
      count, not a panic. */
  function LoadGltf(
    info: TextureInfo,
    buffers: seq<seq<U8>>,
    decode: (seq<U8>, ImageFormat) -> Option<Image>,
    resImages: map<string, Image>)
    : (r: Result<Texture, Failure>)
    ensures r.Err? ==> r.error.Panic?
    ensures r.Ok? <==>
      var src := SourceImage(AsWrittenTable, info.source, buffers, decode, resImages);
      && src.Ok? && 4 * src.value.width < U32_LIMIT
      && info.sampler.mag.Some? && info.sampler.min.Some?
    ensures r.Ok? ==>
      GltfBuilt(info, SourceImage(AsWrittenTable, info.source, buffers, decode, resImages).value, r.value)
  {
    var img :- SourceImage(AsWrittenTable, info.source, buffers, decode, resImages);
    GltfTexture(info, img)
  }

  /** `Texture::load_gltf` with the JPEG entry spelled `image/jpeg`: the same
      loader, with the intended MIME table. */
  function LoadGltfIntended(
    info: TextureInfo,
    buffers: seq<seq<U8>>,
    decode: (seq<U8>, ImageFormat) -> Option<Image>,
    resImages: map<string, Image>)
    : (r: Result<Texture, Failure>)
    ensures r.Err? ==> r.error.Panic?
    ensures r.Ok? <==>
      var src := SourceImage(IntendedTable, info.source, buffers, decode, resImages);
      && src.Ok? && 4 * src.value.width < U32_LIMIT
      && info.sampler.mag.Some? && info.sampler.min.Some?
    ensures r.Ok? ==>
      GltfBuilt(info, SourceImage(IntendedTable, info.source, buffers, decode, resImages).value, r.value)
  {
    var img :- SourceImage(IntendedTable, info.source, buffers, decode, resImages);
    GltfTexture(info, img)
  }

  /** As written, an in-range buffer view registered as `image/jpeg` panics
      with "mimetype", whatever its bytes and sampler. */
  lemma GltfJpegViewPanics(info: TextureInfo, buffers: seq<seq<U8>>,
    decode: (seq<U8>, ImageFormat) -> Option<Image>, resImages: map<string, Image>)
    requires info.source.View? && ViewInRange(info.source, buffers)
    requires info.source.mimeType == "image/jpeg"
    ensures LoadGltf(info, buffers, decode, resImages) == Err(Panic("mimetype"))
  {
  }

  /** With the intended table, a buffer view registered as any format's
      MIME type is decoded as that format: when the bytes decode, the
      pitch fits and the sampler names both filters, the texture is built
      from exactly that image. */
  lemma IntendedGltfDecodesRegisteredTypes(info: TextureInfo, buffers: seq<seq<U8>>,
    decode: (seq<U8>, ImageFormat) -> Option<Image>, resImages: map<string, Image>, f: ImageFormat)
    requires info.source.View? && ViewInRange(info.source, buffers)
    requires info.source.mimeType == MimeType(f)
    requires decode(ViewBytes(info.source, buffers), f).Some?
    requires 4 * decode(ViewBytes(info.source, buffers), f).value.width < U32_LIMIT
    requires info.sampler.mag.Some? && info.sampler.min.Some?
    ensures LoadGltfIntended(info, buffers, decode, resImages).Ok?
    ensures GltfBuilt(info, decode(ViewBytes(info.source, buffers), f).value,
                      LoadGltfIntended(info, buffers, decode, resImages).value)
  {
    MimeFormatRoundTrip(f);
  }

  /** The loader as written and the intended one agree on every source
      except a buffer view spelled with one of the two JPEG types. */
  lemma GltfLoadersAgreeOffJpeg(info: TextureInfo, buffers: seq<seq<U8>>,
    decode: (seq<U8>, ImageFormat) -> Option<Image>, resImages: map<string, Image>)
    requires info.source.Uri? || info.source.mimeType !in {"image/jpeg", "image/jpeq"}
    ensures LoadGltf(info, buffers, decode, resImages) == LoadGltfIntended(info, buffers, decode, resImages)
  {
    if info.source.View? {
      MimeFormatFixesOnlyJpeg(info.source.mimeType);
    }
  }

  /** A glTF texture of an empty image is still built (the row layout is
      merely left unset), where `from_image` panics on the same image. */
  lemma GltfAcceptsWhatFromImageRejects(info: TextureInfo, buffers: seq<seq<U8>>,
    decode: (seq<U8>, ImageFormat) -> Option<Image>, resImages: map<string, Image>)
    requires SourceImage(AsWrittenTable, info.source, buffers, decode, resImages).Ok?
    requires SourceImage(AsWrittenTable, info.source, buffers, decode, resImages).value.width == 0
    requires info.sampler.mag.Some? && info.sampler.min.Some?
    ensures LoadGltf(info, buffers, decode, resImages).Ok?
    ensures LoadGltf(info, buffers, decode, resImages).value.upload.value.1.bytesPerRow.None?
    ensures FromImage(SourceImage(AsWrittenTable, info.source, buffers, decode, resImages).value, false).Err?
  {
  }
}

=== FILE: urlquery.dfy ===
/** `parse_url_query_string` of the web entry point: find the value of one
    key in a `?key=value&key=value` query string. */
module UrlQuery {
  import opened Wrappers
  import opened Strings

  /** `str::strip_prefix` with a single character. */
  function StripPrefix(s: string, c: char): (r: Option<string>)
    ensures r.Some? <==> 1 <= |s| && s[0] == c
    ensures r.Some? ==> [c] + r.value == s
  {
    if 1 <= |s| && s[0] == c then Some(s[1..]) else None
  }

  /** What one `&`-separated piece says about the searched key. */
  datatype PairOutcome =
    | Malformed          // no `=`: the second `next()?` returns `None`
    | NoMatch            // a different key
    | Match(value: string)

  function ExaminePair(pair: string, searchKey: string): PairOutcome {
    var pieces := Split(pair, '=');
    if |pieces| < 2 then Malformed
    else if pieces[0] == searchKey then Match(pieces[1])
    else NoMatch
  }

  /** The loop over the pairs: the first malformed pair ends the search
      with `None`, the first matching pair ends it with its value. */
  function ScanPairs(pairs: seq<string>, searchKey: string): Option<string>
    decreases |pairs|
  {
    if |pairs| == 0 then None
    else match ExaminePair(pairs[0], searchKey)
      case Malformed => None
      case Match(v) => Some(v)
      case NoMatch => ScanPairs(pairs[1..], searchKey)
  }

  function ParseUrlQueryString(query: string, searchKey: string): (r: Option<string>)
    ensures (|query| == 0 || query[0] != '?') ==> r == None
  {
    var queryString :- StripPrefix(query, '?');
    ScanPairs(Split(queryString, '&'), searchKey)
  }

  // ------------------------------------------- Reference reading of a pair

  /** The key of a pair: everything before its first `=`. */
  function KeyOf(pair: string): string
    requires '=' in pair
  {
    pair[..IndexOf(pair, '=')]
  }

  /** The value of a pair: everything after its first `=` up to the second
      `=`, if there is one; text after a second `=` is dropped. */
  function ValueOf(pair: string): string
    requires '=' in pair
  {
    var rest := pair[IndexOf(pair, '=') + 1..];
    if '=' in rest then rest[..IndexOf(rest, '=')] else rest
  }

  lemma ExaminePairReads(pair: string, searchKey: string)
    ensures ExaminePair(pair, searchKey) ==
      if '=' !in pair then Malformed
      else if KeyOf(pair) == searchKey then Match(ValueOf(pair))
      else NoMatch
  {
    if '=' in pair {
      var i := IndexOf(pair, '=');
      var rest := pair[i + 1..];
      assert Split(pair, '=') == [pair[..i]] + Split(rest, '=');
      if '=' in rest {
        assert Split(rest, '=')[0] == rest[..IndexOf(rest, '=')];
      }
    }
  }

  /** The search ends successfully at pair `n`: every earlier pair is well
      formed and names another key, pair `n` is well formed and names the
      searched key. */
  ghost predicate FoundAt(pairs: seq<string>, searchKey: string, n: int) {
    && 0 <= n < |pairs|
    && (forall m :: 0 <= m < n ==> '=' in pairs[m] && KeyOf(pairs[m]) != searchKey)
    && '=' in pairs[n] && KeyOf(pairs[n]) == searchKey
  }

  /** A first match is where the loop stops, with that pair's value. */
  lemma {:induction false} ScanStopsAtFirstMatch(pairs: seq<string>, searchKey: string, n: int)
    requires FoundAt(pairs, searchKey, n)
    ensures ScanPairs(pairs, searchKey) == Some(ValueOf(pairs[n]))
    decreases n
  {
    ExaminePairReads(pairs[0], searchKey);
    if n > 0 {
      assert FoundAt(pairs[1..], searchKey, n - 1);
      ScanStopsAtFirstMatch(pairs[1..], searchKey, n - 1);
    }
  }

  /** Where the loop stops with a value is a first match. */
  lemma {:induction false} ScanStopsOnlyAtFirstMatch(pairs: seq<string>, searchKey: string)
    requires ScanPairs(pairs, searchKey).Some?
    ensures FoundAt(pairs, searchKey, ScanIndex(pairs, searchKey))
    decreases |pairs|
  {
    ExaminePairReads(pairs[0], searchKey);
    if !ExaminePair(pairs[0], searchKey).Match? {
      var tail := pairs[1..];
      ScanStopsOnlyAtFirstMatch(tail, searchKey);
      var n := ScanIndex(tail, searchKey);
      assert ScanIndex(pairs, searchKey) == n + 1;
      assert pairs[n + 1] == tail[n];
      forall m | 0 <= m < n + 1
        ensures '=' in pairs[m] && KeyOf(pairs[m]) != searchKey
      {
        if m > 0 {
          assert pairs[m] == tail[m - 1];
        }
      }
    }
  }

  /** The loop finds a value exactly when some pair is the first match
      with no malformed pair before it, and the value is that pair's. */
  lemma ScanPairsFindsFirst(pairs: seq<string>, searchKey: string)
    ensures ScanPairs(pairs, searchKey).Some? <==> exists n :: FoundAt(pairs, searchKey, n)
    ensures forall n :: FoundAt(pairs, searchKey, n) ==>
      ScanPairs(pairs, searchKey) == Some(ValueOf(pairs[n]))
  {
    forall n | FoundAt(pairs, searchKey, n)
      ensures ScanPairs(pairs, searchKey) == Some(ValueOf(pairs[n]))
    {
      ScanStopsAtFirstMatch(pairs, searchKey, n);
    }
    if ScanPairs(pairs, searchKey).Some? {
      ScanStopsOnlyAtFirstMatch(pairs, searchKey);
    }
  }

  /** The query starts with `?` and pair `n` of the rest is the first
      match. */
  ghost predicate FoundInQuery(query: string, searchKey: string, n: int) {
    1 <= |query| && query[0] == '?' && FoundAt(Split(query[1..], '&'), searchKey, n)
  }

  /** Whole-query reading: a value is returned exactly when the query
      starts with `?` and some pair of the rest is the first match. */
  lemma ParseFindsFirst(query: string, searchKey: string)
    ensures ParseUrlQueryString(query, searchKey).Some? <==> exists n :: FoundInQuery(query, searchKey, n)
    ensures forall n :: FoundInQuery(query, searchKey, n) ==>
      ParseUrlQueryString(query, searchKey) == Some(ValueOf(Split(query[1..], '&')[n]))
  {
    if 1 <= |query| && query[0] == '?' {
      var pairs := Split(query[1..], '&');
      assert StripPrefix(query, '?') == Some(query[1..]);
      assert ParseUrlQueryString(query, searchKey) == ScanPairs(pairs, searchKey);
      ScanPairsFindsFirst(pairs, searchKey);
      if ParseUrlQueryString(query, searchKey).Some? {
        var n :| FoundAt(pairs, searchKey, n);
        assert FoundInQuery(query, searchKey, n);
      }
    }
  }

  /** The value found is a piece of the query itself, with neither `&` nor
      `=` in it (the source returns a borrowed slice of its input). */
  lemma {:induction false} ValueIsSliceOfQuery(query: string, searchKey: string)
    requires ParseUrlQueryString(query, searchKey).Some?
    ensures var v := ParseUrlQueryString(query, searchKey).value;
      IsSubstring(v, query) && '&' !in v && '=' !in v
  {
    var qs := query[1..];
    var pairs := Split(qs, '&');
    var n := ScanIndex(pairs, searchKey);
    var pair := pairs[n];
    var pieces := Split(pair, '=');
    ExaminePairReads(pair, searchKey);
    var v := pieces[1];
    assert ParseUrlQueryString(query, searchKey) == Some(v);
    PartIsSubstring(pieces, '=', 1);
    PartIsSubstring(pairs, '&', n);
    SuffixIsSubstring(query, 1);
    SubstringTransitive(v, pair, qs);
    SubstringTransitive(v, qs, query);
    SubstringAvoids(v, pair, '&');
  }

  /** The index of the pair where the loop stops with a value. */
  function ScanIndex(pairs: seq<string>, searchKey: string): (n: nat)
    requires ScanPairs(pairs, searchKey).Some?
    ensures n < |pairs|
    ensures ExaminePair(pairs[n], searchKey) == Match(ScanPairs(pairs, searchKey).value)
    decreases |pairs|
  {
    if ExaminePair(pairs[0], searchKey).Match? then 0
    else ScanIndex(pairs[1..], searchKey) + 1
  }

  /** Splitting text whose first separator follows `a`. */
  lemma SplitFirst(a: string, sep: char, b: string)
    requires sep !in a
    ensures Split(a + [sep] + b, sep) == [a] + Split(b, sep)
  {
    var s := a + [sep] + b;
    assert s[|a|] == sep;
    assert s[..|a|] == a;
    var i := IndexOf(s, sep);
    assert i == |a|;
    assert s[i + 1..] == b;
  }

  /** A pair without `=` ends the search, whatever the later pairs hold
      (even the searched key). */
  lemma MalformedPairStopsSearch(first: string, rest: string, searchKey: string)
    requires '=' !in first && '&' !in first
    ensures ParseUrlQueryString("?" + first + "&" + rest, searchKey) == None
  {
    var query := "?" + first + "&" + rest;
    assert query[1..] == first + ['&'] + rest;
    SplitFirst(first, '&', rest);
    assert Split(first, '=') == [first];
  }

  /** A query whose first pair is `key=value` gives `value` for `key`,
      whatever follows it. */
  lemma FirstPairFound(key: string, value: string, rest: string)
    requires '=' !in key && '&' !in key && '=' !in value && '&' !in value
    ensures ParseUrlQueryString("?" + key + "=" + value + "&" + rest, key) == Some(value)
  {
    var query := "?" + key + "=" + value + "&" + rest;
    var pair := key + ['='] + value;
    assert '&' !in pair;
    assert query[1..] == pair + ['&'] + rest;
    SplitFirst(pair, '&', rest);
    SplitFirst(key, '=', value);
    assert Split(value, '=') == [value];
  }
}

=== FILE: vectors.dfy ===
/** Real-valued stand-ins for cgmath's `Vector2/3/4`, `Point3` and
    `Matrix3<f32>`, plus the square root the camera needs. Matrices are stored
    by column, exactly as cgmath stores them. */
module Vectors {
  import opened Wrappers

  datatype Vec2 = Vec2(x: real, y: real)
  datatype Vec3 = Vec3(x: real, y: real, z: real)
  datatype Quat = Quat(x: real, y: real, z: real, w: real)
  /** A 3x3 matrix given by its three columns (cgmath's layout). */
  datatype Mat3 = Mat3(c0: Vec3, c1: Vec3, c2: Vec3)

  const Zero := Vec3(0.0, 0.0, 0.0)
  const UnitY := Vec3(0.0, 1.0, 0.0)
  const Identity3 := Mat3(Vec3(1.0, 0.0, 0.0), Vec3(0.0, 1.0, 0.0), Vec3(0.0, 0.0, 1.0))

  function Add(a: Vec3, b: Vec3): Vec3 {
    Vec3(a.x + b.x, a.y + b.y, a.z + b.z)
  }

  function Sub(a: Vec3, b: Vec3): Vec3 {
    Vec3(a.x - b.x, a.y - b.y, a.z - b.z)
  }

  function Scale(a: Vec3, k: real): Vec3 {
    Vec3(a.x * k, a.y * k, a.z * k)
  }

  function Neg(a: Vec3): Vec3 {
    Vec3(-a.x, -a.y, -a.z)
  }

  function Dot(a: Vec3, b: Vec3): real {
    a.x * b.x + a.y * b.y + a.z * b.z
  }

  function Cross(a: Vec3, b: Vec3): Vec3 {
    Vec3(a.y * b.z - a.z * b.y, a.z * b.x - a.x * b.z, a.x * b.y - a.y * b.x)
  }

  /** Squared length; the camera's invariants are stated on it so that no
      square root is needed. */
  function Norm2(a: Vec3): real {
    Dot(a, a)
  }

  function QNorm2(q: Quat): real {
    q.x * q.x + q.y * q.y + q.z * q.z + q.w * q.w
  }

  /** cgmath's `Matrix3 * Vector3`: a combination of the columns. */
  function MulVec(m: Mat3, v: Vec3): Vec3 {
    Add(Add(Scale(m.c0, v.x), Scale(m.c1, v.y)), Scale(m.c2, v.z))
  }

  /** An oracle for `f32::sqrt`, `f32::sin` and `f32::cos`, which Dafny's
      reals cannot compute. */
  datatype Maths = Maths(sqrt: real -> real, sin: real -> real, cos: real -> real)

  ghost predicate ValidMaths(m: Maths) {
    && (forall x :: 0.0 <= x ==> 0.0 <= m.sqrt(x) && m.sqrt(x) * m.sqrt(x) == x)
    && (forall t :: m.sin(t) * m.sin(t) + m.cos(t) * m.cos(t) == 1.0)
  }

  /** `magnitude()`: the non-negative square root of the squared length. */
  function Magnitude(m: Maths, a: Vec3): (r: real)
    requires ValidMaths(m)
    ensures 0.0 <= r && r * r == Norm2(a)
  {
    m.sqrt(Norm2(a))
  }

  /** `normalize()`. In f32 a zero vector gives NaN components; the model
      reports that case as None instead of inventing a value. What the
      result means is stated separately by `NormalizeIsUnit`, so that the
      division stays out of sight of proofs that do not need it. */
  function Normalize(m: Maths, a: Vec3): (r: Option<Vec3>)
    requires ValidMaths(m)
    ensures r.None? <==> a == Zero
  {
    if a == Zero then None
    else
      MagnitudePositive(m, a);
      Some(Scale(a, 1.0 / Magnitude(m, a)))
  }

  /** Only the zero vector has magnitude zero. */
  lemma MagnitudePositive(m: Maths, a: Vec3)
    requires ValidMaths(m) && a != Zero
    ensures Magnitude(m, a) > 0.0
  {
    var len := Magnitude(m, a);
    NormPositive(a);
    assert len == 0.0 ==> len * len == 0.0;
  }

  /** The normalised positive x axis is the unit x vector. */
  lemma NormalizeOnAxis(m: Maths, d: real)
    requires ValidMaths(m) && 0.0 < d
    ensures Normalize(m, Vec3(d, 0.0, 0.0)) == Some(Vec3(1.0, 0.0, 0.0))
  {
    var a := Vec3(d, 0.0, 0.0);
    var len := Magnitude(m, a);
    assert Norm2(a) == d * d;
    SameRoot(len, d);
    assert d * (1.0 / d) == 1.0;
    assert Scale(a, 1.0 / d) == Vec3(1.0, 0.0, 0.0);
  }

  /** Two non-negative reals with the same square are equal. */
  lemma SameRoot(len: real, d: real)
    requires 0.0 <= len && len * len == d * d && 0.0 < d
    ensures len == d
  {
    assert (len - d) * (len + d) == len * len - d * d;
    ProductZero(len - d, len + d);
  }

  lemma ProductZero(a: real, b: real)
    requires a * b == 0.0 && b != 0.0
    ensures a == 0.0
  {
    assert a * b / b == a;
  }

  /** A normalised vector has unit length and points the same way as the
      vector it came from. */
  lemma NormalizeIsUnit(m: Maths, a: Vec3)
    requires ValidMaths(m) && a != Zero
    ensures Norm2(Normalize(m, a).value) == 1.0
    ensures exists k: real :: 0.0 < k && Normalize(m, a).value == Scale(a, k)
  {
    var len := Magnitude(m, a);
    NormalizeHasUnitLength(a, len);
    assert Normalize(m, a).value == Scale(a, 1.0 / len);
  }

  lemma NormalizeHasUnitLength(a: Vec3, len: real)
    requires a != Zero && 0.0 <= len && len * len == Norm2(a)
    ensures len > 0.0
    ensures Norm2(Scale(a, 1.0 / len)) == 1.0
  {
    NormPositive(a);
    if len == 0.0 {
      assert false;
    }
    ScaledNorm(a.x, a.y, a.z, 1.0 / len, len * len);
  }

  /** Scaling by `k` multiplies the squared length by `k * k`; with `k`
      the reciprocal of the length this gives one. */
  lemma ScaledNorm(x: real, y: real, z: real, k: real, n: real)
    requires n == x * x + y * y + z * z && k * k * n == 1.0
    ensures (x * k) * (x * k) + (y * k) * (y * k) + (z * k) * (z * k) == 1.0
  {
    assert (x * k) * (x * k) + (y * k) * (y * k) + (z * k) * (z * k) == k * k * n;
  }

  /** Only the zero vector has squared length zero. */
  lemma ZeroNorm(a: Vec3)
    requires Norm2(a) == 0.0
    ensures a == Zero
  {
    SquareNonNegative(a.x);
    SquareNonNegative(a.y);
    SquareNonNegative(a.z);
    SquareZero(a.x);
    SquareZero(a.y);
    SquareZero(a.z);
  }

  lemma NormPositive(a: Vec3)
    requires a != Zero
    ensures Norm2(a) > 0.0
  {
    SquareNonNegative(a.x);
    SquareNonNegative(a.y);
    SquareNonNegative(a.z);
    if Norm2(a) == 0.0 {
      ZeroNorm(a);
    }
  }

  lemma SquareNonNegative(r: real)
    ensures r * r >= 0.0
  {
    if r < 0.0 { assert r * r == (-r) * (-r); }
  }

  /** A square is zero only at zero: dividing `r * r` by a non-zero `r`
      gives `r` back. */
  lemma SquareZero(r: real)
    requires r * r == 0.0
    ensures r == 0.0
  {
    if r != 0.0 {
      Cancel(r, r * r);
    }
  }

  lemma Cancel(r: real, s: real)
    requires r != 0.0 && s == r * r
    ensures s / r == r
  {}
}

=== FILE: wrappers.dfy ===
/** Failure-compatible Option and Result types used by every other module.
    Rust's `?` operator is modelled with Dafny's `:-`. */
module Wrappers {

  datatype Option<+T> = None | Some(value: T) {
    predicate IsFailure() {
      None?
    }

    function PropagateFailure<U>(): Option<U>
      requires None?
    {
      None
    }

    function Extract(): T
      requires Some?
    {
      value
    }
  }

  datatype Result<+T, +E> = Ok(value: T) | Err(error: E) {
    predicate IsFailure() {
      Err?
    }

    function PropagateFailure<U>(): Result<U, E>
      requires Err?
    {
      Err(error)
    }

    function Extract(): T
      requires Ok?
    {
      value
    }
  }
}
